=== FILE: README.md ===
# Baseball card creator — a Dafny model

This project models the core of the baseball card creator web application in
Dafny: the template catalog, the card editor, the canvas renderer that draws
the front and the back of a card, the procedural texture service, the creator
and dashboard pages, and the backend card routes with the card document
schema. Everything is written as pure functions over immutable data. The
browser, the database, the clock and the image decoders become parameters.

Modules, one concept each:

- `Wrappers`, `Seqs`, `Text`: `Option`/`Result`, duplicate-freedom of lists,
  and the string operations the source uses. These are JavaScript's `||` on
  strings, `toUpperCase` on the ASCII letters, `trim`,
  `replace(/\s+/g, '_')` and decimal printing of numbers.
- `Templates`, `TemplateCatalog`, `CardTemplates`: template and layer
  records, the 40 catalog entries in their eight categories, and the three
  catalog lookups.
- `Cards`, `Editor`: the card data the form edits, the change handlers, the
  featured-stat picker and the template tab.
- `Photo`, `Drawing`, `Featured`, `CanvasStyles`, `CardBack`, `Canvas`. These
  cover placing and dragging the photo, the drawing operations the renderer
  emits, the featured-stat row, the twelve fixed front layouts, the back of
  the card, the layer interpreter and the dispatch between back, layered
  front and fixed front.
- `Textures`: the texture generator selection, its cache key and its cache.
- `Schema`, `Store`: the card document and its validators, and the list,
  read, create, update and delete routes over a collection of documents.
- `Downloads`, `Creator`, `Dashboard`: the two pages and their buttons.

## Model

| member | source | states |
|---|---|---|
| CardTemplates.GetTemplateById | frontend/src/utils/cardTemplates.js:769-771 | The lookup is total and always returns a catalog template. It returns a template with the id asked for whenever the catalog has one, and the first catalog entry otherwise. |
| CardTemplates.GetTemplateByOwnId | frontend/src/utils/cardTemplates.js:769-771 | Looking up any catalog template by its own id gives back that very template. |
| CardTemplates.CatalogIdsDistinct | frontend/src/utils/cardTemplates.js:13-767 | No two of the 40 catalog templates share an id. |
| CardTemplates.DefaultIsDonruss | frontend/src/utils/cardTemplates.js:17-58 | The fallback template, the first entry, is the 1985 Donruss template, and it is layered. |
| CardTemplates.CatalogLayersKnown | frontend/src/utils/cardTemplates.js:13-767 | Every layer of every layered catalog template has one of the five types the renderer interprets. |
| CardTemplates.GetTemplatesByCategory | frontend/src/utils/cardTemplates.js:773-775 | A template is listed exactly when it is in the catalog and has that category. |
| CardTemplates.ByCategoryInOrder | frontend/src/utils/cardTemplates.js:773-775 | The filter keeps catalog order: filtering the catalog equals filtering any split of it and joining the parts. |
| CardTemplates.ByCategoryCount | frontend/src/utils/cardTemplates.js:773-775 | Each template occurs in its own category's list as often as in the catalog, and in no other list. |
| CardTemplates.UnknownCategoryEmpty | frontend/src/utils/cardTemplates.js:773-779 | A label that is not one of the categories selects no template. |
| CardTemplates.GetAllCategories | frontend/src/utils/cardTemplates.js:777-779 | There are eight pairwise distinct labels, and every catalog template's category is among them. |
| CardTemplates.CategoriesPartitionCatalog | frontend/src/utils/cardTemplates.js:773-779 | The per-category lists over all categories hold, together, exactly the catalog's templates, as a multiset. |
| Templates.FindById | frontend/src/utils/cardTemplates.js:770 | `find` gives the first position whose id matches, or none exactly when no entry matches. |
| Templates.WithCategory | frontend/src/utils/cardTemplates.js:774 | The category filter keeps exactly the entries of that category and is never longer than its input. |
| Cards.SetField | frontend/src/components/CardEditor.js:8-13 | After a change the field reads back as the new value, and every other field and every stat is unchanged. |
| Cards.SetStat | frontend/src/components/CardEditor.js:15-23 | After a change that stat reads as the new value or, when that is empty, the default, and every field and every other stat reads as before. |
| Cards.StatOr | frontend/src/components/CardCanvas.js:100 | The result is the stored value when it is present and non-empty, and the default otherwise. |
| Cards.ColumnLabel | frontend/src/components/CardCanvas.js:90-101 | The label is the short label of a known key, and the upper-cased key for any other key. |
| Editor.Step | frontend/src/components/CardEditor.js:8-33 | What one editor action does. A field or stat edit rewrites only that field or stat. An upload fills only the photo or the logo, and without a file it changes nothing. A click on an offered stat toggles it, and a click on a stat the picker hides changes nothing. A template pick selects the listed template at that position of the category, or keeps the current one when there is none. No other action changes the template or the featured stats. |
| Editor.Run | frontend/src/components/CardEditor.js:8-33 | After any sequence of actions the template is a catalog template or the starting one. Without a template pick it is the starting one, and without a stat click the featured stats are the starting ones. |
| Editor.Offered | frontend/src/components/CardEditor.js:457-458 | The picker offers exactly the stats whose value is non-empty. |
| Editor.Remove | frontend/src/components/CardEditor.js:492 | Removing a key drops every occurrence of it and keeps every other key. |
| Editor.RemoveDistinct | frontend/src/components/CardEditor.js:492 | On a duplicate-free selection, removing a selected key removes exactly one entry and keeps the list duplicate-free. |
| Editor.Toggle | frontend/src/components/CardEditor.js:490-496 | After a click the key is selected exactly when it was not selected before and fewer than three were. Other keys are untouched. At most three distinct keys stay at most three distinct keys. |
| Editor.ToggleTwiceAdded | frontend/src/components/CardEditor.js:490-496 | Clicking an unselected stat twice, with room to add it, restores the selection. |
| Editor.ToggleTwiceSelected | frontend/src/components/CardEditor.js:490-496 | Clicking a selected stat twice moves it to the end; the others keep their order. |
| Editor.RunKeepsValid | frontend/src/components/CardEditor.js:460-496 | Under any sequence of actions the editor keeps at most three featured stats, none twice, and a catalog template. |
| Editor.ShownCategories | frontend/src/components/CardEditor.js:74-77 | The template tab lists a category exactly when its list of templates is not empty, and never more categories than it is given. |
| Editor.ShownCategoriesHaveTemplates | frontend/src/components/CardEditor.js:74-77 | The template tab lists a category exactly when some catalog template belongs to it. |
| Editor.Pick | frontend/src/components/CardEditor.js:75-86 | A click on a grid position selects the template shown there, which belongs to the clicked category; a click outside the grid keeps the current template. |
| Photo.CoverScale | frontend/src/components/CardCanvas.js:66-72 | The scale makes the photo at least 1.2 times its box on both sides, and exactly 1.2 times on the tighter side. |
| Photo.InitialPose | frontend/src/components/CardCanvas.js:62-84 | The placement as written: the photo is centred on the 340 by 340 box at (30, 30) and covers it, whatever the template's clip is. |
| Photo.InitialPoseMissesLayeredClip | frontend/src/components/CardCanvas.js:62-84 | On a layered template a square photo placed as written ends at y = 404, while its clip reaches 420. |
| Photo.CentredPose | frontend/src/components/CardCanvas.js:62-84 | The corrected placement is centred on the clip actually used, and it covers that clip for every photo and every clip. |
| Photo.CentredPoseAgrees | frontend/src/components/CardCanvas.js:76-82 | On the box the source designed for, the corrected placement is exactly the one the source computes. |
| Photo.Clamp | frontend/src/components/CardCanvas.js:162-163 | The clamp keeps values inside the bounds as they are and pulls others into the bounds. When the bounds cross, the upper bound wins. |
| Photo.Drag | frontend/src/components/CardCanvas.js:151-165 | A drag keeps the scale. The dragged photo covers the clip whenever it is at least as large as the clip. A drop that already covers the clip is kept as it is. |
| Photo.DragCoversAfterInitialPose | frontend/src/components/CardCanvas.js:151-165 | Once dragged, a photo placed as written covers any clip that fits in 1.2 times the placement box. |
| Photo.DragAll | frontend/src/components/CardCanvas.js:151-168 | A sequence of drags never changes the scale, and a last drop that already covers the clip is where the photo ends up. |
| Photo.DragsKeepCover | frontend/src/components/CardCanvas.js:151-168 | Starting from the corrected placement, any sequence of drags keeps the clip covered. |
| Featured.FeaturedOps | frontend/src/components/CardCanvas.js:87-131 | Every featured key is drawn, in the order chosen, as its own column. A column shows the key's label over its value, or an empty text when the value is missing. |
| Featured.ColumnsAdvance | frontend/src/components/CardCanvas.js:97-102 | Columns are one third of the panel apart, and the first three span the panel from 30 to 370. |
| Drawing.Raw | frontend/src/components/CardCanvas.js:226-229 | A raw layer number is passed through, and a missing one draws at the library default 0. |
| Drawing.NumOr | frontend/src/components/CardCanvas.js:192-195 | `field \|\| d` on numbers: 0 and a missing field both give the default. |
| Drawing.Plus | frontend/src/components/CardCanvas.js:247 | Arithmetic on a missing layer field gives NaN. |
| Canvas.TextureKey | frontend/src/components/CardCanvas.js:187 | A texture layer is drawn from its texture file when that is non-empty, and otherwise from its generated texture's name. |
| Canvas.BorderSide | frontend/src/components/CardCanvas.js:212-213 | A border side is the inner size when it is given and non-zero. Otherwise it is the card size less twice the offset, or NaN when the offset is missing. |
| Canvas.BannerY | frontend/src/components/CardCanvas.js:248 | A banner's text baseline is finite exactly when the layer has both `y` and `height`. |
| Canvas.BannerColor | frontend/src/components/CardCanvas.js:253 | The banner text colour is the layer's colour when it is non-empty, else black. |
| Canvas.LayerOps | frontend/src/components/CardCanvas.js:184-286 | How many ops each layer type draws: two for a banner, one for a border or strip, one for a texture only once its image has loaded, none for an unknown type. A texture fills its box with the image, and a missing or zero size stretches it to the 400 by 560 card. A border is an outline whose size is NaN unless the inner size or the offset is given. Strips and banners fill the layer's box, a missing field reading as 0. A banner's text sits 5 to the right of the box, is NaN without the fields it adds to, and shows the team or player name, or "TEAM" / "PLAYER NAME" when the name is empty. |
| Canvas.BannerMissingX | frontend/src/components/CardCanvas.js:259-282 | A name banner without `x` puts its box at 0 but its text at NaN. |
| Canvas.LayersOpsConcat | frontend/src/components/CardCanvas.js:183-287 | Layers are drawn in list order: the ops of joined lists are the joined ops. |
| Canvas.LayersOps | frontend/src/components/CardCanvas.js:183-287 | A layer list draws at most two ops per layer, and nothing when no layer has a known type. |
| Canvas.LayersOpsPlain | frontend/src/components/CardCanvas.js:183-287 | Layers never draw the photo, the logo or the featured backdrop. |
| Canvas.LayeredOps | frontend/src/components/CardCanvas.js:175-319 | The layered front draws its layers first, then the photo in clip (40, 80, 320, 340) once loaded, then the logo once loaded. When stats are featured it draws the backdrop and, last, the featured columns. The op count is the sum of these parts. The photo comes right after the layers' ops, the logo right after the photo (or the layers when there is no photo), and the backdrop right before the featured columns. |
| Canvas.Render | frontend/src/components/CardCanvas.js:2099-2136 | The back shows the back layout. A layered front starts with its layers' ops, so they lie under everything else. Any other front is the fixed layout of the template's id. |
| Canvas.FaceOf | frontend/src/components/CardCanvas.js:2099-2136 | The back is shown exactly when asked for. Otherwise the layer interpreter is used exactly when the template has layers, even an empty list. Otherwise the fixed layout for the id is used. |
| Canvas.BackHasNoImages | frontend/src/components/CardCanvas.js:2099-2102 | The back never shows the photo, the logo or the featured stats, whatever the template. |
| Canvas.FeaturedOnlyLayered | frontend/src/components/CardCanvas.js:303-316 | The featured backdrop appears exactly on the front of a layered template with at least one featured stat. |
| Canvas.PhotoClipOfFront | frontend/src/components/CardCanvas.js:134-172 | On the front, the photo is drawn in the clip of the layout in use exactly when it has loaded. |
| Canvas.LoadKey | frontend/src/components/CardCanvas.js:20-58 | Only texture layers load images, and always under a non-empty key. |
| Canvas.LoadKeyIsTextureKey | frontend/src/components/CardCanvas.js:26-50 | The loader stores an image under the very key the interpreter looks it up by. |
| Canvas.LoadTextures | frontend/src/components/CardCanvas.js:19-59 | Loading never forgets an image. Every new key belongs to some texture layer of the template. |
| Canvas.UnknownTextureNeverLoads | frontend/src/components/CardCanvas.js:43-55 | A texture name the service does not know never becomes loaded, as long as no file of that path loads and the cache holds no entry for it. |
| Canvas.LoadedLayerDrawn | frontend/src/components/CardCanvas.js:185-203 | Once a layer's image is loaded, the layer is drawn filled with it. |
| CanvasStyles.StyleFor | frontend/src/components/CardCanvas.js:2109-2135 | Every id without a layout of its own gets the classic layout, and only the vintage layout has no logo. |
| CanvasStyles.StyleForWellFormed | frontend/src/components/CardCanvas.js:321-1982 | Every fixed layout has its photo clip on the card and within the photo's initial cover. Each writes the player name and then the team name first, and uses the standard stat defaults. |
| CanvasStyles.StyleOps | frontend/src/components/CardCanvas.js:321-450 | A fixed front draws the photo exactly when it has loaded, and a logo exactly when it has loaded and the layout has a logo box. Then come its texts, and never a featured backdrop. |
| CanvasStyles.TextOps | frontend/src/components/CardCanvas.js:321-450 | A layout writes one text per text spec, in order, at the spec's position. |
| CanvasStyles.StyleShowsNames | frontend/src/components/CardCanvas.js:321-1982 | Every fixed front's first two texts are the player name and the team name, upper-cased or not. |
| CardBack.Row | frontend/src/components/CardCanvas.js:2028-2031 | An optional information row is drawn exactly when its value is non-empty. |
| CardBack.Header | frontend/src/components/CardCanvas.js:2009-2027 | The back starts with the upper-cased player name, then the information header, team, position (or N/A) and year. |
| CardBack.InfoRows | frontend/src/components/CardCanvas.js:2028-2031 | One row is drawn per filled-in optional field. The hometown row is drawn exactly when a hometown is given. |
| CardBack.Batting | frontend/src/components/CardCanvas.js:2033-2055 | The batting table is always drawn: the heading first, then 13 stat lines, 14 texts between y = 220 and y = 330. |
| CardBack.BattingShowsStats | frontend/src/components/CardCanvas.js:2033-2055 | Each batting line reads its caption, such as `AVG: `, then the player's stat, or the back's default for that stat when it is missing or empty. The defaults are `.000` for AVG, OBP and SLG and `0` otherwise. Every line shows one of the editor's batting stats. |
| CardBack.Pitching | frontend/src/components/CardCanvas.js:2057-2075 | The pitching table has 8 texts for a pitcher and none otherwise. A pitcher's table starts with its heading. |
| CardBack.PitchingShowsStats | frontend/src/components/CardCanvas.js:2057-2075 | For a pitcher, each pitching line reads its caption, then the stat or its default: `N/A` for ERA and WHIP, `0.0` for IP, `0` otherwise. The lines follow the editor's pitching keys in order. |
| CardBack.Footer | frontend/src/components/CardCanvas.js:2085-2094 | The footer is the year followed by the application name. |
| CardBack.BackOps | frontend/src/components/CardCanvas.js:1983-2097 | The back is all text, with no images and no backdrop. It has 20 texts, plus one per filled optional row, plus 8 for a pitcher. It starts with the name and ends with the footer. |
| CardBack.PitchingShownIff | frontend/src/components/CardCanvas.js:2057-2060 | The pitching table appears exactly when the player has an ERA, wins or innings pitched. |
| CardBack.HometownShownIff | frontend/src/components/CardCanvas.js:2028 | The hometown row appears exactly when a hometown is filled in. |
| Textures.GeneratorFor | frontend/src/utils/textureGenerator.js:480-514 | A name selects a generator exactly when it is one of the eleven accepted names. `sand` is the only alias. Matching is exact, so case matters. |
| Textures.GeneratorForName | frontend/src/utils/textureGenerator.js:480-514 | Every one of the ten generators is reachable by its own name. |
| Textures.GeneratorForInjective | frontend/src/utils/textureGenerator.js:480-514 | Two names select the same generator only when they are equal or are `sand` and `sandstone`. |
| Textures.CacheKey | frontend/src/utils/textureGenerator.js:471 | The key starts with the texture name and an underscore and ends in a digit. |
| Textures.CacheKeyInjective | frontend/src/utils/textureGenerator.js:471 | Different requests never share a cache key: the key determines the name, the width and the height. |
| Textures.CacheKeyDefaults | frontend/src/utils/textureGenerator.js:470-471 | A request without sizes is the same request as one for 512 by 512. |
| Textures.GetTexture | frontend/src/utils/textureGenerator.js:470-525 | A cached key is answered from the cache. An unknown name is rejected. Otherwise the image is generated and cached once it loads, and a failed load changes nothing. Entries already cached are never changed. |
| Textures.GetTextureCached | frontend/src/utils/textureGenerator.js:473-475 | A second request for a texture is answered with the same image, without loading. |
| Textures.GetTextureStable | frontend/src/utils/textureGenerator.js:470-525 | The cache always holds, under each key, the image that key asks for. So every answer has the generator of the name and the size requested. |
| Textures.ClearCache | frontend/src/utils/textureGenerator.js:528-530 | After clearing, a request succeeds only by generating afresh: the name must be known and the image must load. |
| Schema.Violations | backend/models/Card.js:14-45 | A document fails exactly these checks: a missing or empty front or back image, a template outside the enumeration, or more than three featured stats. |
| Schema.Save | backend/models/Card.js:90-93 | A document is saved exactly when it has no violation, and saving stamps its update time. Otherwise the error is its violations. |
| Schema.SaveAgain | backend/models/Card.js:90-93 | A saved document is valid, and saving it again changes only its update time. |
| Schema.NewDoc | backend/models/Card.js:10-87 | A new document takes the schema's defaults for a missing title, template and featured stats. Both of its times are the creation time. |
| Schema.Stored | backend/models/Card.js:46-77 | The stored card data has no photo and no logo, because the schema declares no path for them. It keeps exactly the stats the schema declares, with their values, and every text field unchanged. |
| Schema.StoredIdempotent | backend/models/Card.js:46-77 | Storing card data that is already stored changes nothing. |
| Schema.EditorStatsStored | backend/models/Card.js:55-76 | Every stat the editor edits is declared by the schema. So card data without images and with only those stats is stored unchanged. |
| Schema.DefaultTemplateValid | backend/models/Card.js:31-35 | The schema's default template is in its own enumeration. |
| Store.SharedErrors | backend/routes/cards.js:69-88 | A request is rejected for a given template outside the route's list, a non-string title, or a trimmed title over 100 characters, and only for these. |
| Store.CreateErrors | backend/routes/cards.js:68-88 | Creating additionally rejects a missing or empty `imageData`. |
| Store.UpdateErrors | backend/routes/cards.js:141-161 | Updating rejects only an `imageData` that is given and empty, besides the shared checks. |
| Store.CreateChecksStricter | backend/routes/cards.js:65-161 | A body that passes the create checks passes the update checks. |
| Store.SanitizedTitle | backend/routes/cards.js:88 | The handler reads a string title trimmed. |
| Store.Code | backend/routes/cards.js:50-131 | Each outcome maps to its HTTP code: 201 only for a creation, and a 4xx code only for a bad request or a missing card. |
| Store.Draft | backend/routes/cards.js:110-122 | A new card belongs to the user and carries the request's images and featured stats. Its card data is the request's without the photo and the logo, and only with the stats the schema declares (`Schema.Stored`). A missing or empty template becomes `classic`, and a missing or blank title becomes `Untitled Card`. |
| Store.Create | backend/routes/cards.js:65-133 | A failed request check gives 400. A failed schema check gives 500 and stores nothing. Otherwise the card is appended to the collection with 201. |
| Store.CreateKeepsInvariant | backend/routes/cards.js:110-122 | Creating keeps ids unique and documents in creation order. |
| Store.RouteAndSchemaDisagree | backend/routes/cards.js:69-87 | The routes accept six template ids the schema then refuses: donruss1985, topps1990, sandstone, canvas, concrete, brushedmetal. |
| Store.EnumWithinAllowed | backend/routes/cards.js:69-87 | Every id the schema accepts passes the route's check. |
| Store.FindOwned | backend/routes/cards.js:44-47 | The lookup matches on both the card id and the owner. |
| Store.Get | backend/routes/cards.js:42-60 | Reading succeeds exactly for a card the user owns, and gives 404 otherwise. It never changes the collection. |
| Store.Delete | backend/routes/cards.js:222-240 | Deleting succeeds exactly for a card the user owns and removes exactly that card. Otherwise it gives 404 and nothing changes. |
| Store.DeleteRemoves | backend/routes/cards.js:222-240 | After a delete no card with that id is left, every other card is still there, and the invariant holds. |
| Store.Patch | backend/routes/cards.js:195-204 | Each field the body gives replaces the stored one; `template` and `thumbnail` only when non-empty. Given card data is stored as the schema keeps it: no photo, no logo. The id, owner and creation time never change. |
| Store.PatchNothing | backend/routes/cards.js:195-204 | An empty body changes nothing. |
| Store.PatchIdempotent | backend/routes/cards.js:195-204 | Applying the same body twice is applying it once. |
| Store.MergeSettings | backend/routes/cards.js:200 | Incoming settings win; current ones not overridden stay. |
| Store.Update | backend/routes/cards.js:138-217 | The order of outcomes: 400 for a bad body, then 404 for a card the user does not own, then 500 for a patched card the schema refuses. Otherwise exactly that card is replaced by its patched, re-stamped version. Only success changes the collection. Both directions hold: the update succeeds exactly when the body passes the request checks and the first card with that id the user owns, once patched, passes the schema, and it gives 500 exactly when that patched card fails the schema. |
| Store.UpdateKeepsInvariant | backend/routes/cards.js:183-206 | Updating keeps ids unique and the creation order. |
| Store.CreateKeepsValid | backend/routes/cards.js:110-122 | Creating keeps every stored card valid under the schema. |
| Store.UpdateKeepsValid | backend/routes/cards.js:195-206 | Updating keeps every stored card valid under the schema. |
| Store.DeleteKeepsValid | backend/routes/cards.js:224-227 | Deleting keeps every stored card valid under the schema. |
| Store.OthersCardsHidden | backend/routes/cards.js:183-192 | Another user's card behaves as a missing one. Reading and deleting it give 404; updating it gives 404, or 400 for a bad body. The collection does not change. |
| Store.QueryOr | backend/routes/cards.js:12-13 | A missing, unparsable or zero query value takes the default. |
| Store.Pages | backend/routes/cards.js:30 | The page count has the sign of the limit. Its exact value is pinned by `Store.PagesLeast` for a positive limit and by `Store.PagesLeastNegative` for a negative one. |
| Store.PagesLeast | backend/routes/cards.js:30 | For a positive limit, the page count is the least number of pages that holds every card. |
| Store.PagesLeastNegative | backend/routes/cards.js:30 | For a negative limit, `Math.ceil(total / limit)` times the limit is the largest multiple of the limit not above the total. |
| Store.OwnedNewest | backend/routes/cards.js:16-17 | Only the user's cards are listed, and the list is never longer than the collection. With `Store.OwnedNewestMembers` and `Store.OwnedNewestDistinct`, each owned card is listed exactly once. |
| Store.OwnedNewestDistinct | backend/routes/cards.js:16-22 | When the collection's ids are distinct, the listed cards' ids are distinct too. So each owned card appears once, and the total counts the user's documents. |
| Store.OwnedNewestMembers | backend/routes/cards.js:16 | A card is listed exactly when it is stored and the user owns it. |
| Store.OwnedNewestOrdered | backend/routes/cards.js:17 | The listed cards are newest first. |
| Store.Window | backend/routes/cards.js:18-19 | A window holds the cards from the skip position on, no more than asked for and as far as they exist. |
| Store.WithoutImages | backend/routes/cards.js:20 | A listed card is the stored card without its front image. |
| Store.List | backend/routes/cards.js:10-37 | The listing gives 500 exactly when the skip `(page - 1) * limit` is negative. Otherwise the page holds the user's cards newest first from `(page - 1) * limit` on, without front images. The page holds exactly `min(abs(limit), total - skip)` cards, and none when the skip reaches the total. The listing also reports the total and the page count. |
| Store.ListOwnOnly | backend/routes/cards.js:16-20 | No listed card belongs to another user or carries its front image. |
| Store.ListDefaults | backend/routes/cards.js:12-20 | Without a query, the user's first twenty cards, newest first, are listed. |
| Text.Or | frontend/src/components/CardCanvas.js:100 | `a \|\| b` is one of the two strings. It is non-empty exactly when one of them is, and it is `a` whenever `a` is non-empty. |
| Text.Upper | frontend/src/components/CardCanvas.js:2013 | Upper-casing keeps the length and maps each character on its own, the ASCII letters a to z to A to Z and every other character to itself. |
| Text.UpperIdempotent | frontend/src/components/CardCanvas.js:2013 | Upper-casing twice is upper-casing once. |
| Text.Collapse | frontend/src/pages/Creator.js:132 | Replacing white-space runs never lengthens the name, and leaves it empty only when it was empty. |
| Text.CollapseNoSpace | frontend/src/pages/Creator.js:132 | Replacing white-space runs leaves no white space. |
| Text.CollapseKeepsVisible | frontend/src/pages/Creator.js:132 | Replacing white-space runs keeps every other character, in order. |
| Text.CollapseRun | frontend/src/pages/Creator.js:132 | A run of white space between two words becomes exactly one underscore, and each side is handled on its own. |
| Text.CollapseIdentity | frontend/src/pages/Creator.js:132 | A string without white space is left as it is. |
| Text.Trim | backend/routes/cards.js:88 | Trimming never lengthens a title. |
| Text.TrimUntouched | backend/routes/cards.js:88 | A title that neither starts nor ends with white space is left as it is. |
| Text.TrimSlice | backend/routes/cards.js:88 | The trimmed title is a slice of the title that neither starts nor ends with white space. |
| Text.TrimTrimmed | backend/routes/cards.js:88 | Trimming twice is trimming once. |
| Text.Decimal | frontend/src/pages/Creator.js:21 | A number prints as a non-empty string of digits, which starts with 0 only for 0 itself. |
| Text.DecimalRoundTrip | frontend/src/pages/Creator.js:21 | A year printed in decimal reads back as the same year. |
| Text.DecimalInjective | frontend/src/utils/textureGenerator.js:471 | Different sizes print differently. |
| Creator.InitialCard | frontend/src/pages/Creator.js:17-50 | The form starts without images, with the current year, and with zeroed batting and blank pitching stats. |
| Creator.Initial | frontend/src/pages/Creator.js:16-54 | The page starts on donruss1985 with nothing featured, a state the editor keeps valid. |
| Creator.InitialStatsOffered | frontend/src/pages/Creator.js:28-49 | Every batting stat can be featured from the start. No pitching stat can, and the back starts without a pitching table. |
| Creator.Canvases | frontend/src/pages/Creator.js:213-228 | The second canvas is the card's back and shows no images. The first shows featured stats exactly on a layered template with some chosen. |
| Creator.SavedTitle | frontend/src/pages/Creator.js:107 | The title is the player's and team's names around a dash. |
| Creator.SavedTitleNotBlank | frontend/src/pages/Creator.js:107 | The title never trims to empty, so a saved card never takes the default title. |
| Creator.SaveBody | frontend/src/pages/Creator.js:98-108 | The posted body carries both captured images, the template id, the card, the featured stats and the title, and no settings. |
| Creator.HandleSave | frontend/src/pages/Creator.js:56-120 | Without a photo nothing is posted. A posted card is created, refused (400) or failed (500), and only a creation changes the collection. |
| Creator.SaveCreatedIff | frontend/src/pages/Creator.js:56-108 | A save stores the card exactly when these all hold: a photo is uploaded, both captures are non-empty, the template is in the schema's enumeration, at most three stats are featured, and the trimmed title fits in 100 characters. |
| Creator.SaveBodyChecks | frontend/src/pages/Creator.js:98-108 | The posted body passes the route's checks exactly when the front capture is non-empty, the template is allowed and the title is short enough. |
| Creator.SaveDraftValid | frontend/src/pages/Creator.js:98-108 | The document made from the posted body passes the schema exactly when both captures are non-empty, the template is enumerated and at most three stats are featured. |
| Creator.SaveStoresCard | frontend/src/pages/Creator.js:98-108 | A created card is appended after the existing ones. It belongs to the user and holds the editor's card without its photo and logo, because the schema drops both. It also holds the featured stats, the template id and the trimmed title. |
| Creator.DefaultTemplateRefused | frontend/src/pages/Creator.js:16 | The page's starting template passes the route's check but not the schema's enumeration. |
| Creator.OffEnumNeverSaved | frontend/src/pages/Creator.js:56-108 | With a template outside the enumeration, the page's own default among them, no card is ever stored. |
| Creator.FileName | frontend/src/pages/Creator.js:132 | The file name has no white space when its suffix has none. It keeps every visible character of the name and the suffix, in order, and ends with the suffix. |
| Creator.FileNameOfPlainName | frontend/src/pages/Creator.js:132 | A name without white space is used as it is. |
| Creator.HandleDownload | frontend/src/pages/Creator.js:122-155 | Without a photo nothing is saved. Otherwise the front and the back capture are saved, each named after the player with no white space. |
| Creator.HandleDownloadGif | frontend/src/pages/Creator.js:157-186 | Without a photo nothing is saved. Otherwise the GIF is saved, named after the player with no white space. |
| Dashboard.Fetched | frontend/src/pages/Dashboard.js:16-26 | A failed request leaves the list empty. A successful one shows the listed cards. |
| Dashboard.FetchedOwnOnly | frontend/src/pages/Dashboard.js:18-19 | The page shows only the user's own cards, none with its front image. |
| Dashboard.WithoutCard | frontend/src/pages/Dashboard.js:35 | After filtering, no card with the deleted id is left. |
| Dashboard.WithoutCardMembers | frontend/src/pages/Dashboard.js:35 | The filter keeps exactly the cards with another id. |
| Dashboard.WithoutCardConcat | frontend/src/pages/Dashboard.js:35 | The kept cards stay in their order. |
| Dashboard.WithoutCardAbsent | frontend/src/pages/Dashboard.js:35 | A list without that id is left as it is. |
| Dashboard.HandleDelete | frontend/src/pages/Dashboard.js:28-41 | A request is sent exactly when the user confirms. The card leaves the list only when the server deleted it. |
| Dashboard.DeleteAgrees | frontend/src/pages/Dashboard.js:33-35 | After a confirmed delete the page and the collection agree: the card is gone from both, or neither changed. |
| Dashboard.FileName | frontend/src/pages/Dashboard.js:57 | The file is named after the listed title, or `baseball_card` when the title is empty, followed by the suffix. |
| Dashboard.HandleDownload | frontend/src/pages/Dashboard.js:43-78 | A failed fetch stops, and so does a card without both images. Otherwise the fetched front and back images are saved under the listed title. |
| Dashboard.HandleDownloadGif | frontend/src/pages/Dashboard.js:80-104 | A failed fetch stops, and so does a card without a GIF. Otherwise the fetched GIF is saved under the listed title. |
| Dashboard.StoredCardDownloads | frontend/src/pages/Dashboard.js:43-52 | A card the user owns in a collection the routes maintain always downloads, with its stored images. |
| Dashboard.CreatedCardNamed | frontend/src/pages/Dashboard.js:57 | A created card's title is never blank, so its files are named after it. |

## Left out

- Colours, fonts, corner radii, lines, gradients and decorative shapes of every layout: the drawing model keeps positions, texts, the photo clip, the logo box and the texture fill.
- The texture generators' pixels (random strokes and noise): an image is identified by its generator and size.
- Asynchronous ordering of image loads and of requests: which images have loaded is a parameter (`Assets`, `files`, `loads`), and each request's answer is a parameter.
- Photo rotation, and the stage's pixel ratio when capturing images: capture and GIF generation are parameters (`Captures`, the GIF string).
- Floating-point rounding: lengths are exact reals.
- `parseInt` of the query strings: a query is modelled as already parsed, `None` when missing or unparsable.
- The order of cards with equal creation times, which the database leaves unspecified. `Store.OwnedNewestOrdered` proves only that creation times do not increase.
- Store.Create: Mongoose casting of nested `cardData` (the year is stored as a Number) is not modelled. Apart from the photo, the logo and undeclared stats, which `Schema.Stored` drops, the card data is stored as posted.
- Store.MergeSettings: modelled, but the schema declares no `settings` path, so neither creating nor updating stores settings.
- Text.Upper: maps only the ASCII letters a to z. JavaScript's `toUpperCase` also upper-cases other letters (é to É) and can lengthen a string (ß to SS); names are modelled as ASCII in this respect.
- Store.Get, Store.Delete and Store.Update: an `:id` that is not a well-formed object id makes Mongoose throw a cast error, which the routes answer with 500. Ids are modelled as numbers, so this 500 path is not represented.
- Store.List, Store.Get, Store.Create, Store.Update and Store.Delete: a failing database call is caught and answered with 500. The database is modelled as always answering, so only the schema's refusals lead to 500.
- Store.Update: Mongoose casting of the new `cardData` on save (a year that is not a number fails with 500) is not modelled. Apart from the paths `Schema.Stored` drops, the card data is stored as posted.
- Photo.InitialPose, Photo.CentredPose, Photo.CoverScale, Photo.DragCoversAfterInitialPose and Photo.DragsKeepCover require a positive image width and height. An image of zero size, whose cover scale divides by zero in the source, is excluded.
- Fresh object ids and the clock are parameters; `Store.Create` requires the new id to be unused.
- Authentication, toasts, navigation, the loading spinner and the page layout.
- Creator.HandleDownload and Creator.HandleDownloadGif state each file name's visible characters as those of the name followed by those of the suffix, rather than spelling out the literal file name.
- The description text under the featured-stat picker says "up to 3". The renderer does not cut the list itself (CardCanvas.js:99), so `Featured.FeaturedOps` draws every key it is given; the limit comes from the picker and the schema.

## Findings

| source | as written | input that shows it | evidently intended | confidence | as-written member | corrected member |
|---|---|---|---|---|---|---|
| frontend/src/components/CardCanvas.js:62-84 | The first placement of the photo is computed for the 340 by 340 box at (30, 30) for every template. The layered templates clip the photo to (40, 80, 320, 340). | A 100 by 100 photo on a layered template is scaled by 4.08 and placed at y = -4. It ends at y = 404, but the clip runs to 420, so the bottom 16 units of the clip show no photo until the user drags it. | The photo starts centred on, and covering, the clip of the layout in use. | not executed | Photo.InitialPoseMissesLayeredClip | Photo.CentredPose |

## Notes

The template whitelists disagree. The routes accept six
template ids that the document schema then refuses
(`Store.RouteAndSchemaDisagree`). Among them is the page's own starting
template (`Creator.DefaultTemplateRefused`). So saving a card on
donruss1985, topps1990, sandstone, canvas, concrete or brushedmetal passes
the request checks and then fails with 500 (`Creator.OffEnumNeverSaved`).
The model keeps this behaviour as written.

Texture names are case-sensitive. The catalog's brushed-metal
template names its texture `brushedMetal`, which the texture service does
not accept, since names are matched exactly (`Textures.GeneratorFor`). That
template carries no layers, so the label is never requested.

=== FILE: back.dfy ===
/**
 * The card back, drawn for every template when the back is shown: the
 * player's name, an information block whose optional rows appear only when
 * filled in, the batting table, a pitching table shown only for pitchers,
 * and a footer with the year.
 */
module CardBack {
  import opened Text
  import opened Cards
  import opened Photo
  import opened Drawing

  /** The y of the first information line. */
  const StartY: real := 80.0

  /** An optional information row: drawn only when the value is non-empty. */
  function Row(value: string, y: real, caption: string): (r: seq<Op>)
    ensures Truthy(value) ==> r == [At(30.0, y, caption + value)]
    ensures !Truthy(value) ==> r == []
    ensures Band(r, y, y)
  {
    if Truthy(value) then [At(30.0, y, caption + value)] else []
  }

  /** `stats.era || stats.wins || stats.ip`: the player has pitching numbers. */
  predicate Pitcher(stats: map<string, string>)
  {
    HasStat(stats, "era") || HasStat(stats, "wins") || HasStat(stats, "ip")
  }

  /** Every op is a text whose y lies between `lo` and `hi`. */
  predicate Band(ops: seq<Op>, lo: real, hi: real)
  {
    forall i :: 0 <= i < |ops| ==> ops[i].Label? && ops[i].y.Fin? && lo <= ops[i].y.v <= hi
  }

  lemma {:induction false} BandConcat(a: seq<Op>, b: seq<Op>, lo: real, hi: real)
    requires Band(a, lo, hi) && Band(b, lo, hi)
    ensures Band(a + b, lo, hi)
  {
    forall i | 0 <= i < |a + b| ensures (a + b)[i].Label? && (a + b)[i].y.Fin? && lo <= (a + b)[i].y.v <= hi {
      if i < |a| {
        assert (a + b)[i] == a[i];
      } else {
        assert (a + b)[i] == b[i - |a|];
      }
    }
  }

  lemma {:induction false} BandWiden(a: seq<Op>, lo: real, hi: real, lo': real, hi': real)
    requires Band(a, lo, hi) && lo' <= lo && hi <= hi'
    ensures Band(a, lo', hi')
  {
  }

  lemma {:induction false} BandExcludes(a: seq<Op>, lo: real, hi: real, op: Op)
    requires Band(a, lo, hi) && op.Label? && op.y.Fin? && (op.y.v < lo || hi < op.y.v)
    ensures op !in a
  {
  }

  function Header(d: CardData): (r: seq<Op>)
    ensures |r| == 5 && Band(r, 28.0, 132.0)
    ensures r[0] == At(20.0, 28.0, Upper(d.playerName))
  {
    [At(20.0, 28.0, Upper(d.playerName)),
     At(30.0, StartY, "PLAYER INFORMATION"),
     At(30.0, StartY + 20.0, "Team: " + d.teamName),
     At(30.0, StartY + 36.0, "Position: " + Or(d.position, "N/A")),
     At(30.0, StartY + 52.0, "Year: " + d.year)]
  }

  function InfoRows(d: CardData): (r: seq<Op>)
    ensures |r| == FilledRows(d) && Band(r, 148.0, 196.0)
    ensures At(30.0, 148.0, "Hometown: " + d.hometown) in r <==> Truthy(d.hometown)
  {
    var a := Row(d.hometown, StartY + 68.0, "Hometown: ");
    var rest := LowerInfoRows(d);
    BandWiden(a, 148.0, 148.0, 148.0, 196.0);
    BandWiden(rest, 164.0, 196.0, 148.0, 196.0);
    BandConcat(a, rest, 148.0, 196.0);
    BandExcludes(rest, 164.0, 196.0, At(30.0, 148.0, "Hometown: " + d.hometown));
    a + rest
  }

  /** The height, weight and bats/throws rows, each only when filled in. */
  function LowerInfoRows(d: CardData): (r: seq<Op>)
    ensures |r| == FilledRows(d) - (if Truthy(d.hometown) then 1 else 0)
    ensures Band(r, 164.0, 196.0)
  {
    var b := Row(d.height, StartY + 84.0, "Height: ");
    var c := Row(d.weight, StartY + 100.0, "Weight: ");
    var e := Row(d.batsThrows, StartY + 116.0, "Bats/Throws: ");
    BandWiden(b, 164.0, 164.0, 164.0, 196.0);
    BandWiden(c, 180.0, 180.0, 164.0, 196.0);
    BandWiden(e, 196.0, 196.0, 164.0, 196.0);
    BandConcat(b, c, 164.0, 196.0);
    BandConcat(b + c, e, 164.0, 196.0);
    b + c + e
  }

  /** One line of a stat table: where it is written, its caption (with the
      colon), the stat it shows and the text shown when that stat is
      missing or empty. */
  datatype Slot = Slot(x: real, y: real, caption: string, key: string, dflt: string)

  /** The batting table, line by line as the back writes it. */
  const BattingTable: seq<Slot> := [
    Slot(35.0, StartY + 170.0, "AVG: ", "avg", ".000"),
    Slot(135.0, StartY + 170.0, "G: ", "games", "0"),
    Slot(220.0, StartY + 170.0, "AB: ", "atBats", "0"),
    Slot(35.0, StartY + 190.0, "H: ", "hits", "0"),
    Slot(135.0, StartY + 190.0, "2B: ", "doubles", "0"),
    Slot(220.0, StartY + 190.0, "3B: ", "triples", "0"),
    Slot(35.0, StartY + 210.0, "HR: ", "hr", "0"),
    Slot(135.0, StartY + 210.0, "RBI: ", "rbi", "0"),
    Slot(220.0, StartY + 210.0, "SB: ", "sb", "0"),
    Slot(35.0, StartY + 230.0, "BB: ", "walks", "0"),
    Slot(135.0, StartY + 230.0, "SO: ", "strikeouts", "0"),
    Slot(35.0, StartY + 250.0, "OBP: ", "obp", ".000"),
    Slot(135.0, StartY + 250.0, "SLG: ", "slg", ".000")]

  /** The pitching table, line by line as the back writes it. */
  const PitchingTable: seq<Slot> := [
    Slot(35.0, StartY + 350.0, "ERA: ", "era", "N/A"),
    Slot(135.0, StartY + 350.0, "W: ", "wins", "0"),
    Slot(220.0, StartY + 350.0, "L: ", "losses", "0"),
    Slot(35.0, StartY + 370.0, "SV: ", "saves", "0"),
    Slot(135.0, StartY + 370.0, "IP: ", "ip", "0.0"),
    Slot(35.0, StartY + 390.0, "K: ", "strikeoutsP", "0"),
    Slot(135.0, StartY + 390.0, "WHIP: ", "whip", "N/A")]

  /** The texts of a table's lines, each the caption and the stat or the
      line's fallback. */
  function StatLines(s: map<string, string>, slots: seq<Slot>): (r: seq<Op>)
    ensures |r| == |slots|
    ensures forall i :: 0 <= i < |r| ==>
      r[i] == At(slots[i].x, slots[i].y, slots[i].caption + StatOr(s, slots[i].key, slots[i].dflt))
  {
    seq(|slots|, i requires 0 <= i < |slots| =>
      At(slots[i].x, slots[i].y, slots[i].caption + StatOr(s, slots[i].key, slots[i].dflt)))
  }

  /** Every line of the table lies between `lo` and `hi`. */
  predicate Within(slots: seq<Slot>, lo: real, hi: real)
  {
    forall i :: 0 <= i < |slots| ==> lo <= slots[i].y <= hi
  }

  function Batting(s: map<string, string>): (r: seq<Op>)
    ensures |r| == 14 && Band(r, 220.0, 330.0)
    ensures r[0] == At(30.0, 220.0, "BATTING STATISTICS")
  {
    assert Within(BattingTable, 220.0, 330.0);
    [At(30.0, StartY + 140.0, "BATTING STATISTICS")] + StatLines(s, BattingTable)
  }

  function Pitching(s: map<string, string>): (r: seq<Op>)
    ensures |r| == (if Pitcher(s) then 8 else 0) && Band(r, 400.0, 470.0)
    ensures Pitcher(s) ==> r[0] == At(30.0, 400.0, "PITCHING STATISTICS")
  {
    assert Within(PitchingTable, 400.0, 470.0);
    if Pitcher(s) then [At(30.0, StartY + 320.0, "PITCHING STATISTICS")] + StatLines(s, PitchingTable)
    else []
  }

  /** What the back shows for a stat that is missing or empty: a rate
      reads `.000`, a pitching ratio `N/A`, innings `0.0`, a count `0`. */
  function BackDefault(k: string): string
  {
    if k in {"avg", "obp", "slg"} then ".000"
    else if k in {"era", "whip"} then "N/A"
    else if k == "ip" then "0.0"
    else "0"
  }

  /** Line `i + 1` reads the caption of slot `i` and its stat, or that
      stat's default when it is missing or empty. */
  ghost predicate Reads(r: seq<Op>, slots: seq<Slot>, s: map<string, string>)
    requires |slots| < |r|
  {
    forall i :: 0 <= i < |slots| ==>
      r[i + 1].Label? && r[i + 1].text == slots[i].caption + StatOr(s, slots[i].key, BackDefault(slots[i].key))
  }

  /** Every slot of the table falls back on its stat's default. */
  ghost predicate DefaultsAgree(slots: seq<Slot>)
  {
    forall i :: 0 <= i < |slots| ==> slots[i].dflt == BackDefault(slots[i].key)
  }

  /** Every batting line shows its stat, or that stat's default when it is
      missing or empty; the keys are the thirteen batting stats. */
  lemma {:induction false} BattingShowsStats(s: map<string, string>)
    ensures Reads(Batting(s), BattingTable, s)
    ensures forall i :: 0 <= i < |BattingTable| ==> BattingTable[i].key in BattingKeys
  {
    BattingDefaults();
  }

  lemma {:induction false} BattingDefaults()
    ensures DefaultsAgree(BattingTable)
  {
  }

  /** Every pitching line of a pitcher shows its stat, or that stat's
      default when it is missing or empty; the keys are the seven pitching
      stats. */
  lemma {:induction false} PitchingShowsStats(s: map<string, string>)
    requires Pitcher(s)
    ensures Reads(Pitching(s), PitchingTable, s)
    ensures forall i :: 0 <= i < |PitchingTable| ==> PitchingTable[i].key == PitchingKeys[i]
  {
    PitchingDefaults();
  }

  lemma {:induction false} PitchingDefaults()
    ensures DefaultsAgree(PitchingTable)
  {
  }

  function Footer(d: CardData): (r: seq<Op>)
    ensures |r| == 1 && Band(r, 530.0, 530.0)
    ensures r[0] == At(20.0, 530.0, " " + d.year + " Baseball Card Creator")
  {
    [At(20.0, CardHeight - 30.0, " " + d.year + " Baseball Card Creator")]
  }

  /** How many of the optional information rows are filled in. */
  function FilledRows(d: CardData): nat
  {
    (if Truthy(d.hometown) then 1 else 0) + (if Truthy(d.height) then 1 else 0) +
    (if Truthy(d.weight) then 1 else 0) + (if Truthy(d.batsThrows) then 1 else 0)
  }

  /** The back of the card. */
  function BackOps(d: CardData): (r: seq<Op>)
    ensures NoImages(r) && NoPanel(r)
    ensures |r| == 20 + FilledRows(d) + (if Pitcher(d.stats) then 8 else 0)
    ensures r[0] == At(20.0, 28.0, Upper(d.playerName))
    ensures r[|r| - 1] == At(20.0, 530.0, " " + d.year + " Baseball Card Creator")
  {
    var h := Header(d);
    var r := h + InfoRows(d) + Batting(d.stats) + Pitching(d.stats) + Footer(d);
    AllBand(d);
    assert r[0] == h[0];
    r
  }

  /** The back's texts, in bands from top to bottom. */
  lemma {:induction false} AllBand(d: CardData)
    ensures Band(Header(d) + InfoRows(d) + Batting(d.stats) + Pitching(d.stats) + Footer(d), 28.0, 530.0)
  {
    var h, i, b, p, f := Header(d), InfoRows(d), Batting(d.stats), Pitching(d.stats), Footer(d);
    BandWiden(h, 28.0, 132.0, 28.0, 530.0);
    BandWiden(i, 148.0, 196.0, 28.0, 530.0);
    BandWiden(b, 220.0, 330.0, 28.0, 530.0);
    BandWiden(p, 400.0, 470.0, 28.0, 530.0);
    BandConcat(h, i, 28.0, 530.0);
    BandConcat(h + i, b, 28.0, 530.0);
    BandConcat(h + i + b, p, 28.0, 530.0);
    BandConcat(h + i + b + p, f, 28.0, 530.0);
  }

  /** The pitching table is drawn exactly for players with an ERA, wins or
      innings pitched. */
  lemma {:induction false} PitchingShownIff(d: CardData)
    ensures At(30.0, 400.0, "PITCHING STATISTICS") in BackOps(d) <==> Pitcher(d.stats)
  {
    var h, i, b, p, f := Header(d), InfoRows(d), Batting(d.stats), Pitching(d.stats), Footer(d);
    var op := At(30.0, 400.0, "PITCHING STATISTICS");
    assert BackOps(d) == (h + i + b) + p + f;
    BandWiden(h, 28.0, 132.0, 28.0, 330.0);
    BandWiden(i, 148.0, 196.0, 28.0, 330.0);
    BandConcat(h, i, 28.0, 330.0);
    BandConcat(h + i, b, 28.0, 330.0);
    BandExcludes(h + i + b, 28.0, 330.0, op);
    BandExcludes(f, 530.0, 530.0, op);
    if Pitcher(d.stats) {
      assert p[0] == op;
    } else {
      assert p == [];
    }
  }

  /** The hometown row is drawn exactly when a hometown is filled in. */
  lemma {:induction false} HometownShownIff(d: CardData)
    ensures At(30.0, 148.0, "Hometown: " + d.hometown) in BackOps(d) <==> Truthy(d.hometown)
  {
    var h, i, b, p, f := Header(d), InfoRows(d), Batting(d.stats), Pitching(d.stats), Footer(d);
    var op := At(30.0, 148.0, "Hometown: " + d.hometown);
    BandExcludes(h, 28.0, 132.0, op);
    BandExcludes(b, 220.0, 330.0, op);
    BandExcludes(p, 400.0, 470.0, op);
    BandExcludes(f, 530.0, 530.0, op);
    assert op in BackOps(d) <==> op in i;
  }
}

=== FILE: canvas.dfy ===
/**
 * The card renderer: it picks the back, the layer interpreter or a fixed
 * layout, interprets a template's layers in order, draws the featured-stat
 * panel, and loads the texture images the layers name.
 */
module Canvas {
  import opened Wrappers
  import opened Text
  import opened Cards
  import opened Templates
  import opened Photo
  import opened Drawing
  import opened CanvasStyles
  import opened CardBack
  import opened Featured
  import Textures

  // ---------------------------------------------------------------------
  // Layer interpreter
  // ---------------------------------------------------------------------

  /** The value a missing string field reads as when used as a property
      name: `obj[undefined]` looks up the property `"undefined"`. */
  function PropertyName(o: Option<string>): string
  {
    if o.Some? then o.value else "undefined"
  }

  /** `layer.textureFile || layer.texture`: the key a texture layer is
      drawn from. */
  function TextureKey(l: Layer): (r: string)
    ensures l.textureFile.Some? && Truthy(l.textureFile.value) ==> r == l.textureFile.value
    ensures (l.textureFile.None? || !Truthy(l.textureFile.value)) ==> r == PropertyName(l.texture)
  {
    if l.textureFile.Some? && Truthy(l.textureFile.value) then l.textureFile.value
    else PropertyName(l.texture)
  }

  /** `layer.textColor || '#000000'`. */
  function BannerColor(l: Layer): (r: string)
    ensures l.textColor.Some? && Truthy(l.textColor.value) ==> r == l.textColor.value
    ensures l.textColor.None? || !Truthy(l.textColor.value) ==> r == "#000000"
  {
    if l.textColor.Some? then Or(l.textColor.value, "#000000") else "#000000"
  }

  /** `layer.y + layer.height / 2 - k`: NaN unless both fields are there. */
  function BannerY(l: Layer, k: real): (r: Num)
    ensures r.Fin? <==> l.y.Some? && l.height.Some?
    ensures r.Fin? ==> r.v == l.y.value + l.height.value / 2.0 - k
  {
    if l.y.Some? && l.height.Some? then Fin(l.y.value + l.height.value / 2.0 - k) else NaN
  }

  /** `layer.inner || full - layer.offset * 2`, the size of a border box. */
  function BorderSide(inner: Option<real>, offset: Option<real>, full: real): (r: Num)
    ensures inner.Some? && inner.value != 0.0 ==> r == Fin(inner.value)
    ensures (inner.None? || inner.value == 0.0) && offset.None? ==> r == NaN
    ensures (inner.None? || inner.value == 0.0) && offset.Some? ==> r == Fin(full - offset.value * 2.0)
  {
    if inner.Some? && inner.value != 0.0 then Fin(inner.value)
    else if offset.Some? then Fin(full - offset.value * 2.0)
    else NaN
  }

  /** The box of a banner, drawn from the raw fields. */
  function BannerBox(l: Layer): Op
  {
    Box(Raw(l.x), Raw(l.y), Raw(l.width), Raw(l.height), Fill)
  }

  /** What one layer draws. A texture layer draws only once its image has
      loaded; a layer of an unknown type draws nothing. A banner draws its
      box, then its name on top; the other types draw one box. */
  function LayerOps(l: Layer, d: CardData, loaded: set<string>): (r: seq<Op>)
    ensures |r| == (if l.kind in {"team-banner", "name-banner"} then 2
                    else if l.kind in {"border", "accent-strip"} then 1
                    else if l.kind == "texture" && TextureKey(l) in loaded then 1
                    else 0)
    ensures |r| > 0 ==> r[0].Box? && r[0].x.Fin? && r[0].y.Fin?
    ensures |r| > 1 ==> r[1].BannerText?
    // a texture fills its box with the loaded image; a missing or zero
    // size stretches it to the whole card
    ensures l.kind == "texture" && |r| == 1 ==>
      r[0].paint == TexturePaint(TextureKey(l)) &&
      r[0].w == Fin(if l.width.Some? && l.width.value != 0.0 then l.width.value else CardWidth) &&
      r[0].h == Fin(if l.height.Some? && l.height.value != 0.0 then l.height.value else CardHeight)
    ensures l.kind == "texture" && |r| == 1 && l.x.None? && l.y.None? && l.width.None? && l.height.None? ==>
      r[0] == Box(Fin(0.0), Fin(0.0), Fin(CardWidth), Fin(CardHeight), TexturePaint(TextureKey(l)))
    // a border is an outline whose size is known only from the inner size
    // or the offset
    ensures l.kind == "border" ==>
      r[0].paint == Outline(NumOr(l.width, 2.0)) &&
      (r[0].w.Fin? <==> (l.innerWidth.Some? && l.innerWidth.value != 0.0) || l.x.Some?) &&
      (r[0].h.Fin? <==> (l.innerHeight.Some? && l.innerHeight.value != 0.0) || l.y.Some?)
    // strips and banners fill the box the layer gives, a missing field
    // reading as 0
    ensures l.kind in {"accent-strip", "team-banner", "name-banner"} ==>
      r[0].paint == Fill && r[0].w.Fin? && r[0].h.Fin? &&
      (l.x.Some? ==> r[0].x.v == l.x.value) && (l.y.Some? ==> r[0].y.v == l.y.value) &&
      (l.x.None? ==> r[0].x.v == 0.0) && (l.y.None? ==> r[0].y.v == 0.0)
    // the banner's text sits 5 right of the box, and is NaN when the
    // fields it adds to are missing
    ensures |r| > 1 ==>
      r[1].fill == BannerColor(l) &&
      (r[1].x.Fin? <==> l.x.Some?) && (r[1].y.Fin? <==> l.y.Some? && l.height.Some?) &&
      (l.x.Some? ==> r[1].x.v == l.x.value + 5.0)
    ensures l.kind == "team-banner" ==> r[1].text == Or(d.teamName, "TEAM")
    ensures l.kind == "name-banner" ==> r[1].text == Or(d.playerName, "PLAYER NAME")
  {
    if l.kind == "texture" then
      var key := TextureKey(l);
      if key in loaded then
        [Box(Fin(NumOr(l.x, 0.0)), Fin(NumOr(l.y, 0.0)), Fin(NumOr(l.width, CardWidth)),
             Fin(NumOr(l.height, CardHeight)), TexturePaint(key))]
      else []
    else if l.kind == "border" then
      [Box(Fin(NumOr(l.x, 0.0)), Fin(NumOr(l.y, 0.0)),
           BorderSide(l.innerWidth, l.x, CardWidth), BorderSide(l.innerHeight, l.y, CardHeight),
           Outline(NumOr(l.width, 2.0)))]
    else if l.kind == "accent-strip" then
      [BannerBox(l)]
    else if l.kind == "team-banner" then
      [BannerBox(l), BannerText(Plus(l.x, 5.0), BannerY(l, 8.0), Or(d.teamName, "TEAM"), BannerColor(l))]
    else if l.kind == "name-banner" then
      [BannerBox(l), BannerText(Plus(l.x, 5.0), BannerY(l, 10.0), Or(d.playerName, "PLAYER NAME"), BannerColor(l))]
    else []
  }

  /** The layers drawn in order, each layer's ops in place: at most two
      ops a layer, and nothing at all from layers of unknown types. */
  function LayersOps(ls: seq<Layer>, d: CardData, loaded: set<string>): (r: seq<Op>)
    ensures |r| <= 2 * |ls|
    ensures (forall i :: 0 <= i < |ls| ==> ls[i].kind !in LayerTypes) ==> r == []
    decreases |ls|
  {
    if |ls| == 0 then [] else LayerOps(ls[0], d, loaded) + LayersOps(ls[1..], d, loaded)
  }

  /** Layers are drawn in list order: the ops of a joined list are the ops
      of the first part followed by those of the second. */
  lemma {:induction false} LayersOpsConcat(a: seq<Layer>, b: seq<Layer>, d: CardData, loaded: set<string>)
    ensures LayersOps(a + b, d, loaded) == LayersOps(a, d, loaded) + LayersOps(b, d, loaded)
    decreases |a|
  {
    if |a| == 0 {
      assert a + b == b;
    } else {
      assert (a + b)[1..] == a[1..] + b;
      LayersOpsConcat(a[1..], b, d, loaded);
    }
  }

  /** Layers draw only boxes and banner texts: never the photo, the logo
      or the featured backdrop. */
  lemma {:induction false} LayersOpsPlain(ls: seq<Layer>, d: CardData, loaded: set<string>)
    ensures NoImages(LayersOps(ls, d, loaded)) && NoPanel(LayersOps(ls, d, loaded))
    decreases |ls|
  {
    if |ls| > 0 {
      LayersOpsPlain(ls[1..], d, loaded);
      NoImagesConcat(LayerOps(ls[0], d, loaded), LayersOps(ls[1..], d, loaded));
    }
  }

  /** A banner whose `x` is missing places its box at 0 but its text at
      NaN: the box takes the library default, the text adds 5 to nothing. */
  lemma {:induction false} BannerMissingX(l: Layer, d: CardData, loaded: set<string>)
    requires l.kind == "name-banner" && l.x.None?
    ensures LayerOps(l, d, loaded)[0].x == Fin(0.0)
    ensures LayerOps(l, d, loaded)[1].x == NaN
  {
  }

  /** The backdrop of the featured stats. */
  const FeaturedPanel := Panel(Rect(30.0, 440.0, 340.0, 70.0))

  // ---------------------------------------------------------------------
  // The layered front and the dispatch
  // ---------------------------------------------------------------------

  /** The photo clip of the layered front. */
  const LayeredPhotoClip := Rect(40.0, 80.0, 320.0, 340.0)

  /** The logo box of the layered front. */
  const LayeredLogoBox := Rect(330.0, 45.0, 50.0, 50.0)

  /** The photo of the layered front, once it has loaded. */
  function PhotoOps(a: Assets): seq<Op>
  {
    if a.photo then [PhotoClip(LayeredPhotoClip)] else []
  }

  /** The logo of the layered front, once it has loaded. */
  function LogoOps(a: Assets): seq<Op>
  {
    if a.logo then [LogoAt(LayeredLogoBox)] else []
  }

  /** The backdrop and the featured columns, when stats are featured. */
  function FeaturedGroup(featured: seq<string>, stats: map<string, string>): seq<Op>
  {
    if |featured| > 0 then [FeaturedPanel] + FeaturedOps(featured, stats, 447.0) else []
  }

  /** The layered front over the ops its layers drew: those ops, then the
      photo, the logo, and, when stats are featured, the backdrop with the
      featured stats. */
  function LayeredOps(layers: seq<Op>, d: CardData, featured: seq<string>, a: Assets): (r: seq<Op>)
    requires NoImages(layers) && NoPanel(layers)
    ensures |layers| <= |r| && r[..|layers|] == layers
    ensures PhotoClip(LayeredPhotoClip) in r <==> a.photo
    ensures LogoAt(LayeredLogoBox) in r <==> a.logo
    ensures FeaturedPanel in r <==> |featured| > 0
    ensures |featured| > 0 ==> |featured| <= |r| && r[|r| - |featured|..] == FeaturedOps(featured, d.stats, 447.0)
    // the photo right after the layers, the logo on top of it, and the
    // backdrop just under the featured columns
    ensures |r| == |layers| + (if a.photo then 1 else 0) + (if a.logo then 1 else 0) +
                   (if |featured| > 0 then 1 + |featured| else 0)
    ensures a.photo ==> r[|layers|] == PhotoClip(LayeredPhotoClip)
    ensures a.logo ==> r[|layers| + (if a.photo then 1 else 0)] == LogoAt(LayeredLogoBox)
    ensures |featured| > 0 ==> r[|r| - |featured| - 1] == FeaturedPanel
  {
    LayeredOpsHold(layers, d, featured, a);
    var stats := FeaturedOps(featured, d.stats, 447.0);
    LayeredOpsOrder(layers, PhotoOps(a), LogoOps(a), stats, FeaturedGroup(featured, d.stats), a, |featured| > 0);
    layers + PhotoOps(a) + LogoOps(a) + FeaturedGroup(featured, d.stats)
  }

  /** The positions of the photo, the logo and the backdrop in the layered
      front. */
  lemma {:induction false} LayeredOpsOrder(layers: seq<Op>, photo: seq<Op>, logo: seq<Op>, stats: seq<Op>, group: seq<Op>,
                                           a: Assets, some: bool)
    requires photo == (if a.photo then [PhotoClip(LayeredPhotoClip)] else [])
    requires logo == (if a.logo then [LogoAt(LayeredLogoBox)] else [])
    requires group == (if some then [FeaturedPanel] + stats else [])
    ensures var r := layers + photo + logo + group;
      |r| == |layers| + |photo| + |logo| + |group| &&
      (a.photo ==> r[|layers|] == PhotoClip(LayeredPhotoClip)) &&
      (a.logo ==> r[|layers| + |photo|] == LogoAt(LayeredLogoBox)) &&
      (some ==> r[|r| - |stats| - 1] == FeaturedPanel)
  {
    var r := layers + photo + logo + group;
    if a.photo {
      assert r[|layers|] == photo[0];
    }
    if a.logo {
      assert r[|layers| + |photo|] == logo[0];
    }
    if some {
      assert r[|r| - |stats| - 1] == group[0];
    }
  }

  lemma {:induction false} LayeredOpsHold(layers: seq<Op>, d: CardData, featured: seq<string>, a: Assets)
    requires NoImages(layers) && NoPanel(layers)
    ensures var r := layers + PhotoOps(a) + LogoOps(a) + FeaturedGroup(featured, d.stats);
      |layers| <= |r| && r[..|layers|] == layers &&
      (PhotoClip(LayeredPhotoClip) in r <==> a.photo) &&
      (LogoAt(LayeredLogoBox) in r <==> a.logo) &&
      (FeaturedPanel in r <==> |featured| > 0) &&
      (|featured| > 0 ==> |featured| <= |r| && r[|r| - |featured|..] == FeaturedOps(featured, d.stats, 447.0))
  {
    var stats := FeaturedOps(featured, d.stats, 447.0);
    assert |stats| == |featured| && NoImages(stats) && NoPanel(stats);
    var g := FeaturedGroup(featured, d.stats);
    assert g == (if |featured| > 0 then [FeaturedPanel] + stats else []);
    LayeredOpsParts(layers, PhotoOps(a), LogoOps(a), stats, g, a, |featured| > 0, layers + PhotoOps(a) + LogoOps(a) + g);
  }

  /** Where the layers, the photo, the logo and the featured stats of the
      layered front come from. */
  lemma {:induction false} LayeredOpsParts(layers: seq<Op>, photo: seq<Op>, logo: seq<Op>, stats: seq<Op>, group: seq<Op>,
                        a: Assets, some: bool, r: seq<Op>)
    requires NoImages(layers) && NoPanel(layers) && NoImages(stats) && NoPanel(stats)
    requires photo == (if a.photo then [PhotoClip(LayeredPhotoClip)] else [])
    requires logo == (if a.logo then [LogoAt(LayeredLogoBox)] else [])
    requires group == (if some then [FeaturedPanel] + stats else [])
    requires r == layers + photo + logo + group
    ensures |layers| <= |r| && r[..|layers|] == layers
    ensures some ==> |stats| <= |r| && r[|r| - |stats|..] == stats
    ensures PhotoClip(LayeredPhotoClip) in r <==> a.photo
    ensures LogoAt(LayeredLogoBox) in r <==> a.logo
    ensures FeaturedPanel in r <==> some
  {
    if some {
      Affix(layers, photo + logo + [FeaturedPanel], stats, r);
    } else {
      Affix(layers, photo + logo, [], r);
    }
    NotIn(layers, stats, PhotoClip(LayeredPhotoClip));
    NotIn(layers, stats, LogoAt(LayeredLogoBox));
    NotIn(layers, stats, FeaturedPanel);
    InFour(layers, photo, logo, group, PhotoClip(LayeredPhotoClip));
    InFour(layers, photo, logo, group, LogoAt(LayeredLogoBox));
    InFour(layers, photo, logo, group, FeaturedPanel);
  }

  lemma {:induction false} Affix(front: seq<Op>, mid: seq<Op>, back: seq<Op>, r: seq<Op>)
    requires r == front + mid + back
    ensures |front| + |back| <= |r| && r[..|front|] == front && r[|r| - |back|..] == back
  {
  }

  /** The photo, the logo and the backdrop are in neither the layers' ops
      nor the featured columns. */
  lemma {:induction false} NotIn(layers: seq<Op>, stats: seq<Op>, op: Op)
    requires NoImages(layers) && NoPanel(layers) && NoImages(stats) && NoPanel(stats)
    requires op.PhotoClip? || op.LogoAt? || op.Panel?
    ensures op !in layers && op !in stats
  {
  }

  lemma {:induction false} InFour(a: seq<Op>, b: seq<Op>, c: seq<Op>, e: seq<Op>, op: Op)
    ensures op in a + b + c + e <==> op in a || op in b || op in c || op in e
  {
  }

  /** Which front or back the card shows. */
  datatype Face = Back | Layered(layers: seq<Layer>) | Fixed(style: Style)

  /** `renderTemplate()`: the back when the back is shown; otherwise the
      layer interpreter for a template with layers (an empty list counts);
      otherwise the fixed layout for the template's id. */
  function FaceOf(t: Template, showBack: bool): (r: Face)
    ensures showBack <==> r.Back?
    ensures r.Layered? <==> !showBack && t.layers.Some?
    ensures r.Layered? ==> r.layers == t.layers.value
    ensures r.Fixed? ==> r.style == StyleFor(t.id) && t.layers.None?
  {
    if showBack then Back
    else if t.layers.Some? then Layered(t.layers.value)
    else Fixed(StyleFor(t.id))
  }

  /** The card as drawn: the back when it is shown; a layered front starts
      with its layers, under the photo, logo and featured stats; any other
      front is the fixed layout of the template's id. */
  function Render(t: Template, d: CardData, showBack: bool, featured: seq<string>, a: Assets): (r: seq<Op>)
    ensures showBack ==> r == BackOps(d)
    ensures !showBack && t.layers.Some? ==>
      var layers := LayersOps(t.layers.value, d, a.textures);
      |layers| <= |r| && r[..|layers|] == layers
    ensures !showBack && t.layers.None? ==> r == StyleOps(StyleFor(t.id), d, a)
  {
    match FaceOf(t, showBack)
    case Back => BackOps(d)
    case Layered(ls) =>
      LayersOpsPlain(ls, d, a.textures);
      LayeredOps(LayersOps(ls, d, a.textures), d, featured, a)
    case Fixed(s) => StyleOps(s, d, a)
  }

  /** The back shows neither the photo nor the logo nor the featured
      stats, whatever the template. */
  lemma {:induction false} BackHasNoImages(t: Template, d: CardData, featured: seq<string>, a: Assets)
    ensures NoImages(Render(t, d, true, featured, a)) && NoPanel(Render(t, d, true, featured, a))
  {
  }

  /** Featured stats appear only on the front of a layered template, and
      there exactly when at least one is chosen. */
  lemma {:induction false} FeaturedOnlyLayered(t: Template, d: CardData, showBack: bool, featured: seq<string>, a: Assets)
    ensures FeaturedPanel in Render(t, d, showBack, featured, a) <==>
      !showBack && t.layers.Some? && |featured| > 0
  {
  }

  /** On the front, the photo is drawn once it has loaded, in the clip of
      the layout in use. */
  lemma {:induction false} PhotoClipOfFront(t: Template, d: CardData, featured: seq<string>, a: Assets)
    ensures var clip := if t.layers.Some? then LayeredPhotoClip else StyleFor(t.id).clip;
      PhotoClip(clip) in Render(t, d, false, featured, a) <==> a.photo
  {
  }

  // ---------------------------------------------------------------------
  // Texture loading
  // ---------------------------------------------------------------------

  /** The key a layer's image is stored under once loaded: the texture file
      when given, else the generated texture's name; `None` for layers that
      load nothing. */
  function LoadKey(l: Layer): (r: Option<string>)
    ensures r.Some? ==> l.kind == "texture" && Truthy(r.value)
  {
    if l.kind != "texture" then None
    else if l.textureFile.Some? && Truthy(l.textureFile.value) then l.textureFile
    else if l.texture.Some? && Truthy(l.texture.value) then l.texture
    else None
  }

  /** The loader stores an image under the very key the interpreter looks
      it up by. */
  lemma {:induction false} LoadKeyIsTextureKey(l: Layer)
    requires LoadKey(l).Some?
    ensures TextureKey(l) == LoadKey(l).value
  {
  }

  /** The texture-load effect run over a template's layers: a file loads
      when the browser fetches it (`files` holds the paths that load); a
      named texture is requested from the texture service at 512 by 512.
      Loaded images are added under their keys, an earlier image under the
      same key being kept. Returns the keys loaded and the service's cache. */
  function LoadTextures(ls: seq<Layer>, loaded: set<string>, cache: Textures.Cache,
                        files: set<string>, imagesLoad: bool): (r: (set<string>, Textures.Cache))
    ensures loaded <= r.0
    ensures forall k :: k in r.0 && k !in loaded ==>
      exists i :: 0 <= i < |ls| && LoadKey(ls[i]) == Some(k)
    decreases |ls|
  {
    if |ls| == 0 then (loaded, cache)
    else
      var l := ls[0];
      var step: (set<string>, Textures.Cache) :=
        if l.kind != "texture" then (loaded, cache)
        else if l.textureFile.Some? && Truthy(l.textureFile.value) then
          (if l.textureFile.value in files then loaded + {l.textureFile.value} else loaded, cache)
        else if l.texture.Some? && Truthy(l.texture.value) then
          var f := Textures.GetTexture(cache, l.texture.value, Some(512), Some(512), imagesLoad);
          (if f.result.Ok? then loaded + {l.texture.value} else loaded, f.cache)
        else (loaded, cache);
      var rest := LoadTextures(ls[1..], step.0, step.1, files, imagesLoad);
      assert forall k :: k in rest.0 && k !in step.0 ==> exists i :: 0 <= i < |ls| && LoadKey(ls[i]) == Some(k) by {
        forall k | k in rest.0 && k !in step.0 ensures exists i :: 0 <= i < |ls| && LoadKey(ls[i]) == Some(k) {
          var i :| 0 <= i < |ls[1..]| && LoadKey(ls[1..][i]) == Some(k);
          assert ls[i + 1] == ls[1..][i];
        }
      }
      assert forall k :: k in step.0 && k !in loaded ==> LoadKey(ls[0]) == Some(k);
      rest
  }

  /** A texture name the service does not know never becomes loaded, as
      long as no file of that path loads and the cache holds no entry for
      it. */
  lemma {:induction false} UnknownTextureNeverLoads(ls: seq<Layer>, loaded: set<string>, cache: Textures.Cache,
                                                    files: set<string>, imagesLoad: bool, name: string)
    requires name !in Textures.KnownNames && name !in loaded && name !in files
    requires Textures.CacheKey(name, Some(512), Some(512)) !in cache
    ensures name !in LoadTextures(ls, loaded, cache, files, imagesLoad).0
    decreases |ls|
  {
    if |ls| > 0 {
      var l := ls[0];
      if l.kind == "texture" && !(l.textureFile.Some? && Truthy(l.textureFile.value)) &&
         l.texture.Some? && Truthy(l.texture.value) {
        var f := Textures.GetTexture(cache, l.texture.value, Some(512), Some(512), imagesLoad);
        Textures.CacheKeyInjective(name, 512, 512, l.texture.value, 512, 512);
        UnknownTextureNeverLoads(ls[1..], if f.result.Ok? then loaded + {l.texture.value} else loaded,
                                 f.cache, files, imagesLoad, name);
      } else if l.kind == "texture" && l.textureFile.Some? && Truthy(l.textureFile.value) {
        var nl := if l.textureFile.value in files then loaded + {l.textureFile.value} else loaded;
        UnknownTextureNeverLoads(ls[1..], nl, cache, files, imagesLoad, name);
      } else {
        UnknownTextureNeverLoads(ls[1..], loaded, cache, files, imagesLoad, name);
      }
    }
  }

  /** Once a layer's image is loaded, the interpreter draws the layer with
      it. */
  lemma {:induction false} LoadedLayerDrawn(l: Layer, d: CardData, loaded: set<string>)
    requires LoadKey(l).Some? && LoadKey(l).value in loaded
    ensures LayerOps(l, d, loaded) != [] && LayerOps(l, d, loaded)[0].paint == TexturePaint(LoadKey(l).value)
  {
  }
}

=== FILE: cards.dfy ===
/**
 * The card the user is editing: player details, the two uploaded images and
 * the statistics, all as the strings the form inputs produce. Statistics are
 * a map from stat key to value; a missing key and an empty value both read
 * as absent, as JavaScript's `||` does.
 */
module Cards {
  import opened Wrappers
  import opened Text

  /** The top-level fields the editor writes through one change handler. */
  datatype Field =
    | PlayerName | TeamName | Position | Year | Hometown | Height | Weight | BatsThrows
    | PlayerImage | TeamLogo

  /** The card data. The images are data URLs, `None` until uploaded. */
  datatype CardData = CardData(
    playerName: string, teamName: string, position: string, year: string,
    hometown: string, height: string, weight: string, batsThrows: string,
    playerImage: Option<string>, teamLogo: Option<string>,
    stats: map<string, string>)

  /** The value a field holds; the text fields always hold one. */
  function Value(d: CardData, f: Field): Option<string>
  {
    match f
    case PlayerName => Some(d.playerName)
    case TeamName => Some(d.teamName)
    case Position => Some(d.position)
    case Year => Some(d.year)
    case Hometown => Some(d.hometown)
    case Height => Some(d.height)
    case Weight => Some(d.weight)
    case BatsThrows => Some(d.batsThrows)
    case PlayerImage => d.playerImage
    case TeamLogo => d.teamLogo
  }

  /** The value of a stat is present when it is stored and non-empty. */
  predicate HasStat(stats: map<string, string>, key: string)
  {
    key in stats && Truthy(stats[key])
  }

  /** `stats[key] || dflt`: the stored value when it is present, otherwise
      the default. */
  function StatOr(stats: map<string, string>, key: string, dflt: string): (r: string)
    ensures HasStat(stats, key) ==> r == stats[key]
    ensures !HasStat(stats, key) ==> r == dflt
  {
    if key in stats then Or(stats[key], dflt) else dflt
  }

  /** The twenty stat keys of the editor, batting first, then pitching. */
  const BattingKeys: seq<string> :=
    ["avg", "hr", "rbi", "games", "hits", "sb", "atBats", "doubles", "triples",
     "walks", "strikeouts", "obp", "slg"]

  const PitchingKeys: seq<string> :=
    ["era", "wins", "losses", "saves", "ip", "strikeoutsP", "whip"]

  /** The short column label the renderer prints for a featured stat. */
  function ShortLabel(key: string): Option<string>
  {
    if key == "avg" then Some("AVG") else if key == "hr" then Some("HR")
    else if key == "rbi" then Some("RBI") else if key == "games" then Some("G")
    else if key == "hits" then Some("H") else if key == "sb" then Some("SB")
    else if key == "atBats" then Some("AB") else if key == "doubles" then Some("2B")
    else if key == "triples" then Some("3B") else if key == "walks" then Some("BB")
    else if key == "strikeouts" then Some("SO") else if key == "obp" then Some("OBP")
    else if key == "slg" then Some("SLG") else if key == "era" then Some("ERA")
    else if key == "wins" then Some("W") else if key == "losses" then Some("L")
    else if key == "saves" then Some("SV") else if key == "ip" then Some("IP")
    else if key == "strikeoutsP" then Some("K") else if key == "whip" then Some("WHIP")
    else None
  }

  /** `statLabels[key] || key.toUpperCase()`. */
  function ColumnLabel(key: string): (r: string)
    ensures ShortLabel(key).None? ==> r == Upper(key)
    ensures ShortLabel(key).Some? ==> r == ShortLabel(key).value
  {
    match ShortLabel(key)
    case Some(l) => l
    case None => Upper(key)
  }

  /** `{...prev, [field]: value}`: the field reads back as `v`, and every
      other field and the stats are as before. */
  function SetField(d: CardData, f: Field, v: string): (r: CardData)
    ensures Value(r, f) == Some(v)
    ensures forall g :: g != f ==> Value(r, g) == Value(d, g)
    ensures r.stats == d.stats
  {
    match f
    case PlayerName => d.(playerName := v)
    case TeamName => d.(teamName := v)
    case Position => d.(position := v)
    case Year => d.(year := v)
    case Hometown => d.(hometown := v)
    case Height => d.(height := v)
    case Weight => d.(weight := v)
    case BatsThrows => d.(batsThrows := v)
    case PlayerImage => d.(playerImage := Some(v))
    case TeamLogo => d.(teamLogo := Some(v))
  }

  /** `{...prev, stats: {...prev.stats, [stat]: value}}`: that stat now reads
      as `v || dflt`, and every field and every other stat reads as before. */
  function SetStat(d: CardData, key: string, v: string): (r: CardData)
    ensures forall f :: Value(r, f) == Value(d, f)
    ensures forall k, dflt :: k != key ==> StatOr(r.stats, k, dflt) == StatOr(d.stats, k, dflt)
    ensures HasStat(r.stats, key) <==> v != ""
    ensures forall dflt :: StatOr(r.stats, key, dflt) == Or(v, dflt)
  {
    d.(stats := d.stats[key := v])
  }
}

=== FILE: catalog.dfy ===
/**
 * The three catalog lookups `getTemplateById`, `getTemplatesByCategory`
 * and `getAllCategories`, and what they promise: lookup by id is total and
 * finds every template by its own id, and the categories partition the
 * catalog.
 */
module CardTemplates {
  import opened Wrappers
  import opened Seqs
  import opened Templates
  import opened TemplateCatalog

  // ---------------------------------------------------------------------
  // The catalog
  // ---------------------------------------------------------------------

  /** The whole catalog in declaration order: the sections in the order of
      `Categories`. */
  const Catalog: seq<Template> :=
    UncStyleSection + TexturedSection + ClassicVintageSection + ModernPremiumSection
    + ArtisticSection + NeonBrightSection + NatureElementalSection + SpecialtySection

  /** The fallback template, the first entry of the catalog. */
  const Default: Template := Catalog[0]

  // ---------------------------------------------------------------------
  // Lookups
  // ---------------------------------------------------------------------

  /** The first catalog template with the given id, else the default one. */
  function GetTemplateById(id: string): (t: Template)
    ensures t in Catalog
    ensures (exists k :: 0 <= k < |Catalog| && Catalog[k].id == id) ==> t.id == id
    ensures (forall k :: 0 <= k < |Catalog| ==> Catalog[k].id != id) ==> t == Default
  {
    match FindById(Catalog, id)
    case Some(k) => Catalog[k]
    case None => Default
  }

  /** The catalog templates of category `c`, in catalog order. */
  function GetTemplatesByCategory(c: string): (r: seq<Template>)
    ensures forall t :: t in r <==> t in Catalog && t.category == c
  {
    WithCategory(Catalog, c)
  }

  /** The category labels, in declaration order. */
  function GetAllCategories(): (r: seq<string>)
    ensures |r| == 8 && Distinct(r)
    ensures forall t :: t in Catalog ==> t.category in r
  {
    CategoryOfEveryTemplate();
    CategoriesDistinct();
    Categories
  }

  // ---------------------------------------------------------------------
  // The default template
  // ---------------------------------------------------------------------

  /** The fallback is the 1985 Donruss template, which is layered. */
  lemma {:induction false} DefaultIsDonruss()
    ensures Default.id == "donruss1985" && Default.layers.Some?
  {
  }

  // ---------------------------------------------------------------------
  // Categories partition the catalog
  // ---------------------------------------------------------------------

  lemma {:induction false} CategoriesDistinct()
    ensures Unique(Categories) && Distinct(Categories)
  {
    UniqueMeans(Categories);
  }

  lemma {:induction false} EarlySectionsInCategories()
    ensures CategoriesIn(UncStyleSection + TexturedSection + ClassicVintageSection + ModernPremiumSection, Categories)
  {
    EarlySectionsLabelled();
    CategoriesInHolds(UncStyleSection, Categories, 0);
    CategoriesInHolds(TexturedSection, Categories, 1);
    CategoriesInHolds(ClassicVintageSection, Categories, 2);
    CategoriesInHolds(ModernPremiumSection, Categories, 3);
    CategoriesInConcat(UncStyleSection, TexturedSection, Categories);
    CategoriesInConcat(UncStyleSection + TexturedSection, ClassicVintageSection, Categories);
    CategoriesInConcat(UncStyleSection + TexturedSection + ClassicVintageSection, ModernPremiumSection, Categories);
  }

  lemma {:induction false} CategoryOfEveryTemplate()
    ensures forall t :: t in Catalog ==> t.category in Categories
  {
    EarlySectionsInCategories();
    LateSectionsLabelled();
    CategoriesInHolds(ArtisticSection, Categories, 4);
    CategoriesInHolds(NeonBrightSection, Categories, 5);
    CategoriesInHolds(NatureElementalSection, Categories, 6);
    CategoriesInHolds(SpecialtySection, Categories, 7);
    var early := UncStyleSection + TexturedSection + ClassicVintageSection + ModernPremiumSection;
    CategoriesInConcat(early, ArtisticSection, Categories);
    CategoriesInConcat(early + ArtisticSection, NeonBrightSection, Categories);
    CategoriesInConcat(early + ArtisticSection + NeonBrightSection, NatureElementalSection, Categories);
    CategoriesInConcat(early + ArtisticSection + NeonBrightSection + NatureElementalSection, SpecialtySection, Categories);
  }

  /** A label outside `Categories` selects no template. */
  lemma {:induction false} UnknownCategoryEmpty(c: string)
    requires c !in GetAllCategories()
    ensures GetTemplatesByCategory(c) == []
  {
    WithCategoryNone(Catalog, c);
  }

  /** Filtering by category keeps the catalog order: it commutes with
      splitting the catalog anywhere. */
  lemma {:induction false} ByCategoryInOrder(c: string, k: nat)
    requires k <= |Catalog|
    ensures GetTemplatesByCategory(c) == WithCategory(Catalog[..k], c) + WithCategory(Catalog[k..], c)
  {
    assert Catalog == Catalog[..k] + Catalog[k..];
    WithCategoryConcat(Catalog[..k], Catalog[k..], c);
  }

  /** Each template occurs in its own category's list as often as in the
      catalog, and in no other list. */
  lemma {:induction false} ByCategoryCount(c: string, t: Template)
    ensures multiset(GetTemplatesByCategory(c))[t] == if t.category == c then multiset(Catalog)[t] else 0
  {
    WithCategoryCount(Catalog, c, t);
  }

  /** The per-category lists over all categories partition the catalog. */
  lemma {:induction false} CategoriesPartitionCatalog()
    ensures multiset(Gather(Catalog, GetAllCategories())) == multiset(Catalog)
  {
    CategoriesDistinct();
    CategoryOfEveryTemplate();
    GatherPartition(Catalog, Categories);
  }

  // ---------------------------------------------------------------------
  // Layer types
  // ---------------------------------------------------------------------

  lemma {:induction false} EarlySectionsLayersKnown()
    ensures LayersKnown(UncStyleSection) && LayersKnown(TexturedSection)
  {
    UncStyleLayersKnown();
    TexturedLayersKnown();
    LayersKnownHolds(UncStyleSection);
    LayersKnownHolds(TexturedSection);
  }

  lemma {:induction false} PlainSectionsLayersKnownHold()
    ensures LayersKnown(ClassicVintageSection) && LayersKnown(ModernPremiumSection)
    ensures LayersKnown(ArtisticSection) && LayersKnown(NeonBrightSection)
    ensures LayersKnown(NatureElementalSection)
  {
    PlainSectionsLayersKnown();
    LayersKnownHolds(ClassicVintageSection);
    LayersKnownHolds(ModernPremiumSection);
    LayersKnownHolds(ArtisticSection);
    LayersKnownHolds(NeonBrightSection);
    LayersKnownHolds(NatureElementalSection);
  }

  lemma {:induction false} EarlyLayersJoined()
    ensures LayersKnown(UncStyleSection + TexturedSection + ClassicVintageSection + ModernPremiumSection)
  {
    EarlySectionsLayersKnown();
    PlainSectionsLayersKnownHold();
    LayersKnownConcat(UncStyleSection, TexturedSection);
    LayersKnownConcat(UncStyleSection + TexturedSection, ClassicVintageSection);
    LayersKnownConcat(UncStyleSection + TexturedSection + ClassicVintageSection, ModernPremiumSection);
  }

  lemma {:induction false} MiddleLayersJoined()
    ensures LayersKnown(UncStyleSection + TexturedSection + ClassicVintageSection + ModernPremiumSection
      + ArtisticSection + NeonBrightSection)
  {
    EarlyLayersJoined();
    PlainSectionsLayersKnownHold();
    var early := UncStyleSection + TexturedSection + ClassicVintageSection + ModernPremiumSection;
    LayersKnownConcat(early, ArtisticSection);
    LayersKnownConcat(early + ArtisticSection, NeonBrightSection);
  }

  lemma {:induction false} CatalogLayersJoined()
    ensures LayersKnown(Catalog)
  {
    MiddleLayersJoined();
    PlainSectionsLayersKnownHold();
    SpecialtyLayersKnown();
    LayersKnownHolds(SpecialtySection);
    var middle := UncStyleSection + TexturedSection + ClassicVintageSection + ModernPremiumSection
      + ArtisticSection + NeonBrightSection;
    LayersKnownConcat(middle, NatureElementalSection);
    LayersKnownConcat(middle + NatureElementalSection, SpecialtySection);
  }

  /** Every layer of a layered catalog template has one of the five known
      types. */
  lemma {:induction false} CatalogLayersKnown()
    ensures forall t, l :: t in Catalog && t.layers.Some? && l in t.layers.value ==> l.kind in LayerTypes
  {
    CatalogLayersJoined();
  }

  // ---------------------------------------------------------------------
  // Template ids are pairwise distinct
  // ---------------------------------------------------------------------

  lemma {:induction false} UncStyleIdsDistinct()
    ensures IdsDistinct(UncStyleSection)
  {
    UncStyleIdsFresh();
    UniqueIdsDistinct(UncStyleSection);
  }

  lemma {:induction false} TexturedIdsDistinct()
    ensures IdsDistinct(TexturedSection)
    ensures IdsDisjoint(UncStyleSection, TexturedSection)
  {
    TexturedIdsFresh();
    UniqueIdsDistinct(TexturedSection);
    ApartIdsDisjoint(UncStyleSection, TexturedSection);
  }

  lemma {:induction false} ClassicVintageIdsDistinct()
    ensures IdsDistinct(ClassicVintageSection)
    ensures IdsDisjoint(UncStyleSection, ClassicVintageSection)
    ensures IdsDisjoint(TexturedSection, ClassicVintageSection)
  {
    ClassicVintageIdsFresh();
    UniqueIdsDistinct(ClassicVintageSection);
    ApartIdsDisjoint(UncStyleSection, ClassicVintageSection);
    ApartIdsDisjoint(TexturedSection, ClassicVintageSection);
  }

  lemma {:induction false} ModernPremiumIdsDistinctA()
    ensures IdsDistinct(ModernPremiumSection)
    ensures IdsDisjoint(UncStyleSection, ModernPremiumSection)
  {
    ModernPremiumIdsFreshA();
    UniqueIdsDistinct(ModernPremiumSection);
    ApartIdsDisjoint(UncStyleSection, ModernPremiumSection);
  }

  lemma {:induction false} ModernPremiumIdsDistinctB()
    ensures IdsDisjoint(TexturedSection, ModernPremiumSection)
  {
    ModernPremiumIdsFreshB();
    ApartIdsDisjoint(TexturedSection, ModernPremiumSection);
  }

  lemma {:induction false} ModernPremiumIdsDistinctC()
    ensures IdsDisjoint(ClassicVintageSection, ModernPremiumSection)
  {
    ModernPremiumIdsFreshC();
    ApartIdsDisjoint(ClassicVintageSection, ModernPremiumSection);
  }

  lemma {:induction false} ArtisticIdsDistinctA()
    ensures IdsDistinct(ArtisticSection)
    ensures IdsDisjoint(UncStyleSection, ArtisticSection)
  {
    ArtisticIdsFreshA();
    UniqueIdsDistinct(ArtisticSection);
    ApartIdsDisjoint(UncStyleSection, ArtisticSection);
  }

  lemma {:induction false} ArtisticIdsDistinctB()
    ensures IdsDisjoint(TexturedSection, ArtisticSection)
  {
    ArtisticIdsFreshB();
    ApartIdsDisjoint(TexturedSection, ArtisticSection);
  }

  lemma {:induction false} ArtisticIdsDistinctC()
    ensures IdsDisjoint(ClassicVintageSection, ArtisticSection)
    ensures IdsDisjoint(ModernPremiumSection, ArtisticSection)
  {
    ArtisticIdsFreshC();
    ApartIdsDisjoint(ClassicVintageSection, ArtisticSection);
    ApartIdsDisjoint(ModernPremiumSection, ArtisticSection);
  }

  lemma {:induction false} NeonBrightIdsDistinctA()
    ensures IdsDistinct(NeonBrightSection)
    ensures IdsDisjoint(UncStyleSection, NeonBrightSection)
  {
    NeonBrightIdsFreshA();
    UniqueIdsDistinct(NeonBrightSection);
    ApartIdsDisjoint(UncStyleSection, NeonBrightSection);
  }

  lemma {:induction false} NeonBrightIdsDistinctB()
    ensures IdsDisjoint(TexturedSection, NeonBrightSection)
  {
    NeonBrightIdsFreshB();
    ApartIdsDisjoint(TexturedSection, NeonBrightSection);
  }

  lemma {:induction false} NeonBrightIdsDistinctC()
    ensures IdsDisjoint(ClassicVintageSection, NeonBrightSection)
    ensures IdsDisjoint(ModernPremiumSection, NeonBrightSection)
  {
    NeonBrightIdsFreshC();
    ApartIdsDisjoint(ClassicVintageSection, NeonBrightSection);
    ApartIdsDisjoint(ModernPremiumSection, NeonBrightSection);
  }

  lemma {:induction false} NeonBrightIdsDistinctD()
    ensures IdsDisjoint(ArtisticSection, NeonBrightSection)
  {
    NeonBrightIdsFreshD();
    ApartIdsDisjoint(ArtisticSection, NeonBrightSection);
  }

  lemma {:induction false} NatureElementalIdsDistinctA()
    ensures IdsDistinct(NatureElementalSection)
    ensures IdsDisjoint(UncStyleSection, NatureElementalSection)
  {
    NatureElementalIdsFreshA();
    UniqueIdsDistinct(NatureElementalSection);
    ApartIdsDisjoint(UncStyleSection, NatureElementalSection);
  }

  lemma {:induction false} NatureElementalIdsDistinctB()
    ensures IdsDisjoint(TexturedSection, NatureElementalSection)
  {
    NatureElementalIdsFreshB();
    ApartIdsDisjoint(TexturedSection, NatureElementalSection);
  }

  lemma {:induction false} NatureElementalIdsDistinctC()
    ensures IdsDisjoint(ClassicVintageSection, NatureElementalSection)
    ensures IdsDisjoint(ModernPremiumSection, NatureElementalSection)
  {
    NatureElementalIdsFreshC();
    ApartIdsDisjoint(ClassicVintageSection, NatureElementalSection);
    ApartIdsDisjoint(ModernPremiumSection, NatureElementalSection);
  }

  lemma {:induction false} NatureElementalIdsDistinctD()
    ensures IdsDisjoint(ArtisticSection, NatureElementalSection)
  {
    NatureElementalIdsFreshD();
    ApartIdsDisjoint(ArtisticSection, NatureElementalSection);
  }

  lemma {:induction false} NatureElementalIdsDistinctE()
    ensures IdsDisjoint(NeonBrightSection, NatureElementalSection)
  {
    NatureElementalIdsFreshE();
    ApartIdsDisjoint(NeonBrightSection, NatureElementalSection);
  }

  lemma {:induction false} SpecialtyIdsDistinctA()
    ensures IdsDistinct(SpecialtySection)
    ensures IdsDisjoint(UncStyleSection, SpecialtySection)
    ensures IdsDisjoint(TexturedSection, SpecialtySection)
    ensures IdsDisjoint(ClassicVintageSection, SpecialtySection)
    ensures IdsDisjoint(ModernPremiumSection, SpecialtySection)
    ensures IdsDisjoint(ArtisticSection, SpecialtySection)
  {
    SpecialtyIdsFreshA();
    UniqueIdsDistinct(SpecialtySection);
    ApartIdsDisjoint(UncStyleSection, SpecialtySection);
    ApartIdsDisjoint(TexturedSection, SpecialtySection);
    ApartIdsDisjoint(ClassicVintageSection, SpecialtySection);
    ApartIdsDisjoint(ModernPremiumSection, SpecialtySection);
    ApartIdsDisjoint(ArtisticSection, SpecialtySection);
  }

  lemma {:induction false} SpecialtyIdsDistinctB()
    ensures IdsDisjoint(NeonBrightSection, SpecialtySection)
    ensures IdsDisjoint(NatureElementalSection, SpecialtySection)
  {
    SpecialtyIdsFreshB();
    ApartIdsDisjoint(NeonBrightSection, SpecialtySection);
    ApartIdsDisjoint(NatureElementalSection, SpecialtySection);
  }


  lemma {:induction false} JoinedThroughTextured()
    ensures IdsDistinct(UncStyleSection + TexturedSection)
  {
    UncStyleIdsDistinct();
    TexturedIdsDistinct();
    AppendSection(UncStyleSection, TexturedSection);
  }

  lemma {:induction false} JoinedThroughClassicVintage()
    ensures IdsDistinct(UncStyleSection + TexturedSection + ClassicVintageSection)
  {
    JoinedThroughTextured();
    ClassicVintageIdsDistinct();
    DisjointConcat(UncStyleSection, TexturedSection, ClassicVintageSection);
    AppendSection(UncStyleSection + TexturedSection, ClassicVintageSection);
  }

  lemma {:induction false} JoinedThroughModernPremium()
    ensures IdsDistinct(UncStyleSection + TexturedSection + ClassicVintageSection + ModernPremiumSection)
  {
    JoinedThroughClassicVintage();
    ModernPremiumIdsDistinctA();
    ModernPremiumIdsDistinctB();
    ModernPremiumIdsDistinctC();
    DisjointConcat(UncStyleSection, TexturedSection, ModernPremiumSection);
    DisjointConcat(UncStyleSection + TexturedSection, ClassicVintageSection, ModernPremiumSection);
    AppendSection(UncStyleSection + TexturedSection + ClassicVintageSection, ModernPremiumSection);
  }

  lemma {:induction false} JoinedThroughArtistic()
    ensures IdsDistinct(UncStyleSection + TexturedSection + ClassicVintageSection + ModernPremiumSection + ArtisticSection)
  {
    JoinedThroughModernPremium();
    ArtisticIdsDistinctA();
    ArtisticIdsDistinctB();
    ArtisticIdsDistinctC();
    DisjointConcat(UncStyleSection, TexturedSection, ArtisticSection);
    DisjointConcat(UncStyleSection + TexturedSection, ClassicVintageSection, ArtisticSection);
    DisjointConcat(UncStyleSection + TexturedSection + ClassicVintageSection, ModernPremiumSection, ArtisticSection);
    AppendSection(UncStyleSection + TexturedSection + ClassicVintageSection + ModernPremiumSection, ArtisticSection);
  }

  lemma {:induction false} JoinedThroughNeonBright()
    ensures IdsDistinct(UncStyleSection + TexturedSection + ClassicVintageSection + ModernPremiumSection + ArtisticSection + NeonBrightSection)
  {
    JoinedThroughArtistic();
    NeonBrightIdsDistinctA();
    NeonBrightIdsDistinctB();
    NeonBrightIdsDistinctC();
    NeonBrightIdsDistinctD();
    DisjointConcat(UncStyleSection, TexturedSection, NeonBrightSection);
    DisjointConcat(UncStyleSection + TexturedSection, ClassicVintageSection, NeonBrightSection);
    DisjointConcat(UncStyleSection + TexturedSection + ClassicVintageSection, ModernPremiumSection, NeonBrightSection);
    DisjointConcat(UncStyleSection + TexturedSection + ClassicVintageSection + ModernPremiumSection, ArtisticSection, NeonBrightSection);
    AppendSection(UncStyleSection + TexturedSection + ClassicVintageSection + ModernPremiumSection + ArtisticSection, NeonBrightSection);
  }

  lemma {:induction false} JoinedThroughNatureElemental()
    ensures IdsDistinct(UncStyleSection + TexturedSection + ClassicVintageSection + ModernPremiumSection + ArtisticSection + NeonBrightSection + NatureElementalSection)
  {
    JoinedThroughNeonBright();
    NatureElementalIdsDistinctA();
    NatureElementalIdsDistinctB();
    NatureElementalIdsDistinctC();
    NatureElementalIdsDistinctD();
    NatureElementalIdsDistinctE();
    DisjointConcat(UncStyleSection, TexturedSection, NatureElementalSection);
    DisjointConcat(UncStyleSection + TexturedSection, ClassicVintageSection, NatureElementalSection);
    DisjointConcat(UncStyleSection + TexturedSection + ClassicVintageSection, ModernPremiumSection, NatureElementalSection);
    DisjointConcat(UncStyleSection + TexturedSection + ClassicVintageSection + ModernPremiumSection, ArtisticSection, NatureElementalSection);
    DisjointConcat(UncStyleSection + TexturedSection + ClassicVintageSection + ModernPremiumSection + ArtisticSection, NeonBrightSection, NatureElementalSection);
    AppendSection(UncStyleSection + TexturedSection + ClassicVintageSection + ModernPremiumSection + ArtisticSection + NeonBrightSection, NatureElementalSection);
  }

  lemma {:induction false} JoinedThroughSpecialty()
    ensures IdsDistinct(UncStyleSection + TexturedSection + ClassicVintageSection + ModernPremiumSection + ArtisticSection + NeonBrightSection + NatureElementalSection + SpecialtySection)
  {
    JoinedThroughNatureElemental();
    SpecialtyIdsDistinctA();
    SpecialtyIdsDistinctB();
    DisjointConcat(UncStyleSection, TexturedSection, SpecialtySection);
    DisjointConcat(UncStyleSection + TexturedSection, ClassicVintageSection, SpecialtySection);
    DisjointConcat(UncStyleSection + TexturedSection + ClassicVintageSection, ModernPremiumSection, SpecialtySection);
    DisjointConcat(UncStyleSection + TexturedSection + ClassicVintageSection + ModernPremiumSection, ArtisticSection, SpecialtySection);
    DisjointConcat(UncStyleSection + TexturedSection + ClassicVintageSection + ModernPremiumSection + ArtisticSection, NeonBrightSection, SpecialtySection);
    DisjointConcat(UncStyleSection + TexturedSection + ClassicVintageSection + ModernPremiumSection + ArtisticSection + NeonBrightSection, NatureElementalSection, SpecialtySection);
    AppendSection(UncStyleSection + TexturedSection + ClassicVintageSection + ModernPremiumSection + ArtisticSection + NeonBrightSection + NatureElementalSection, SpecialtySection);
  }

  lemma {:induction false} CatalogIdsDistinct()
    ensures IdsDistinct(Catalog)
  {
    JoinedThroughSpecialty();
  }

  /** Looking up a catalog template by its own id yields that template. */
  lemma {:induction false} GetTemplateByOwnId(k: nat)
    requires k < |Catalog|
    ensures GetTemplateById(Catalog[k].id) == Catalog[k]
  {
    CatalogIdsDistinct();
  }
}

=== FILE: catalog_data.dfy ===
/**
 * The template catalog as declared: eight category labels and forty
 * templates in eight sections, six of which carry layers. The lemmas here
 * only evaluate predicates on this literal data; what they mean is drawn
 * out in `CardTemplates`.
 */
module TemplateCatalog {
  import opened Wrappers
  import opened Templates

  // ---------------------------------------------------------------------
  // Categories
  // ---------------------------------------------------------------------

  /** The category labels in declaration order. */
  const Categories: seq<string> :=
    ["UNC Style", "Textured", "Classic & Vintage", "Modern & Premium",
     "Artistic", "Neon & Bright", "Nature & Elemental", "Specialty"]

  // ---------------------------------------------------------------------
  // The catalog, one section per category in the order of `Categories`
  // ---------------------------------------------------------------------

  /** The "UNC Style" section: two layered recreations of classic sets. */
  const UncStyleSection: seq<Template> := [
    Template("donruss1985", "1985 Donruss Black", "UNC Style",
      layers := Some([
        Layer("border", x := Some(12.0), y := Some(12.0), width := Some(20.0), innerWidth := Some(376.0), innerHeight := Some(536.0)),
        Layer("border", x := Some(15.0), y := Some(15.0), width := Some(3.0), innerWidth := Some(370.0), innerHeight := Some(530.0)),
        Layer("name-banner", x := Some(30.0), y := Some(495.0), width := Some(340.0), height := Some(35.0), textColor := Some("#FFFFFF"))])),
    Template("topps1990", "1990 Topps", "UNC Style",
      layers := Some([
        Layer("texture", x := Some(0.0), y := Some(0.0), width := Some(400.0), height := Some(560.0), texture := Some("halftone")),
        Layer("border", x := Some(20.0), y := Some(20.0), width := Some(20.0), innerWidth := Some(360.0), innerHeight := Some(520.0)),
        Layer("border", x := Some(28.0), y := Some(28.0), width := Some(12.0), innerWidth := Some(344.0), innerHeight := Some(504.0)),
        Layer("accent-strip", x := Some(364.0), y := Some(28.0), width := Some(8.0), height := Some(504.0)),
        Layer("team-banner", x := Some(40.0), y := Some(40.0), width := Some(140.0), height := Some(30.0)),
        Layer("name-banner", x := Some(40.0), y := Some(480.0), width := Some(320.0), height := Some(35.0), textColor := Some("#000000"))]))
  ]

  /** The "Textured" section: surface textures, two of them layered over an
      SVG file, the rest generated. */
  const TexturedSection: seq<Template> := [
    Template("sandstone", "Sandstone", "Textured",
      layers := Some([
        Layer("texture", x := Some(0.0), y := Some(0.0), width := Some(400.0), height := Some(560.0), textureFile := Some("/textures/sandstone.svg")),
        Layer("border", x := Some(15.0), y := Some(15.0), width := Some(15.0), innerWidth := Some(370.0), innerHeight := Some(530.0))])),
    Template("canvas", "Canvas", "Textured", texture := Some("canvas")),
    Template("concrete", "Concrete", "Textured", texture := Some("concrete")),
    Template("woodgrain", "Wood Grain", "Textured", texture := Some("woodgrain")),
    Template("leather", "Leather", "Textured", texture := Some("leather")),
    Template("denim", "Denim", "Textured", texture := Some("denim")),
    Template("marble", "Marble", "Textured", texture := Some("marble")),
    Template("carbon", "Carbon Fiber", "Textured",
      layers := Some([
        Layer("texture", x := Some(0.0), y := Some(0.0), width := Some(400.0), height := Some(560.0), textureFile := Some("/textures/carbon-fiber.svg")),
        Layer("border", x := Some(15.0), y := Some(15.0), width := Some(15.0), innerWidth := Some(370.0), innerHeight := Some(530.0))])),
    Template("brushedmetal", "Brushed Metal", "Textured", texture := Some("brushedMetal"))
  ]

  /** The "Classic & Vintage" section: plain templates with fixed layouts. */
  const ClassicVintageSection: seq<Template> := [
    Template("classic", "Classic", "Classic & Vintage"),
    Template("vintage", "Vintage", "Classic & Vintage"),
    Template("polaroid", "Polaroid", "Classic & Vintage"),
    Template("newspaper", "Newspaper", "Classic & Vintage")
  ]

  /** The "Modern & Premium" section: plain templates, clean or metallic. */
  const ModernPremiumSection: seq<Template> := [
    Template("modern", "Modern", "Modern & Premium"),
    Template("minimalist", "Minimalist", "Modern & Premium"),
    Template("chrome", "Chrome", "Modern & Premium"),
    Template("gold", "Gold Luxury", "Modern & Premium"),
    Template("diamond", "Diamond", "Modern & Premium")
  ]

  /** The "Artistic" section: hand-drawn and printed looks. */
  const ArtisticSection: seq<Template> := [
    Template("watercolor", "Watercolor", "Artistic"),
    Template("sketch", "Sketch", "Artistic"),
    Template("comic", "Comic Book", "Artistic"),
    Template("grunge", "Grunge", "Artistic"),
    Template("chalkboard", "Chalkboard", "Artistic"),
    Template("blueprint", "Blueprint", "Artistic")
  ]

  /** The "Neon & Bright" section: glowing and multi-coloured looks. */
  const NeonBrightSection: seq<Template> := [
    Template("neon", "Neon", "Neon & Bright"),
    Template("retro80s", "Retro 80s", "Neon & Bright"),
    Template("cyberpunk", "Cyberpunk", "Neon & Bright"),
    Template("holographic", "Holographic", "Neon & Bright"),
    Template("rainbow", "Rainbow", "Neon & Bright"),
    Template("lightning", "Lightning", "Neon & Bright")
  ]

  /** The "Nature & Elemental" section: sky, water, fire and ice looks. */
  const NatureElementalSection: seq<Template> := [
    Template("galaxy", "Galaxy", "Nature & Elemental"),
    Template("nebula", "Nebula", "Nature & Elemental"),
    Template("sunset", "Sunset", "Nature & Elemental"),
    Template("ocean", "Ocean", "Nature & Elemental"),
    Template("fire", "Fire", "Nature & Elemental"),
    Template("ice", "Ice", "Nature & Elemental")
  ]

  /** The "Specialty" section: two layered camouflage templates with
      coloured banners. */
  const SpecialtySection: seq<Template> := [
    Template("camo", "Camouflage", "Specialty",
      layers := Some([
        Layer("texture", x := Some(0.0), y := Some(0.0), width := Some(400.0), height := Some(560.0), textureFile := Some("/textures/camo-green.svg")),
        Layer("border", x := Some(15.0), y := Some(15.0), width := Some(15.0), innerWidth := Some(370.0), innerHeight := Some(530.0)),
        Layer("team-banner", x := Some(30.0), y := Some(40.0), width := Some(140.0), height := Some(30.0), textColor := Some("#F0E68C")),
        Layer("name-banner", x := Some(30.0), y := Some(485.0), width := Some(340.0), height := Some(40.0), textColor := Some("#F0E68C"))])),
    Template("camogray", "Gray Camouflage", "Specialty",
      layers := Some([
        Layer("texture", x := Some(0.0), y := Some(0.0), width := Some(400.0), height := Some(560.0), textureFile := Some("/textures/camo-black.svg")),
        Layer("border", x := Some(15.0), y := Some(15.0), width := Some(15.0), innerWidth := Some(370.0), innerHeight := Some(530.0)),
        Layer("team-banner", x := Some(30.0), y := Some(40.0), width := Some(140.0), height := Some(30.0), textColor := Some("#E0E0E0")),
        Layer("name-banner", x := Some(30.0), y := Some(485.0), width := Some(340.0), height := Some(40.0), textColor := Some("#E0E0E0"))]))
  ]

  // ---------------------------------------------------------------------
  // Facts evaluated on the literal sections
  // ---------------------------------------------------------------------

  /** Each section holds only templates of its own category. */
  lemma {:induction false} EarlySectionsLabelled()
    ensures InCategoryFrom(UncStyleSection, Categories[0], 0)
    ensures InCategoryFrom(TexturedSection, Categories[1], 0)
    ensures InCategoryFrom(ClassicVintageSection, Categories[2], 0)
    ensures InCategoryFrom(ModernPremiumSection, Categories[3], 0)
  {
  }

  lemma {:induction false} LateSectionsLabelled()
    ensures InCategoryFrom(ArtisticSection, Categories[4], 0)
    ensures InCategoryFrom(NeonBrightSection, Categories[5], 0)
    ensures InCategoryFrom(NatureElementalSection, Categories[6], 0)
    ensures InCategoryFrom(SpecialtySection, Categories[7], 0)
  {
  }

  /** Every layer of every layered template has one of the known types. */
  lemma {:induction false} UncStyleLayersKnown()
    ensures LayersKnownFrom(UncStyleSection, 0)
  {
  }

  lemma {:induction false} TexturedLayersKnown()
    ensures LayersKnownFrom(TexturedSection, 0)
  {
  }

  lemma {:induction false} SpecialtyLayersKnown()
    ensures LayersKnownFrom(SpecialtySection, 0)
  {
  }

  lemma {:induction false} PlainSectionsLayersKnown()
    ensures LayersKnownFrom(ClassicVintageSection, 0)
    ensures LayersKnownFrom(ModernPremiumSection, 0)
    ensures LayersKnownFrom(ArtisticSection, 0)
    ensures LayersKnownFrom(NeonBrightSection, 0)
    ensures LayersKnownFrom(NatureElementalSection, 0)
  {
  }

  // Within each section ids do not repeat, and no id of a section occurs
  // in an earlier one. The statements are split so that each evaluation
  // stays small.

  lemma {:induction false} UncStyleIdsFresh()
    ensures IdsUniqueFrom(UncStyleSection, 0)
  {
  }

  lemma {:induction false} TexturedIdsFresh()
    ensures IdsUniqueFrom(TexturedSection, 0)
    ensures IdsApartFrom(UncStyleSection, TexturedSection, 0)
  {
  }

  lemma {:induction false} ClassicVintageIdsFresh()
    ensures IdsUniqueFrom(ClassicVintageSection, 0)
    ensures IdsApartFrom(UncStyleSection, ClassicVintageSection, 0)
    ensures IdsApartFrom(TexturedSection, ClassicVintageSection, 0)
  {
  }

  lemma {:induction false} ModernPremiumIdsFreshA()
    ensures IdsUniqueFrom(ModernPremiumSection, 0)
    ensures IdsApartFrom(UncStyleSection, ModernPremiumSection, 0)
  {
  }

  lemma {:induction false} ModernPremiumIdsFreshB()
    ensures IdsApartFrom(TexturedSection, ModernPremiumSection, 0)
  {
  }

  lemma {:induction false} ModernPremiumIdsFreshC()
    ensures IdsApartFrom(ClassicVintageSection, ModernPremiumSection, 0)
  {
  }

  lemma {:induction false} ArtisticIdsFreshA()
    ensures IdsUniqueFrom(ArtisticSection, 0)
    ensures IdsApartFrom(UncStyleSection, ArtisticSection, 0)
  {
  }

  lemma {:induction false} ArtisticIdsFreshB()
    ensures IdsApartFrom(TexturedSection, ArtisticSection, 0)
  {
    assert IdsApartFrom(TexturedSection, ArtisticSection, 8);
    assert IdsApartFrom(TexturedSection, ArtisticSection, 7);
    assert IdsApartFrom(TexturedSection, ArtisticSection, 6);
    assert IdsApartFrom(TexturedSection, ArtisticSection, 5);
    assert IdsApartFrom(TexturedSection, ArtisticSection, 4);
    assert IdsApartFrom(TexturedSection, ArtisticSection, 3);
    assert IdsApartFrom(TexturedSection, ArtisticSection, 2);
    assert IdsApartFrom(TexturedSection, ArtisticSection, 1);
  }

  lemma {:induction false} ArtisticIdsFreshC()
    ensures IdsApartFrom(ClassicVintageSection, ArtisticSection, 0)
    ensures IdsApartFrom(ModernPremiumSection, ArtisticSection, 0)
  {
  }

  lemma {:induction false} NeonBrightIdsFreshA()
    ensures IdsUniqueFrom(NeonBrightSection, 0)
    ensures IdsApartFrom(UncStyleSection, NeonBrightSection, 0)
  {
  }

  lemma {:induction false} NeonBrightIdsFreshB()
    ensures IdsApartFrom(TexturedSection, NeonBrightSection, 0)
  {
    assert IdsApartFrom(TexturedSection, NeonBrightSection, 8);
    assert IdsApartFrom(TexturedSection, NeonBrightSection, 7);
    assert IdsApartFrom(TexturedSection, NeonBrightSection, 6);
    assert IdsApartFrom(TexturedSection, NeonBrightSection, 5);
    assert IdsApartFrom(TexturedSection, NeonBrightSection, 4);
    assert IdsApartFrom(TexturedSection, NeonBrightSection, 3);
    assert IdsApartFrom(TexturedSection, NeonBrightSection, 2);
    assert IdsApartFrom(TexturedSection, NeonBrightSection, 1);
  }

  lemma {:induction false} NeonBrightIdsFreshC()
    ensures IdsApartFrom(ClassicVintageSection, NeonBrightSection, 0)
    ensures IdsApartFrom(ModernPremiumSection, NeonBrightSection, 0)
  {
  }

  lemma {:induction false} NeonBrightIdsFreshD()
    ensures IdsApartFrom(ArtisticSection, NeonBrightSection, 0)
  {
  }

  lemma {:induction false} NatureElementalIdsFreshA()
    ensures IdsUniqueFrom(NatureElementalSection, 0)
    ensures IdsApartFrom(UncStyleSection, NatureElementalSection, 0)
  {
  }

  lemma {:induction false} NatureElementalIdsFreshB()
    ensures IdsApartFrom(TexturedSection, NatureElementalSection, 0)
  {
    assert IdsApartFrom(TexturedSection, NatureElementalSection, 8);
    assert IdsApartFrom(TexturedSection, NatureElementalSection, 7);
    assert IdsApartFrom(TexturedSection, NatureElementalSection, 6);
    assert IdsApartFrom(TexturedSection, NatureElementalSection, 5);
    assert IdsApartFrom(TexturedSection, NatureElementalSection, 4);
    assert IdsApartFrom(TexturedSection, NatureElementalSection, 3);
    assert IdsApartFrom(TexturedSection, NatureElementalSection, 2);
    assert IdsApartFrom(TexturedSection, NatureElementalSection, 1);
  }

  lemma {:induction false} NatureElementalIdsFreshC()
    ensures IdsApartFrom(ClassicVintageSection, NatureElementalSection, 0)
    ensures IdsApartFrom(ModernPremiumSection, NatureElementalSection, 0)
  {
  }

  lemma {:induction false} NatureElementalIdsFreshD()
    ensures IdsApartFrom(ArtisticSection, NatureElementalSection, 0)
  {
  }

  lemma {:induction false} NatureElementalIdsFreshE()
    ensures IdsApartFrom(NeonBrightSection, NatureElementalSection, 0)
  {
  }

  lemma {:induction false} SpecialtyIdsFreshA()
    ensures IdsUniqueFrom(SpecialtySection, 0)
    ensures IdsApartFrom(UncStyleSection, SpecialtySection, 0)
    ensures IdsApartFrom(TexturedSection, SpecialtySection, 0)
    ensures IdsApartFrom(ClassicVintageSection, SpecialtySection, 0)
    ensures IdsApartFrom(ModernPremiumSection, SpecialtySection, 0)
    ensures IdsApartFrom(ArtisticSection, SpecialtySection, 0)
  {
  }

  lemma {:induction false} SpecialtyIdsFreshB()
    ensures IdsApartFrom(NeonBrightSection, SpecialtySection, 0)
    ensures IdsApartFrom(NatureElementalSection, SpecialtySection, 0)
  {
  }
}

=== FILE: creator.dfy ===
/**
 * The card creator page: the editor state it starts from, the two canvases
 * it shows (the front and the back of the same card), and its three
 * buttons. Saving posts the card with the captured images; the two download
 * buttons name their files after the player. Every button stops when no
 * player photo has been uploaded. The captured images and the GIF come from
 * the canvases and are parameters here.
 */
module Creator {
  import opened Wrappers
  import opened Text
  import opened Cards
  import opened Templates
  import opened CardTemplates
  import opened Drawing
  import opened Editor
  import Canvas
  import CardBack
  import opened Schema
  import opened Store
  import opened Downloads

  // ---------------------------------------------------------------------
  // The initial state
  // ---------------------------------------------------------------------

  /** The stats the form starts with: zeros for batting, blank pitching. */
  const InitialStats: map<string, string> :=
    map["avg" := ".000", "hr" := "0", "rbi" := "0", "games" := "0", "hits" := "0", "sb" := "0",
        "atBats" := "0", "doubles" := "0", "triples" := "0", "walks" := "0", "strikeouts" := "0",
        "obp" := ".000", "slg" := ".000",
        "era" := "", "wins" := "", "losses" := "", "saves" := "", "ip" := "", "strikeoutsP" := "",
        "whip" := ""]

  /** The card the form starts with, in the year the page is opened. The
      year is a number in the page and prints in decimal wherever it is
      drawn. */
  function InitialCard(year: nat): (r: CardData)
    ensures r.playerImage == None && r.teamLogo == None
    ensures (forall i :: 0 <= i < |r.year| ==> IsDigit(r.year[i])) && ParseDecimal(r.year) == year
    ensures r.stats == InitialStats
  {
    DecimalRoundTrip(year);
    CardData("Player Name", "Team Name", "", Decimal(year), "", "", "", "", None, None, InitialStats)
  }

  /** The page's starting state: the first catalog template and no
      featured stats. It satisfies the editor's invariant, so every edit
      sequence keeps at most three distinct featured stats. */
  function Initial(year: nat): (r: State)
    ensures Valid(r)
    ensures r.template.id == "donruss1985" && r.featured == []
  {
    DefaultIsDonruss();
    assert Catalog[0] in Catalog;
    State(InitialCard(year), [], Default)
  }

  /** Every batting stat starts filled in and so can be featured at once;
      no pitching stat does, so the back starts without the pitching
      table. */
  lemma {:induction false} InitialStatsOffered()
    ensures forall i :: 0 <= i < |BattingKeys| ==> BattingKeys[i] in Offered(InitialStats)
    ensures forall i :: 0 <= i < |PitchingKeys| ==>
      PitchingKeys[i] in InitialStats && PitchingKeys[i] !in Offered(InitialStats)
    ensures !CardBack.Pitcher(InitialStats)
  {
  }

  // ---------------------------------------------------------------------
  // The canvases
  // ---------------------------------------------------------------------

  /** The two canvases: the front with the back hidden and the back shown,
      for the same card, template and featured stats; each draws with the
      images it has loaded. */
  function Canvases(s: State, front: Assets, back: Assets): (r: (seq<Op>, seq<Op>))
    ensures r.1 == CardBack.BackOps(s.card)
    ensures NoImages(r.1) && NoPanel(r.1)
    ensures Canvas.FeaturedPanel in r.0 <==> s.template.layers.Some? && |s.featured| > 0
  {
    Canvas.BackHasNoImages(s.template, s.card, s.featured, back);
    Canvas.FeaturedOnlyLayered(s.template, s.card, false, s.featured, front);
    (Canvas.Render(s.template, s.card, false, s.featured, front),
     Canvas.Render(s.template, s.card, true, s.featured, back))
  }

  // ---------------------------------------------------------------------
  // Saving
  // ---------------------------------------------------------------------

  /** `!cardData.playerImage`: no photo, or an empty one. */
  predicate HasPhoto(d: CardData)
  {
    Supplied(d.playerImage)
  }

  /** The images captured from the canvases when saving: the front and back
      at full size and as thumbnails, and the animated GIF. */
  datatype Captures = Captures(front: string, back: string, gif: string, frontThumb: string, backThumb: string)

  /** The saved title: the player's name and the team's, with a dash. */
  function SavedTitle(d: CardData): (r: string)
    ensures |r| == |d.playerName| + 3 + |d.teamName|
    ensures r[|d.playerName| + 1] == '-'
  {
    d.playerName + " - " + d.teamName
  }

  /** The title always keeps its dash through trimming, so a saved card
      never falls back to the default title. */
  lemma {:induction false} SavedTitleNotBlank(d: CardData)
    ensures Trim(SavedTitle(d)) != ""
  {
    TrimSlice(SavedTitle(d));
  }

  /** The request body the save button posts. It sends no `settings`. */
  function SaveBody(s: State, c: Captures): (r: Body)
    ensures r.imageData == Some(c.front) && r.backImageData == Some(c.back)
    ensures r.template == Some(s.template.id) && r.featured == Some(s.featured)
    ensures r.cardData == Some(s.card) && r.title == Some(TitleText(SavedTitle(s.card)))
    ensures r.settings == None
  {
    Body(imageData := Some(c.front), backImageData := Some(c.back), animatedGif := Some(c.gif),
         thumbnail := Some(c.frontThumb), backThumbnail := Some(c.backThumb),
         template := Some(s.template.id), cardData := Some(s.card), featured := Some(s.featured),
         title := Some(TitleText(SavedTitle(s.card))))
  }

  datatype SaveOutcome = NeedPhoto | Posted(reply: Reply)

  /** The save button: stops without a request when no photo is uploaded;
      otherwise posts the card, as user `user`, to the collection `st`. */
  function HandleSave(s: State, c: Captures, st: Collection, user: nat, id: nat, now: int): (r: SaveOutcome)
    requires id !in Ids(st)
    ensures r.NeedPhoto? <==> !HasPhoto(s.card)
    ensures r.Posted? ==> r.reply.status in {Created, BadRequest, ServerError}
    ensures r.Posted? && r.reply.status != Created ==> r.reply.store == st
  {
    if !HasPhoto(s.card) then NeedPhoto
    else Posted(Create(st, user, SaveBody(s, c), id, now))
  }

  /** A save stores the card exactly when the photo is there, both captured
      images are non-empty, the template is one the schema accepts, at most
      three stats are featured and the trimmed title fits in 100
      characters. */
  lemma {:induction false} SaveCreatedIff(s: State, c: Captures, st: Collection, user: nat, id: nat, now: int)
    requires id !in Ids(st)
    ensures var r := HandleSave(s, c, st, user, id, now);
      r.Posted? && r.reply.status == Created <==>
        HasPhoto(s.card) && c.front != "" && c.back != "" && s.template.id in EnumIds &&
        |s.featured| <= MaxFeaturedStored && |Trim(SavedTitle(s.card))| <= MaxTitle
  {
    if HasPhoto(s.card) {
      var b := SaveBody(s, c);
      var d := Draft(b, user, id, now);
      var rep := Create(st, user, b, id, now);
      assert HandleSave(s, c, st, user, id, now) == Posted(rep);
      var checked := CreateErrors(b) == {};
      var valid := Violations(d) == {};
      assert rep.status == Created <==> checked && valid;
      EnumAllowed(s.template.id);
      SaveBodyChecks(s, c);
      if s.template.id in AllowedIds {
        SaveDraftValid(s, c, user, id, now);
      }
    }
  }

  lemma {:induction false} EnumAllowed(t: string)
    ensures t in EnumIds ==> t in AllowedIds
  {
    EnumWithinAllowed();
  }

  /** The request checks on the posted body. */
  lemma {:induction false} SaveBodyChecks(s: State, c: Captures)
    ensures CreateErrors(SaveBody(s, c)) == {} <==>
      c.front != "" && s.template.id in AllowedIds && |Trim(SavedTitle(s.card))| <= MaxTitle
  {
    var b := SaveBody(s, c);
    assert ImageDataEmpty in CreateErrors(b) <==> c.front == "";
    assert TemplateNotAllowed in CreateErrors(b) <==> s.template.id !in AllowedIds;
    assert TitleTooLong in CreateErrors(b) <==> |Trim(SavedTitle(s.card))| > MaxTitle;
    assert TitleNotString !in CreateErrors(b);
  }

  /** The schema's checks on the document a body passing the request checks
      makes. */
  lemma {:induction false} SaveDraftValid(s: State, c: Captures, user: nat, id: nat, now: int)
    requires s.template.id in AllowedIds
    ensures Violations(Draft(SaveBody(s, c), user, id, now)) == {} <==>
      c.front != "" && c.back != "" && s.template.id in EnumIds && |s.featured| <= MaxFeaturedStored
  {
    EnumWithinAllowed();
    var d := Draft(SaveBody(s, c), user, id, now);
    assert d.template == s.template.id;
  }

  /** A stored card holds the editor's card as strict mode keeps it (no
      photo, no logo), its featured stats and template id, belongs to the
      user, and is titled with the trimmed title. */
  lemma {:induction false} SaveStoresCard(s: State, c: Captures, st: Collection, user: nat, id: nat, now: int)
    requires id !in Ids(st)
    ensures var r := HandleSave(s, c, st, user, id, now);
      r.Posted? && r.reply.status == Created ==>
        |r.reply.store| == |st| + 1 && r.reply.store[..|st|] == st &&
        var d := r.reply.store[|st|];
        d.owner == user && d.cardData == Some(Stored(s.card)) && d.featured == s.featured &&
        d.template == s.template.id && d.title == Trim(SavedTitle(s.card))
  {
    if HasPhoto(s.card) {
      var b := SaveBody(s, c);
      var rep := Create(st, user, b, id, now);
      if rep.status == Created {
        var d := Draft(b, user, id, now);
        assert rep.store == st + [d];
        assert rep.store[..|st|] == st;
        SavedDraft(s, c, user, id, now);
      }
    }
  }

  /** The document a save makes from a body that passed the request check. */
  lemma {:induction false} SavedDraft(s: State, c: Captures, user: nat, id: nat, now: int)
    requires CreateErrors(SaveBody(s, c)) == {}
    ensures var d := Draft(SaveBody(s, c), user, id, now);
      d.owner == user && d.cardData == Some(Stored(s.card)) && d.featured == s.featured &&
      d.template == s.template.id && d.title == Trim(SavedTitle(s.card))
  {
    var b := SaveBody(s, c);
    assert s.template.id in AllowedIds;
    EnumWithinAllowed();
    SavedTitleNotBlank(s.card);
    assert SanitizedTitle(b.title) == Some(Trim(SavedTitle(s.card)));
  }

  /** The page's own starting template passes the request check but not
      the schema's enumeration. */
  lemma {:induction false} DefaultTemplateRefused()
    ensures Default.id in AllowedIds && Default.id !in EnumIds
  {
    DefaultIsDonruss();
  }

  /** A template the schema refuses, the page's starting one among them,
      never gets a card stored: the collection stays as it was. */
  lemma {:induction false} OffEnumNeverSaved(s: State, c: Captures, st: Collection, user: nat, id: nat, now: int)
    requires id !in Ids(st) && s.template.id !in EnumIds
    ensures var r := HandleSave(s, c, st, user, id, now);
      r.NeedPhoto? || (r.reply.status != Created && r.reply.store == st)
  {
    SaveCreatedIff(s, c, st, user, id, now);
  }

  // ---------------------------------------------------------------------
  // Downloads
  // ---------------------------------------------------------------------

  /** A download name: the player's name with every run of white space made
      one underscore, then the suffix. */
  function FileName(playerName: string, suffix: string): (r: string)
    ensures NoSpace(suffix) ==> NoSpace(r)
    ensures Visible(r) == Visible(playerName) + Visible(suffix)
    ensures |suffix| <= |r| && r[|r| - |suffix|..] == suffix
  {
    CollapseNoSpace(playerName);
    CollapseKeepsVisible(playerName);
    VisibleAppend(Collapse(playerName), suffix);
    NoSpaceAppend(Collapse(playerName), suffix);
    Collapse(playerName) + suffix
  }

  /** A name without white space is used as it is. */
  lemma {:induction false} FileNameOfPlainName(playerName: string, suffix: string)
    requires NoSpace(playerName)
    ensures FileName(playerName, suffix) == playerName + suffix
  {
    CollapseIdentity(playerName);
  }

  /** The three suffixes hold no white space. */
  lemma {:induction false} SuffixesPlain()
    ensures NoSpace("_front.jpg") && NoSpace("_back.jpg") && NoSpace("_animated.gif")
  {
  }

  /** The download button: the front and the back image, named after the
      player. */
  function HandleDownload(d: CardData, front: string, back: string): (r: Download)
    ensures r.Stopped? <==> !HasPhoto(d)
    ensures r.Stopped? ==> r.reason == NoPhoto
    ensures r.Files? ==> |r.files| == 2 && r.files[0].href == front && r.files[1].href == back
    ensures r.Files? ==> NoSpace(r.files[0].name) && NoSpace(r.files[1].name)
    ensures r.Files? ==> Visible(r.files[0].name) == Visible(d.playerName) + Visible("_front.jpg")
    ensures r.Files? ==> Visible(r.files[1].name) == Visible(d.playerName) + Visible("_back.jpg")
  {
    if !HasPhoto(d) then Stopped(NoPhoto)
    else
      SuffixesPlain();
      var frontName := FileName(d.playerName, "_front.jpg");
      var backName := FileName(d.playerName, "_back.jpg");
      Files([File(frontName, front), File(backName, back)])
  }

  /** The GIF button: the animated GIF, named after the player. */
  function HandleDownloadGif(d: CardData, gif: string): (r: Download)
    ensures r.Stopped? <==> !HasPhoto(d)
    ensures r.Stopped? ==> r.reason == NoPhoto
    ensures r.Files? ==> |r.files| == 1 && r.files[0].href == gif && NoSpace(r.files[0].name)
    ensures r.Files? ==> Visible(r.files[0].name) == Visible(d.playerName) + Visible("_animated.gif")
  {
    if !HasPhoto(d) then Stopped(NoPhoto)
    else
      SuffixesPlain();
      var name := FileName(d.playerName, "_animated.gif");
      Files([File(name, gif)])
  }
}

=== FILE: dashboard.dfy ===
/**
 * The dashboard page: the user's listed cards, deleting one after a
 * confirmation, and downloading a stored card's images or animated GIF. The
 * listing carries no front images, so each download first fetches the full
 * card by id. The confirmation answer and the answers of the requests are
 * parameters here.
 */
module Dashboard {
  import opened Wrappers
  import opened Text
  import opened Schema
  import opened Store
  import opened Downloads

  // ---------------------------------------------------------------------
  // The list
  // ---------------------------------------------------------------------

  /** `response.data.cards || []`: the cards of a successful listing; the
      list stays empty when the request fails. */
  function Fetched(r: Result<Listing, Status>): (cards: seq<Doc>)
    ensures r.Err? ==> cards == []
    ensures r.Ok? ==> cards == r.value.cards
  {
    if r.Ok? then r.value.cards else []
  }

  /** The page lists only the user's own cards, and none with its front
      image. */
  lemma {:induction false} FetchedOwnOnly(st: Collection, user: nat, pageQ: Option<int>, limitQ: Option<int>)
    ensures var cards := Fetched(List(st, user, pageQ, limitQ));
      forall i :: 0 <= i < |cards| ==> cards[i].owner == user && cards[i].imageData == None
  {
    var r := List(st, user, pageQ, limitQ);
    ListOwnOnly(st, user, pageQ, limitQ);
    if r.Ok? {
      assert forall i :: 0 <= i < |r.value.cards| ==> r.value.cards[i] in r.value.cards;
    }
  }

  // ---------------------------------------------------------------------
  // Deleting
  // ---------------------------------------------------------------------

  /** `cards.filter(card => card._id !== cardId)`. */
  function WithoutCard(cards: seq<Doc>, id: nat): (r: seq<Doc>)
    ensures |r| <= |cards|
    ensures forall i :: 0 <= i < |r| ==> r[i].id != id
  {
    if |cards| == 0 then []
    else (if cards[0].id == id then [] else [cards[0]]) + WithoutCard(cards[1..], id)
  }

  /** The filter keeps exactly the cards with another id. */
  lemma {:induction false} WithoutCardMembers(cards: seq<Doc>, id: nat, d: Doc)
    ensures d in WithoutCard(cards, id) <==> d in cards && d.id != id
  {
    if |cards| > 0 {
      WithoutCardMembers(cards[1..], id, d);
      assert cards == [cards[0]] + cards[1..];
    }
  }

  /** Filtering a list filters each part: the kept cards stay in their
      relative order. */
  lemma {:induction false} WithoutCardConcat(a: seq<Doc>, b: seq<Doc>, id: nat)
    ensures WithoutCard(a + b, id) == WithoutCard(a, id) + WithoutCard(b, id)
  {
    if |a| > 0 {
      assert (a + b)[1..] == a[1..] + b;
      WithoutCardConcat(a[1..], b, id);
    } else {
      assert a + b == b;
    }
  }

  /** A list with no card of that id is left as it is. */
  lemma {:induction false} WithoutCardAbsent(cards: seq<Doc>, id: nat)
    requires forall i :: 0 <= i < |cards| ==> cards[i].id != id
    ensures WithoutCard(cards, id) == cards
  {
    if |cards| > 0 {
      WithoutCardAbsent(cards[1..], id);
    }
  }

  /** The delete button, given whether the user confirms and the server's
      answer: a cancelled confirmation sends nothing; otherwise the card
      leaves the list only when the server deleted it. The second component
      says whether a request was sent. */
  function HandleDelete(cards: seq<Doc>, id: nat, confirmed: bool, answer: Status): (r: (seq<Doc>, bool))
    ensures r.1 <==> confirmed
    ensures !(confirmed && answer == Success) ==> r.0 == cards
    ensures confirmed && answer == Success ==> forall i :: 0 <= i < |r.0| ==> r.0[i].id != id
  {
    if !confirmed then (cards, false)
    else if answer == Success then (WithoutCard(cards, id), true)
    else (cards, true)
  }

  /** After a confirmed delete, the page and the collection agree: when the
      server removed the card, no card with its id is left in either; when
      it answered 404, neither changed. */
  lemma {:induction false} DeleteAgrees(st: Collection, user: nat, id: nat, cards: seq<Doc>)
    requires Invariant(st)
    ensures var rep := Delete(st, user, id);
      var r := HandleDelete(cards, id, true, rep.status);
      (rep.status == Success ==>
        id !in Ids(rep.store) && forall i :: 0 <= i < |r.0| ==> r.0[i].id != id) &&
      (rep.status != Success ==> rep.store == st && r.0 == cards)
  {
    DeleteRemoves(st, user, id);
  }

  // ---------------------------------------------------------------------
  // Downloading
  // ---------------------------------------------------------------------

  /** `${card.title || 'baseball_card'}` followed by the suffix. */
  function FileName(title: string, suffix: string): (r: string)
    ensures Truthy(title) ==> |r| == |title| + |suffix| && r[..|title|] == title
    ensures !Truthy(title) ==> r == "baseball_card" + suffix
    ensures r[|r| - |suffix|..] == suffix
  {
    Or(title, "baseball_card") + suffix
  }

  /** The download button for a listed card, given the answer to fetching
      it in full: a failed fetch or a card without both images saves
      nothing; otherwise the front and back images, named after the listed
      card's title. */
  function HandleDownload(listed: Doc, fetched: Reply): (r: Download)
    ensures r == Stopped(RequestFailed) <==> fetched.status != Success || fetched.card.None?
    ensures r == Stopped(NoImageData) <==>
      fetched.status == Success && fetched.card.Some? &&
      !(Supplied(fetched.card.value.imageData) && Supplied(fetched.card.value.backImageData))
    ensures r.Stopped? ==> r.reason in {RequestFailed, NoImageData}
    ensures r.Files? ==>
      |r.files| == 2 &&
      r.files[0] == File(FileName(listed.title, "_front.jpg"), fetched.card.value.imageData.value) &&
      r.files[1] == File(FileName(listed.title, "_back.jpg"), fetched.card.value.backImageData.value)
  {
    if fetched.status != Success || fetched.card.None? then Stopped(RequestFailed)
    else
      var full := fetched.card.value;
      if !Supplied(full.imageData) || !Supplied(full.backImageData) then Stopped(NoImageData)
      else Files([File(FileName(listed.title, "_front.jpg"), full.imageData.value),
                  File(FileName(listed.title, "_back.jpg"), full.backImageData.value)])
  }

  /** The GIF button for a listed card: a failed fetch or a card without a
      GIF saves nothing; otherwise the GIF, named after the listed card's
      title. */
  function HandleDownloadGif(listed: Doc, fetched: Reply): (r: Download)
    ensures r == Stopped(RequestFailed) <==> fetched.status != Success || fetched.card.None?
    ensures r == Stopped(NoGif) <==>
      fetched.status == Success && fetched.card.Some? && !Supplied(fetched.card.value.animatedGif)
    ensures r.Stopped? ==> r.reason in {RequestFailed, NoGif}
    ensures r.Files? ==>
      |r.files| == 1 &&
      r.files[0] == File(FileName(listed.title, "_animated.gif"), fetched.card.value.animatedGif.value)
  {
    if fetched.status != Success || fetched.card.None? then Stopped(RequestFailed)
    else
      var full := fetched.card.value;
      if !Supplied(full.animatedGif) then Stopped(NoGif)
      else Files([File(FileName(listed.title, "_animated.gif"), full.animatedGif.value)])
  }

  /** A card the user owns in a collection of valid cards always downloads:
      the schema required both images when it was stored, so the guard
      never fires, and the files hold the stored images. */
  lemma {:induction false} StoredCardDownloads(st: Collection, user: nat, listed: Doc)
    requires AllValid(st)
    requires exists i :: 0 <= i < |st| && st[i].id == listed.id && st[i].owner == user
    ensures var fetched := Get(st, user, listed.id);
      var r := HandleDownload(listed, fetched);
      r.Files? && r.files[0].href == fetched.card.value.imageData.value &&
      r.files[1].href == fetched.card.value.backImageData.value
  {
    var fetched := Get(st, user, listed.id);
    var k :| 0 <= k < |st| && st[k] == fetched.card.value;
    assert Violations(st[k]) == {};
  }

  /** A created card always has a non-empty title, so the dashboard names
      its files after it; only an update can blank a title and bring in the
      fallback name. */
  lemma {:induction false} CreatedCardNamed(st: Collection, user: nat, b: Body, id: nat, now: int, suffix: string)
    requires id !in Ids(st)
    ensures var r := Create(st, user, b, id, now);
      r.status == Created ==> FileName(r.card.value.title, suffix) == r.card.value.title + suffix
  {
  }
}

=== FILE: downloads.dfy ===
/**
 * What a download button produces: either it stops before anything is
 * saved, for a stated reason, or it hands the browser files, each a name and
 * the data URL it points at.
 */
module Downloads {
  import opened Text

  /** Why a button saved nothing. */
  datatype Reason =
    | NoPhoto          // the player photo has not been uploaded
    | NoImageData      // the stored card lacks a front or back image
    | NoGif            // the stored card has no animated GIF
    | RequestFailed    // fetching the stored card failed

  datatype File = File(name: string, href: string)

  datatype Download = Stopped(reason: Reason) | Files(files: seq<File>)

  /** Gluing two strings without white space gives one without. */
  lemma {:induction false} NoSpaceAppend(a: string, b: string)
    ensures NoSpace(a) && NoSpace(b) ==> NoSpace(a + b)
  {
    if NoSpace(a) && NoSpace(b) {
      forall i | 0 <= i < |a + b| ensures !IsSpace((a + b)[i]) {
        if i < |a| {
          assert (a + b)[i] == a[i];
        } else {
          assert (a + b)[i] == b[i - |a|];
        }
      }
    }
  }
}

=== FILE: drawing.dfy ===
/**
 * What the card renderer hands to the drawing library, reduced to the parts
 * that carry meaning: shapes with their geometry and paint, text with its
 * position and content, the photo's clip region and the logo's box. Fonts,
 * colours (except banner text), corner radii and decorations are dropped.
 */
module Drawing {
  import opened Wrappers
  import opened Photo

  /** A JavaScript number as it reaches a shape: a finite value, or NaN
      where the source does arithmetic on a missing layer field. */
  datatype Num = Fin(v: real) | NaN

  /** A raw numeric layer field passed straight to a shape: a missing one
      takes the library's default of 0. */
  function Raw(o: Option<real>): (r: Num)
    ensures r.Fin?
    ensures o.Some? ==> r.v == o.value
    ensures o.None? ==> r.v == 0.0
  {
    Fin(o.GetOr(0.0))
  }

  /** `field || d` on a number: 0 and a missing field both give `d`. */
  function NumOr(o: Option<real>, d: real): (r: real)
    ensures o.Some? && o.value != 0.0 ==> r == o.value
    ensures o.None? || o.value == 0.0 ==> r == d
  {
    if o.Some? && o.value != 0.0 then o.value else d
  }

  /** `field + k`: NaN when the field is missing. */
  function Plus(o: Option<real>, k: real): (r: Num)
    ensures r.Fin? <==> o.Some?
    ensures o.Some? ==> r.v == o.value + k
  {
    if o.Some? then Fin(o.value + k) else NaN
  }

  /** How a box is painted. */
  datatype Paint =
    | TexturePaint(key: string)   // filled with the loaded texture image `key`
    | Outline(strokeWidth: real)  // stroked, not filled
    | Fill                        // filled with a colour

  datatype Op =
    | Box(x: Num, y: Num, w: Num, h: Num, paint: Paint)
    | Label(x: Num, y: Num, text: string)
    | BannerText(x: Num, y: Num, text: string, fill: string)
    | PhotoClip(clip: Rect)
    | LogoAt(box: Rect)
    | Panel(box: Rect)   // the rounded backdrop of the featured stats
    | StatColumn(x: Num, y: Num, caption: string, value: string)
      // one featured stat: its caption at y, its value 18 below

  /** A text at a finite position. */
  function At(x: real, y: real, text: string): Op
  {
    Label(Fin(x), Fin(y), text)
  }

  /** What the browser has finished loading: the player photo, the team
      logo and the texture images by key. */
  datatype Assets = Assets(photo: bool, logo: bool, textures: set<string>)

  /** No photo and no logo is drawn. */
  predicate NoImages(ops: seq<Op>)
  {
    forall i :: 0 <= i < |ops| ==> !ops[i].PhotoClip? && !ops[i].LogoAt?
  }

  /** No featured-stats backdrop is drawn. */
  predicate NoPanel(ops: seq<Op>)
  {
    forall i :: 0 <= i < |ops| ==> !ops[i].Panel?
  }

  lemma {:induction false} NoImagesConcat(a: seq<Op>, b: seq<Op>)
    requires NoImages(a) && NoImages(b)
    requires NoPanel(a) && NoPanel(b)
    ensures NoImages(a + b) && NoPanel(a + b)
  {
    forall i | 0 <= i < |a + b| ensures !(a + b)[i].PhotoClip? && !(a + b)[i].LogoAt? && !(a + b)[i].Panel? {
      if i < |a| {
        assert (a + b)[i] == a[i];
      } else {
        assert (a + b)[i] == b[i - |a|];
      }
    }
  }
}

=== FILE: editor.dfy ===
/**
 * The editor panel: the template tab, the field and stat inputs, the image
 * uploads and the featured-stat picker. Each user action is an `Event`;
 * `Step` applies one and `Run` a sequence of them.
 */
module Editor {
  import opened Wrappers
  import opened Seqs
  import opened Text
  import opened Cards
  import opened Templates
  import opened CardTemplates

  /** The most stats the picker lets the user feature. */
  const MaxFeatured := 3

  /** `prev.filter(s => s !== key)`: every occurrence of `x` goes, the rest
      stay in order. */
  function Remove(s: seq<string>, x: string): (r: seq<string>)
    ensures x !in r
    ensures forall y :: y != x ==> (y in r <==> y in s)
    ensures |r| <= |s|
    ensures x in s ==> |r| < |s|
  {
    if |s| == 0 then []
    else if s[0] == x then Remove(s[1..], x)
    else [s[0]] + Remove(s[1..], x)
  }

  /** Removing keeps a duplicate-free list duplicate-free, and removes
      exactly one entry when the value is there. */
  lemma {:induction false} RemoveDistinct(s: seq<string>, x: string)
    requires Distinct(s)
    ensures Distinct(Remove(s, x))
    ensures x in s ==> |Remove(s, x)| == |s| - 1
    decreases |s|
  {
    if |s| > 0 {
      assert Distinct(s[1..]) by {
        forall i, j | 0 <= i < j < |s[1..]| ensures s[1..][i] != s[1..][j] {
          assert s[1..][i] == s[i + 1] && s[1..][j] == s[j + 1];
        }
      }
      RemoveDistinct(s[1..], x);
      if s[0] == x {
        assert x !in s[1..] by {
          forall j | 0 <= j < |s[1..]| ensures s[1..][j] != x {
            assert s[1..][j] == s[j + 1];
          }
        }
        RemoveAbsent(s[1..], x);
      } else {
        var t := Remove(s[1..], x);
        assert s[0] !in s[1..] by {
          forall j | 0 <= j < |s[1..]| ensures s[1..][j] != s[0] {
            assert s[1..][j] == s[j + 1];
          }
        }
        assert s[0] !in t;
        forall i, j | 0 <= i < j < |[s[0]] + t| ensures ([s[0]] + t)[i] != ([s[0]] + t)[j] {
          if i == 0 {
            assert ([s[0]] + t)[j] == t[j - 1];
          } else {
            assert ([s[0]] + t)[i] == t[i - 1] && ([s[0]] + t)[j] == t[j - 1];
          }
        }
        assert x in s ==> x in s[1..] by {
          if x in s {
            var k :| 0 <= k < |s| && s[k] == x;
            assert s[1..][k - 1] == x;
          }
        }
      }
    }
  }

  /** Removing a value from between two parts that do not hold it leaves the
      two parts joined, in their order. */
  lemma {:induction false} RemoveSplit(p: seq<string>, x: string, q: seq<string>)
    requires x !in p && x !in q
    ensures Remove(p + [x] + q, x) == p + q
    decreases |p|
  {
    if |p| == 0 {
      assert p + [x] + q == [x] + q;
      RemoveAbsent(q, x);
    } else {
      var whole := p + [x] + q;
      assert whole[0] == p[0] && p[0] != x;
      assert whole[1..] == p[1..] + [x] + q;
      assert x !in p[1..] by {
        forall j | 0 <= j < |p[1..]| ensures p[1..][j] != x {
          assert p[1..][j] == p[j + 1];
        }
      }
      RemoveSplit(p[1..], x, q);
      assert Remove(whole, x) == [p[0]] + Remove(whole[1..], x);
      assert p + q == [p[0]] + (p[1..] + q);
    }
  }

  /** Removing a value that is not there changes nothing. */
  lemma {:induction false} RemoveAbsent(s: seq<string>, x: string)
    requires x !in s
    ensures Remove(s, x) == s
    decreases |s|
  {
    if |s| > 0 {
      assert x !in s[1..] by {
        forall j | 0 <= j < |s[1..]| ensures s[1..][j] != x {
          assert s[1..][j] == s[j + 1];
        }
      }
      RemoveAbsent(s[1..], x);
      assert s == [s[0]] + s[1..];
    }
  }

  /** The stats the picker offers: those whose value is non-empty. */
  function Offered(stats: map<string, string>): (r: set<string>)
    ensures forall k :: k in r <==> HasStat(stats, k)
  {
    set k | k in stats.Keys && stats[k] != ""
  }

  /** A click on a stat of the picker: a selected stat is deselected; an
      unselected one is appended while fewer than three are selected and
      ignored otherwise. */
  function Toggle(sel: seq<string>, key: string): (r: seq<string>)
    ensures key in r <==> key !in sel && |sel| < MaxFeatured
    ensures forall y :: y != key ==> (y in r <==> y in sel)
    ensures Distinct(sel) && |sel| <= MaxFeatured ==> Distinct(r) && |r| <= MaxFeatured
  {
    if key in sel then
      RemoveDistinctIf(sel, key);
      Remove(sel, key)
    else if |sel| < MaxFeatured then
      AppendDistinct(sel, key);
      sel + [key]
    else sel
  }

  lemma {:induction false} RemoveDistinctIf(s: seq<string>, x: string)
    ensures Distinct(s) ==> Distinct(Remove(s, x))
  {
    if Distinct(s) {
      RemoveDistinct(s, x);
    }
  }

  lemma {:induction false} AppendDistinct(s: seq<string>, x: string)
    requires x !in s
    ensures Distinct(s) ==> Distinct(s + [x])
  {
    if Distinct(s) {
      forall i, j | 0 <= i < j < |s + [x]| ensures (s + [x])[i] != (s + [x])[j] {
        assert (s + [x])[i] == s[i];
        if j == |s| {
          assert s[i] in s;
        } else {
          assert (s + [x])[j] == s[j];
        }
      }
    }
  }

  /** Clicking an unselected stat twice, with room to add it, gives back the
      selection unchanged. */
  lemma {:induction false} ToggleTwiceAdded(sel: seq<string>, key: string)
    requires key !in sel && |sel| < MaxFeatured
    ensures Toggle(Toggle(sel, key), key) == sel
  {
    assert sel + [key] == sel + [key] + [];
    RemoveSplit(sel, key, []);
  }

  /** Clicking a selected stat twice moves it to the end of the selection,
      the others keeping their order. */
  lemma {:induction false} ToggleTwiceSelected(p: seq<string>, key: string, q: seq<string>)
    requires key !in p && key !in q && |p| + |q| < MaxFeatured
    ensures Toggle(Toggle(p + [key] + q, key), key) == p + q + [key]
  {
    RemoveSplit(p, key, q);
  }

  /** The editor's state: the card, the featured keys and the template. */
  datatype State = State(card: CardData, featured: seq<string>, template: Template)

  /** One user action on the panel. `PickTemplate(c, i)` is a click on the
      `i`-th template shown under category `c`. */
  /** The two fields an upload fills: the player photo and the team logo. */
  type ImageField = f: Field | f == PlayerImage || f == TeamLogo witness PlayerImage

  datatype Event =
    | EditField(field: Field, value: string)
    | EditStat(key: string, value: string)
    | Upload(image: ImageField, file: Option<string>)
    | ClickStat(key: string)
    | PickTemplate(category: string, index: nat)

  /** Applies one action. An upload without a file does nothing; a click on
      a stat the picker does not offer (its value is empty) does nothing; a
      template click outside the category's grid does nothing. */
  function Step(s: State, e: Event): (r: State)
    ensures e.EditField? ==> r.card == SetField(s.card, e.field, e.value) && r.featured == s.featured
    ensures e.EditStat? ==> r.card == SetStat(s.card, e.key, e.value)
    ensures e.Upload? && e.file.Some? ==> r.card == SetField(s.card, e.image, e.file.value)
    ensures e.Upload? && e.file.Some? ==> Value(r.card, e.image) == e.file
    ensures e.ClickStat? && e.key in Offered(s.card.stats) ==>
      r.featured == Toggle(s.featured, e.key) && r.card == s.card
    ensures e.PickTemplate? ==> r.template == Pick(s.template, e.category, e.index) && r.card == s.card
    ensures e.Upload? && e.file.None? ==> r == s
    ensures e.ClickStat? && e.key !in Offered(s.card.stats) ==> r == s
    ensures !e.ClickStat? ==> r.featured == s.featured
    ensures !e.PickTemplate? ==> r.template == s.template
    ensures r.template in Catalog || r.template == s.template
  {
    match e
    case EditField(f, v) => s.(card := SetField(s.card, f, v))
    case EditStat(k, v) => s.(card := SetStat(s.card, k, v))
    case Upload(f, file) =>
      if file.Some? then s.(card := SetField(s.card, f, file.value)) else s
    case ClickStat(k) =>
      if k in Offered(s.card.stats) then s.(featured := Toggle(s.featured, k)) else s
    case PickTemplate(c, i) => s.(template := Pick(s.template, c, i))
  }

  /** The template a click on position `i` of the category's grid selects;
      a click outside the grid keeps the current one. */
  function Pick(current: Template, c: string, i: nat): (t: Template)
    ensures t in Catalog || t == current
    ensures i < |GetTemplatesByCategory(c)| ==> t == GetTemplatesByCategory(c)[i] && t.category == c
    ensures i >= |GetTemplatesByCategory(c)| ==> t == current
  {
    var shown := GetTemplatesByCategory(c);
    if i < |shown| then
      assert shown[i] in shown;
      shown[i]
    else current
  }

  /** Applies a sequence of actions in order. */
  function Run(s: State, es: seq<Event>): (r: State)
    ensures r.template in Catalog || r.template == s.template
    ensures (forall i :: 0 <= i < |es| ==> !es[i].PickTemplate?) ==> r.template == s.template
    ensures (forall i :: 0 <= i < |es| ==> !es[i].ClickStat?) ==> r.featured == s.featured
    decreases |es|
  {
    if |es| == 0 then s else Run(Step(s, es[0]), es[1..])
  }

  /** The state a picker keeps: at most three featured stats, none twice,
      and a template from the catalog. */
  ghost predicate Valid(s: State)
  {
    Distinct(s.featured) && |s.featured| <= MaxFeatured && s.template in Catalog
  }

  /** Whatever the user does, a valid state stays valid. */
  lemma {:induction false} RunKeepsValid(s: State, es: seq<Event>)
    requires Valid(s)
    ensures Valid(Run(s, es))
    decreases |es|
  {
    if |es| > 0 {
      RunKeepsValid(Step(s, es[0]), es[1..]);
    }
  }

  /** The categories the template tab lists: those whose list of templates
      is not empty. */
  function ShownCategories(cs: seq<string>): (r: seq<string>)
    ensures forall c :: c in r <==> c in cs && GetTemplatesByCategory(c) != []
    ensures |r| <= |cs|
  {
    if |cs| == 0 then []
    else if GetTemplatesByCategory(cs[0]) == [] then ShownCategories(cs[1..])
    else [cs[0]] + ShownCategories(cs[1..])
  }

  /** A category is listed exactly when some catalog template has it. */
  lemma {:induction false} ShownCategoriesHaveTemplates(cs: seq<string>)
    ensures forall c :: c in ShownCategories(cs) <==> c in cs && exists t :: t in Catalog && t.category == c
  {
    forall c | c in cs
      ensures GetTemplatesByCategory(c) != [] <==> exists t :: t in Catalog && t.category == c
    {
      HasTemplates(c);
    }
  }

  lemma {:induction false} HasTemplates(c: string)
    ensures GetTemplatesByCategory(c) != [] <==> exists t :: t in Catalog && t.category == c
  {
    var here := GetTemplatesByCategory(c);
    if here != [] {
      assert here[0] in here;
    }
  }
}

=== FILE: featured.dfy ===
/**
 * The featured-stat row of the layered front: the chosen stats, each drawn
 * as a short label over its value, in columns a third of the panel wide.
 */
module Featured {
  import opened Text
  import opened Cards
  import opened Photo
  import opened Drawing

  /** The width of one featured column: a third of the panel. */
  const ColumnWidth: real := (CardWidth - 60.0) / 3.0

  /** The x of the `i`-th featured column. */
  function ColumnX(i: nat): real
  {
    30.0 + i as real * ColumnWidth
  }

  /** The `j`-th featured stat: its short label (or the key upper-cased)
      and its value, a missing or empty stat showing as an empty text. */
  function Column(keys: seq<string>, stats: map<string, string>, j: nat, startY: real): Op
    requires j < |keys|
  {
    StatColumn(Fin(ColumnX(j)), Fin(startY), ColumnLabel(keys[j]), StatOr(stats, keys[j], ""))
  }

  /** The featured keys from position `i` on, one column each. */
  function FeaturedFrom(keys: seq<string>, stats: map<string, string>, startY: real, i: nat): (r: seq<Op>)
    requires i <= |keys|
    ensures |r| == |keys| - i
    ensures forall j :: i <= j < |keys| ==> r[j - i] == Column(keys, stats, j, startY)
    decreases |keys| - i
  {
    if i == |keys| then []
    else
      var rest := FeaturedFrom(keys, stats, startY, i + 1);
      var r := [Column(keys, stats, i, startY)] + rest;
      assert forall k :: 0 < k < |r| ==> r[k] == rest[k - 1];
      r
  }

  /** `renderFeaturedStats(startY)`: every featured key, in the order
      chosen and with no limit on how many, in its own column. */
  function FeaturedOps(keys: seq<string>, stats: map<string, string>, startY: real): (r: seq<Op>)
    ensures |r| == |keys|
    ensures forall j :: 0 <= j < |keys| ==> r[j] == Column(keys, stats, j, startY)
    ensures forall j :: 0 <= j < |keys| ==> r[j].StatColumn? && r[j].x == Fin(ColumnX(j)) && r[j].y == Fin(startY)
    ensures forall j :: 0 <= j < |keys| ==>
      r[j].StatColumn? && r[j].caption == ColumnLabel(keys[j]) && r[j].value == StatOr(stats, keys[j], "")
    ensures NoImages(r) && NoPanel(r)
  {
    FeaturedFrom(keys, stats, startY, 0)
  }

  /** Columns run left to right, one `ColumnWidth` apart; the first three
      fill the panel exactly. */
  lemma {:induction false} ColumnsAdvance(i: nat)
    ensures ColumnX(i + 1) == ColumnX(i) + ColumnWidth
    ensures ColumnX(0) == 30.0 && ColumnX(3) == CardWidth - 30.0
  {
  }

}

=== FILE: photo.dfy ===
/**
 * Placement of the player photo inside a template's clip rectangle: the
 * scale that makes the photo cover its area with room to pan, the position
 * it starts at, and the drag constraint that keeps it over the clip.
 * Lengths are canvas units; the photo's natural size is `w` by `h`.
 */
module Photo {

  /** An axis-aligned rectangle: top-left corner and size. */
  datatype Rect = Rect(x: real, y: real, w: real, h: real)

  /** Where the photo is drawn and how much it is enlarged. */
  datatype Pose = Pose(x: real, y: real, scale: real)

  const CardWidth: real := 400.0
  const CardHeight: real := 560.0
  const ImageAreaHeight: real := 340.0

  /** The box the initial placement is computed for: 30 units in from the
      left and top, `CardWidth - 60` wide and `ImageAreaHeight` high. */
  const PlacementBox := Rect(30.0, 30.0, CardWidth - 60.0, ImageAreaHeight)

  /** How much larger than "just covering" the photo is drawn. */
  const PanRoom: real := 1.2

  function Max(a: real, b: real): (r: real)
    ensures r >= a && r >= b && (r == a || r == b)
  {
    if a >= b then a else b
  }

  function Min(a: real, b: real): (r: real)
    ensures r <= a && r <= b && (r == a || r == b)
  {
    if a <= b then a else b
  }

  /** The drawn photo lies over the whole of `clip`, so no part of the clip
      shows through. */
  predicate Covers(p: Pose, w: real, h: real, clip: Rect)
  {
    p.x <= clip.x && clip.x + clip.w <= p.x + w * p.scale &&
    p.y <= clip.y && clip.y + clip.h <= p.y + h * p.scale
  }

  /** `Math.max(cw / w, ch / h) * 1.2`: the photo covers a `cw` by `ch` box
      with 20% to spare on its tighter side. */
  function CoverScale(w: real, h: real, cw: real, ch: real): (s: real)
    requires w > 0.0 && h > 0.0 && cw > 0.0 && ch > 0.0
    ensures s > 0.0
    ensures w * s >= PanRoom * cw && h * s >= PanRoom * ch
    ensures w * s == PanRoom * cw || h * s == PanRoom * ch
  {
    var s := Max(cw / w, ch / h) * PanRoom;
    ScaleBound(w, cw / w, Max(cw / w, ch / h));
    ScaleBound(h, ch / h, Max(cw / w, ch / h));
    s
  }

  lemma {:induction false} ScaleBound(n: real, q: real, m: real)
    requires n > 0.0 && m >= q
    ensures n * (m * PanRoom) >= (n * q) * PanRoom
    ensures m == q ==> n * (m * PanRoom) == (n * q) * PanRoom
  {
  }

  /** The placement the canvas computes when a photo loads, as written: the
      scale covers `PlacementBox` and the photo is centred on that box,
      whatever the template's own clip rectangle is. */
  function InitialPose(w: real, h: real): (p: Pose)
    requires w > 0.0 && h > 0.0
    ensures p.x + w * p.scale / 2.0 == PlacementBox.x + PlacementBox.w / 2.0
    ensures p.y + h * p.scale / 2.0 == PlacementBox.y + PlacementBox.h / 2.0
    ensures w * p.scale >= PanRoom * PlacementBox.w && h * p.scale >= PanRoom * PlacementBox.h
    ensures Covers(p, w, h, PlacementBox)
  {
    var s := CoverScale(w, h, PlacementBox.w, PlacementBox.h);
    Pose((PlacementBox.w - w * s) / 2.0 + 30.0, (PlacementBox.h - h * s) / 2.0 + 30.0, s)
  }

  /** The photo clip of the layered templates. */
  const LayeredClip := Rect(40.0, 80.0, 320.0, 340.0)

  /** As written, a square photo on a layered template starts 16 units short
      of the clip's bottom edge: it spans y from -4 to 404, the clip from 80
      to 420. */
  lemma {:induction false} InitialPoseMissesLayeredClip()
    ensures InitialPose(100.0, 100.0).y + 100.0 * InitialPose(100.0, 100.0).scale == 404.0
    ensures !Covers(InitialPose(100.0, 100.0), 100.0, 100.0, LayeredClip)
  {
    var p := InitialPose(100.0, 100.0);
    assert p.scale == 4.08;
  }

  /** The placement centred on the template's own clip rectangle: it covers
      the clip for every photo and every clip. */
  function CentredPose(w: real, h: real, clip: Rect): (p: Pose)
    requires w > 0.0 && h > 0.0 && clip.w > 0.0 && clip.h > 0.0
    ensures p.x + w * p.scale / 2.0 == clip.x + clip.w / 2.0
    ensures p.y + h * p.scale / 2.0 == clip.y + clip.h / 2.0
    ensures Covers(p, w, h, clip)
  {
    var s := CoverScale(w, h, clip.w, clip.h);
    Pose(clip.x + (clip.w - w * s) / 2.0, clip.y + (clip.h - h * s) / 2.0, s)
  }

  /** On the box it was designed for, the centred placement is the one the
      canvas computes. */
  lemma {:induction false} CentredPoseAgrees(w: real, h: real)
    requires w > 0.0 && h > 0.0
    ensures CentredPose(w, h, PlacementBox) == InitialPose(w, h)
  {
  }

  /** `Math.min(hi, Math.max(lo, v))`. */
  function Clamp(v: real, lo: real, hi: real): (r: real)
    ensures lo <= hi ==> lo <= r <= hi
    ensures lo <= v <= hi ==> r == v
    ensures hi < lo ==> r == hi
  {
    Min(hi, Max(lo, v))
  }

  /** The drag handler: the dropped position is pulled back so that the
      photo's left and top edges stay at or before the clip's and its right
      and bottom edges at or after the clip's. */
  function Drag(p: Pose, w: real, h: real, clip: Rect, x: real, y: real): (r: Pose)
    ensures r.scale == p.scale
    ensures w * p.scale >= clip.w && h * p.scale >= clip.h ==> Covers(r, w, h, clip)
    ensures Covers(Pose(x, y, p.scale), w, h, clip) ==> r == Pose(x, y, p.scale)
  {
    var minX := clip.x - (w * p.scale - clip.w);
    var minY := clip.y - (h * p.scale - clip.h);
    Pose(Clamp(x, minX, clip.x), Clamp(y, minY, clip.y), p.scale)
  }

  /** Once dragged, a photo placed as written covers any clip that fits in
      `PanRoom` times the placement box, which every template's clip does. */
  lemma {:induction false} DragCoversAfterInitialPose(w: real, h: real, clip: Rect, x: real, y: real)
    requires w > 0.0 && h > 0.0
    requires clip.w <= PanRoom * PlacementBox.w && clip.h <= PanRoom * PlacementBox.h
    ensures Covers(Drag(InitialPose(w, h), w, h, clip, x, y), w, h, clip)
  {
    var p := InitialPose(w, h);
    assert w * p.scale >= clip.w && h * p.scale >= clip.h;
  }

  /** Any sequence of drags from the corrected placement keeps the clip
      covered. */
  function DragAll(p: Pose, w: real, h: real, clip: Rect, moves: seq<(real, real)>): (r: Pose)
    ensures r.scale == p.scale
    ensures |moves| > 0 && Covers(Pose(moves[|moves| - 1].0, moves[|moves| - 1].1, p.scale), w, h, clip) ==>
      r == Pose(moves[|moves| - 1].0, moves[|moves| - 1].1, p.scale)
    decreases |moves|
  {
    if |moves| == 0 then p
    else DragAll(Drag(p, w, h, clip, moves[0].0, moves[0].1), w, h, clip, moves[1..])
  }

  lemma {:induction false} DragsKeepCover(w: real, h: real, clip: Rect, moves: seq<(real, real)>)
    requires w > 0.0 && h > 0.0 && clip.w > 0.0 && clip.h > 0.0
    ensures Covers(DragAll(CentredPose(w, h, clip), w, h, clip, moves), w, h, clip)
  {
    DragsKeepCoverFrom(CentredPose(w, h, clip), w, h, clip, moves);
  }

  lemma {:induction false} DragsKeepCoverFrom(p: Pose, w: real, h: real, clip: Rect, moves: seq<(real, real)>)
    requires Covers(p, w, h, clip)
    ensures Covers(DragAll(p, w, h, clip, moves), w, h, clip)
    decreases |moves|
  {
    if |moves| > 0 {
      DragsKeepCoverFrom(Drag(p, w, h, clip, moves[0].0, moves[0].1), w, h, clip, moves[1..]);
    }
  }
}

=== FILE: schema.dfy ===
/**
 * The stored card document and the checks the document schema makes on
 * every save: the required images, the template enumeration, the limit on
 * featured stats, and the save hook that stamps the update time. Paths the
 * schema does not declare, such as `settings`, are not stored.
 */
module Schema {
  import opened Wrappers
  import opened Cards

  /** The template ids the schema accepts. Six ids of the catalog that the
      routes accept are missing here: donruss1985, topps1990, sandstone,
      canvas, concrete and brushedmetal. */
  const EnumIds: set<string> :=
    {"classic", "modern", "vintage", "minimalist", "neon", "retro80s", "chrome", "holographic",
     "galaxy", "rainbow", "grunge", "polaroid", "woodgrain", "carbon", "watercolor", "sketch",
     "cyberpunk", "gold", "diamond", "marble", "sunset", "nebula", "fire", "ice", "lightning",
     "camo", "newspaper", "comic", "chalkboard", "blueprint", "leather", "denim", "ocean"}

  const DefaultTitle := "Untitled Card"
  const DefaultTemplate := "classic"

  /** The most featured stats a document may hold. */
  const MaxFeaturedStored := 3

  /** A stored card. `id` and `owner` stand for the document's object id and
      its user's; times are clock readings. */
  datatype Doc = Doc(
    id: nat, owner: nat, title: string,
    imageData: Option<string>, backImageData: Option<string>, animatedGif: Option<string>,
    thumbnail: Option<string>, backThumbnail: Option<string>,
    template: string, featured: seq<string>, cardData: Option<CardData>,
    createdAt: int, updatedAt: int)

  /** What the schema's validators can reject. */
  datatype Violation = ImageDataRequired | BackImageDataRequired | TemplateNotInEnum | TooManyFeatured

  /** A required string path is satisfied only by a non-empty string. */
  predicate Supplied(o: Option<string>)
  {
    o.Some? && o.value != ""
  }

  /** Every validator that fails on `d`. */
  function Violations(d: Doc): (r: set<Violation>)
    ensures ImageDataRequired in r <==> !Supplied(d.imageData)
    ensures BackImageDataRequired in r <==> !Supplied(d.backImageData)
    ensures TemplateNotInEnum in r <==> d.template !in EnumIds
    ensures TooManyFeatured in r <==> |d.featured| > MaxFeaturedStored
  {
    (if Supplied(d.imageData) then {} else {ImageDataRequired}) +
    (if Supplied(d.backImageData) then {} else {BackImageDataRequired}) +
    (if d.template in EnumIds then {} else {TemplateNotInEnum}) +
    (if |d.featured| <= MaxFeaturedStored then {} else {TooManyFeatured})
  }

  /** `save()`: validate, then stamp `updatedAt` with the clock reading
      `now`; a document that fails validation is not saved. */
  function Save(d: Doc, now: int): (r: Result<Doc, set<Violation>>)
    ensures r.Ok? <==> Violations(d) == {}
    ensures r.Ok? ==> r.value == d.(updatedAt := now)
    ensures r.Err? ==> r.error == Violations(d)
  {
    var v := Violations(d);
    if v == {} then Ok(d.(updatedAt := now)) else Err(v)
  }

  /** A saved document passes every validator, and saving it again changes
      only its update time. */
  lemma {:induction false} SaveAgain(d: Doc, now: int, later: int)
    requires Save(d, now).Ok?
    ensures Violations(Save(d, now).value) == {}
    ensures Save(Save(d, now).value, later) == Ok(d.(updatedAt := later))
  {
  }

  /** A new document from the values given for its paths: missing ones take
      the schema's defaults (title, template, no featured stats) and both
      times are `now`. */
  function NewDoc(id: nat, owner: nat, title: Option<string>, imageData: Option<string>,
                  backImageData: Option<string>, animatedGif: Option<string>,
                  thumbnail: Option<string>, backThumbnail: Option<string>, template: Option<string>,
                  featured: Option<seq<string>>, cardData: Option<CardData>, now: int): (r: Doc)
    ensures r.title == title.GetOr(DefaultTitle) && r.template == template.GetOr(DefaultTemplate)
    ensures r.featured == featured.GetOr([])
    ensures r.createdAt == now && r.updatedAt == now
    ensures r.id == id && r.owner == owner && r.imageData == imageData && r.backImageData == backImageData
  {
    Doc(id, owner, title.GetOr(DefaultTitle), imageData, backImageData, animatedGif, thumbnail,
        backThumbnail, template.GetOr(DefaultTemplate), featured.GetOr([]), cardData, now, now)
  }

  /** The stat paths the schema declares under `cardData.stats`. */
  const SchemaStatKeys: set<string> :=
    {"avg", "hr", "rbi", "games", "hits", "sb", "atBats", "doubles", "triples", "walks",
     "strikeouts", "obp", "slg", "era", "wins", "losses", "saves", "ip", "strikeoutsP", "whip"}

  /** The card data as strict mode stores it: the schema declares no path
      for the player photo or the team logo, so both are dropped, and so is
      every stat the schema does not declare. */
  function Stored(c: CardData): (r: CardData)
    ensures r.playerImage.None? && r.teamLogo.None?
    ensures r.playerName == c.playerName && r.teamName == c.teamName && r.position == c.position &&
            r.year == c.year && r.hometown == c.hometown && r.height == c.height &&
            r.weight == c.weight && r.batsThrows == c.batsThrows
    ensures forall k :: k in r.stats <==> k in c.stats && k in SchemaStatKeys
    ensures forall k :: k in r.stats ==> r.stats[k] == c.stats[k]
  {
    c.(playerImage := None, teamLogo := None,
       stats := map k | k in c.stats && k in SchemaStatKeys :: c.stats[k])
  }

  /** Storing stored card data changes nothing. */
  lemma {:induction false} StoredIdempotent(c: CardData)
    ensures Stored(Stored(c)) == Stored(c)
  {
    assert Stored(Stored(c)).stats == Stored(c).stats;
  }

  /** Every stat the editor edits is declared, so a card without images and
      with only the editor's stats is stored as it is. */
  lemma {:induction false} EditorStatsStored(c: CardData)
    requires c.playerImage.None? && c.teamLogo.None?
    requires forall k :: k in c.stats ==> k in BattingKeys || k in PitchingKeys
    ensures Stored(c) == c
  {
    assert forall k :: k in BattingKeys ==> k in SchemaStatKeys;
    assert forall k :: k in PitchingKeys ==> k in SchemaStatKeys;
    assert Stored(c).stats == c.stats;
  }

  /** The default template is one the schema accepts. */
  lemma {:induction false} DefaultTemplateValid()
    ensures DefaultTemplate in EnumIds
  {
  }
}

=== FILE: seqs.dfy ===
/**
 * Duplicate-freedom of sequences, in two forms: the recursive predicates
 * `Absent`/`Unique`/`Apart`, which unfold on literal data, and the
 * quantified statements they are equivalent to.
 */
module Seqs {

  /** `x` occurs nowhere in `s`. */
  predicate Absent<T(==)>(x: T, s: seq<T>)
  {
    |s| == 0 || (x != s[0] && Absent(x, s[1..]))
  }

  /** No value occurs twice in `s`. */
  predicate Unique<T(==)>(s: seq<T>)
  {
    |s| == 0 || (Absent(s[0], s[1..]) && Unique(s[1..]))
  }

  /** No value of `a` occurs in `b`. */
  predicate Apart<T(==)>(a: seq<T>, b: seq<T>)
  {
    |a| == 0 || (Absent(a[0], b) && Apart(a[1..], b))
  }

  /** The quantified reading of duplicate-freedom. */
  ghost predicate Distinct<T>(s: seq<T>)
  {
    forall i, j :: 0 <= i < j < |s| ==> s[i] != s[j]
  }

  lemma {:induction false} AbsentMeans<T>(x: T, s: seq<T>)
    ensures Absent(x, s) <==> x !in s
    decreases |s|
  {
    if |s| > 0 {
      AbsentMeans(x, s[1..]);
      assert s == [s[0]] + s[1..];
    }
  }

  lemma {:induction false} UniqueMeans<T>(s: seq<T>)
    ensures Unique(s) <==> Distinct(s)
    decreases |s|
  {
    if |s| > 0 {
      UniqueMeans(s[1..]);
      AbsentMeans(s[0], s[1..]);
      if Unique(s) {
        forall i, j | 0 <= i < j < |s| ensures s[i] != s[j] {
          if i > 0 {
            assert s[i] == s[1..][i - 1] && s[j] == s[1..][j - 1];
          } else {
            assert s[j] == s[1..][j - 1];
          }
        }
      }
      if Distinct(s) {
        forall i, j | 0 <= i < j < |s| - 1 ensures s[1..][i] != s[1..][j] {
          assert s[1..][i] == s[i + 1] && s[1..][j] == s[j + 1];
        }
      }
    }
  }

  lemma {:induction false} ApartMeans<T>(a: seq<T>, b: seq<T>)
    ensures Apart(a, b) <==> forall x :: x in a ==> x !in b
    decreases |a|
  {
    if |a| > 0 {
      ApartMeans(a[1..], b);
      AbsentMeans(a[0], b);
      assert a == [a[0]] + a[1..];
    }
  }

  /** A concatenation is duplicate-free exactly when both halves are and
      they share no value. */
  lemma {:induction false} UniqueConcat<T>(a: seq<T>, b: seq<T>)
    ensures Unique(a + b) <==> Unique(a) && Unique(b) && Apart(a, b)
  {
    UniqueMeans(a);
    UniqueMeans(b);
    UniqueMeans(a + b);
    ApartMeans(a, b);
    if Distinct(a + b) {
      forall i, j | 0 <= i < j < |a| ensures a[i] != a[j] {
        assert (a + b)[i] == a[i] && (a + b)[j] == a[j];
      }
      forall i, j | 0 <= i < j < |b| ensures b[i] != b[j] {
        assert (a + b)[|a| + i] == b[i] && (a + b)[|a| + j] == b[j];
      }
      forall x | x in a ensures x !in b {
        var i :| 0 <= i < |a| && a[i] == x;
        assert (a + b)[i] == x;
        assert forall j :: 0 <= j < |b| ==> (a + b)[|a| + j] == b[j];
      }
    }
    if Distinct(a) && Distinct(b) && (forall x :: x in a ==> x !in b) {
      forall i, j | 0 <= i < j < |a + b| ensures (a + b)[i] != (a + b)[j] {
        if j < |a| {
          assert (a + b)[i] == a[i] && (a + b)[j] == a[j];
        } else if i >= |a| {
          assert (a + b)[i] == b[i - |a|] && (a + b)[j] == b[j - |a|];
        } else {
          assert (a + b)[i] == a[i] && (a + b)[j] == b[j - |a|];
          assert a[i] in a && b[j - |a|] in b;
        }
      }
    }
  }

  /** Apartness from a concatenation splits into apartness from each part. */
  lemma {:induction false} ApartConcat<T>(a: seq<T>, b: seq<T>, c: seq<T>)
    ensures Apart(a + b, c) <==> Apart(a, c) && Apart(b, c)
  {
    ApartMeans(a + b, c);
    ApartMeans(a, c);
    ApartMeans(b, c);
  }
}

=== FILE: store.dfy ===
/**
 * The card routes: listing a user's cards a page at a time, creating a card
 * after checking the request, and reading, updating and deleting one card,
 * each only for the card's owner. The collection is a sequence of documents
 * in the order they were created; the clock and fresh object ids are
 * parameters.
 */
module Store {
  import opened Wrappers
  import opened Text
  import opened Cards
  import opened Schema

  /** The template ids a request may name: the catalog's, except camogray. */
  const AllowedIds: set<string> :=
    {"donruss1985", "topps1990",
     "sandstone", "canvas", "concrete", "woodgrain", "leather", "denim", "marble", "carbon", "brushedmetal",
     "classic", "vintage", "polaroid", "newspaper",
     "modern", "minimalist", "chrome", "gold", "diamond",
     "watercolor", "sketch", "comic", "grunge", "chalkboard", "blueprint",
     "neon", "retro80s", "cyberpunk", "holographic", "rainbow", "lightning",
     "galaxy", "nebula", "sunset", "ocean", "fire", "ice",
     "camo"}

  /** The schema accepts a subset of the ids the routes accept: six ids
      pass the request check only to fail the schema's enumeration. */
  lemma {:induction false} RouteAndSchemaDisagree()
    ensures AllowedIds - EnumIds == {"donruss1985", "topps1990", "sandstone", "canvas", "concrete", "brushedmetal"}
  {
  }

  /** Every id the schema accepts passes the request check, and the empty
      id does not. */
  lemma {:induction false} EnumWithinAllowed()
    ensures EnumIds <= AllowedIds && "" !in AllowedIds
  {
  }

  /** The longest title a request may carry, after trimming. */
  const MaxTitle := 100

  /** A request's `title`: a string, or a value of another JSON type. */
  datatype TitleInput = TitleText(s: string) | TitleOther

  /** A request body; `None` is a field the body leaves out. */
  datatype Body = Body(
    imageData: Option<string> := None, backImageData: Option<string> := None,
    animatedGif: Option<string> := None, template: Option<string> := None,
    title: Option<TitleInput> := None, settings: Option<map<string, string>> := None,
    thumbnail: Option<string> := None, backThumbnail: Option<string> := None,
    cardData: Option<CardData> := None, featured: Option<seq<string>> := None)

  datatype FieldError = ImageDataEmpty | TemplateNotAllowed | TitleNotString | TitleTooLong

  /** The checks on `template` and `title` that creating and updating share:
      each is checked only when given; a title is trimmed before its length
      is checked. */
  function SharedErrors(b: Body): (r: set<FieldError>)
    ensures TemplateNotAllowed in r <==> b.template.Some? && b.template.value !in AllowedIds
    ensures TitleNotString in r <==> b.title == Some(TitleOther)
    ensures TitleTooLong in r <==> b.title.Some? && b.title.value.TitleText? && |Trim(b.title.value.s)| > MaxTitle
    ensures ImageDataEmpty !in r
  {
    TemplateErrors(b.template) + TitleErrors(b.title)
  }

  function TemplateErrors(t: Option<string>): (r: set<FieldError>)
    ensures r == {} || r == {TemplateNotAllowed}
    ensures r == {TemplateNotAllowed} <==> t.Some? && t.value !in AllowedIds
  {
    if t.Some? && t.value !in AllowedIds then {TemplateNotAllowed} else {}
  }

  function TitleErrors(t: Option<TitleInput>): (r: set<FieldError>)
    ensures r == {} || r == {TitleNotString} || r == {TitleTooLong}
    ensures r == {TitleNotString} <==> t == Some(TitleOther)
    ensures r == {TitleTooLong} <==> t.Some? && t.value.TitleText? && |Trim(t.value.s)| > MaxTitle
  {
    match t
    case None => {}
    case Some(TitleOther) => {TitleNotString}
    case Some(TitleText(s)) => if |Trim(s)| > MaxTitle then {TitleTooLong} else {}
  }

  /** Creating needs a non-empty `imageData`. */
  function CreateErrors(b: Body): (r: set<FieldError>)
    ensures ImageDataEmpty in r <==> !Supplied(b.imageData)
    ensures r - {ImageDataEmpty} == SharedErrors(b)
  {
    (if Supplied(b.imageData) then {} else {ImageDataEmpty}) + SharedErrors(b)
  }

  /** Updating rejects only an `imageData` that is given and empty. */
  function UpdateErrors(b: Body): (r: set<FieldError>)
    ensures ImageDataEmpty in r <==> b.imageData == Some("")
    ensures r - {ImageDataEmpty} == SharedErrors(b)
  {
    (if b.imageData == Some("") then {ImageDataEmpty} else {}) + SharedErrors(b)
  }

  /** A body that passes the create checks passes the update checks too. */
  lemma {:induction false} CreateChecksStricter(b: Body)
    requires CreateErrors(b) == {}
    ensures UpdateErrors(b) == {}
  {
    assert ImageDataEmpty !in CreateErrors(b);
  }

  /** The title as the handler reads it, trimmed by the check. */
  function SanitizedTitle(t: Option<TitleInput>): (r: Option<string>)
    ensures r.Some? <==> t.Some? && t.value.TitleText?
    ensures r.Some? ==> r.value == Trim(t.value.s)
  {
    match t
    case Some(TitleText(s)) => Some(Trim(s))
    case _ => None
  }

  datatype Status = Created | Success | BadRequest | NotFound | ServerError

  /** The HTTP status code of each outcome. */
  function Code(s: Status): (r: nat)
    ensures 200 <= r < 600
    ensures r == 201 <==> s == Created
    ensures 400 <= r < 500 <==> s == BadRequest || s == NotFound
  {
    match s
    case Created => 201
    case Success => 200
    case BadRequest => 400
    case NotFound => 404
    case ServerError => 500
  }

  /** The collection, in creation order. */
  type Collection = seq<Doc>

  function Ids(st: Collection): (r: set<nat>)
    ensures forall i :: 0 <= i < |st| ==> st[i].id in r
    ensures forall id :: id in r ==> exists i :: 0 <= i < |st| && st[i].id == id
  {
    set i | 0 <= i < |st| :: st[i].id
  }

  /** Object ids are unique, and documents were created in clock order. */
  ghost predicate Invariant(st: Collection)
  {
    (forall i, j :: 0 <= i < j < |st| ==> st[i].id != st[j].id) &&
    (forall i, j :: 0 <= i < j < |st| ==> st[i].createdAt <= st[j].createdAt)
  }

  /** The clock has not gone back since the last document was created. */
  predicate NotBefore(st: Collection, now: int)
  {
    forall i :: 0 <= i < |st| ==> st[i].createdAt <= now
  }

  /** An outcome: the status, the card returned with it, and the collection
      afterwards. */
  datatype Reply = Reply(status: Status, card: Option<Doc>, store: Collection)

  /** The document a valid create request makes (before the schema runs). */
  function Draft(b: Body, user: nat, id: nat, now: int): (r: Doc)
    ensures r.id == id && r.owner == user && r.createdAt == now && r.updatedAt == now
    ensures r.template == (if b.template.Some? then Or(b.template.value, DefaultTemplate) else DefaultTemplate)
    ensures r.title == (match SanitizedTitle(b.title) case Some(t) => Or(t, DefaultTitle) case None => DefaultTitle)
    ensures r.featured == b.featured.GetOr([])
    ensures r.imageData == b.imageData && r.backImageData == b.backImageData
    ensures r.cardData == (if b.cardData.Some? then Some(Stored(b.cardData.value)) else None)
  {
    var title := match SanitizedTitle(b.title) case Some(t) => Or(t, DefaultTitle) case None => DefaultTitle;
    var template := if b.template.Some? then Or(b.template.value, DefaultTemplate) else DefaultTemplate;
    NewDoc(id, user, Some(title), b.imageData, b.backImageData, b.animatedGif, b.thumbnail,
           b.backThumbnail, Some(template), b.featured,
           if b.cardData.Some? then Some(Stored(b.cardData.value)) else None, now)
  }

  /** `POST /api/cards`. The request checks come first (400, nothing
      stored); then the schema's (500, nothing stored); else the new card is
      added (201). `settings` is not stored: the schema has no such path. */
  function Create(st: Collection, user: nat, b: Body, id: nat, now: int): (r: Reply)
    requires id !in Ids(st)
    ensures r.status == BadRequest <==> CreateErrors(b) != {}
    ensures r.status in {Created, BadRequest, ServerError}
    ensures r.status == Created <==>
      CreateErrors(b) == {} && Violations(Draft(b, user, id, now)) == {}
    ensures r.status == Created ==> r.card == Some(Draft(b, user, id, now)) && r.store == st + [r.card.value]
    ensures r.status != Created ==> r.store == st && r.card == None
  {
    if CreateErrors(b) != {} then Reply(BadRequest, None, st)
    else
      match Save(Draft(b, user, id, now), now)
      case Ok(d) => Reply(Created, Some(d), st + [d])
      case Err(_) => Reply(ServerError, None, st)
  }

  /** Creating keeps ids unique and the creation order, as long as the
      clock does not go back. */
  lemma {:induction false} CreateKeepsInvariant(st: Collection, user: nat, b: Body, id: nat, now: int)
    requires Invariant(st) && id !in Ids(st) && NotBefore(st, now)
    ensures Invariant(Create(st, user, b, id, now).store)
  {
    var r := Create(st, user, b, id, now);
    if r.status == Created {
      AppendKeepsInvariant(st, r.card.value);
    }
  }

  /** Appending a document with a fresh id, created no earlier than any
      other, keeps the invariant. */
  lemma {:induction false} AppendKeepsInvariant(st: Collection, d: Doc)
    requires Invariant(st) && d.id !in Ids(st) && NotBefore(st, d.createdAt)
    ensures Invariant(st + [d])
  {
    var t := st + [d];
    forall i, j | 0 <= i < j < |t| ensures t[i].id != t[j].id && t[i].createdAt <= t[j].createdAt {
      assert t[i] == st[i];
      if j < |st| {
        assert t[j] == st[j];
      }
    }
  }

  /** `i` is the first position holding card `id` owned by `user`: the one
      `findOne` returns in the collection's natural order. */
  predicate FirstOwned(st: Collection, user: nat, id: nat, i: nat)
  {
    i < |st| && st[i].id == id && st[i].owner == user &&
    forall j :: 0 <= j < i ==> !(st[j].id == id && st[j].owner == user)
  }

  /** The position of the card `id` that `user` owns, if any. */
  function FindOwned(st: Collection, user: nat, id: nat): (r: Option<nat>)
    ensures r.Some? ==> FirstOwned(st, user, id, r.value)
    ensures r.None? ==> forall i :: 0 <= i < |st| ==> !(st[i].id == id && st[i].owner == user)
  {
    FindFrom(st, user, id, 0)
  }

  function FindFrom(st: Collection, user: nat, id: nat, k: nat): (r: Option<nat>)
    requires k <= |st|
    ensures r.Some? ==> k <= r.value < |st| && st[r.value].id == id && st[r.value].owner == user
    ensures r.Some? ==> forall j :: k <= j < r.value ==> !(st[j].id == id && st[j].owner == user)
    ensures r.None? ==> forall i :: k <= i < |st| ==> !(st[i].id == id && st[i].owner == user)
    decreases |st| - k
  {
    if k == |st| then None
    else if st[k].id == id && st[k].owner == user then Some(k)
    else FindFrom(st, user, id, k + 1)
  }

  /** `GET /api/cards/:id`: the card when `user` owns it, else 404 — a
      card of another user is not found either. */
  function Get(st: Collection, user: nat, id: nat): (r: Reply)
    ensures r.store == st
    ensures r.status == Success <==> exists i :: 0 <= i < |st| && st[i].id == id && st[i].owner == user
    ensures r.status != Success ==> r.status == NotFound && r.card == None
    ensures r.status == Success ==> r.card.Some? && r.card.value in st && r.card.value.id == id && r.card.value.owner == user
  {
    match FindOwned(st, user, id)
    case Some(i) => Reply(Success, Some(st[i]), st)
    case None => Reply(NotFound, None, st)
  }

  /** `DELETE /api/cards/:id`: removes the owner's card, else 404 and
      nothing changes. */
  function Delete(st: Collection, user: nat, id: nat): (r: Reply)
    ensures r.status == Success <==> exists i :: 0 <= i < |st| && st[i].id == id && st[i].owner == user
    ensures r.status != Success ==> r.status == NotFound && r.store == st
    ensures r.status == Success ==>
      |r.store| == |st| - 1 &&
      exists i :: 0 <= i < |st| && st[i].id == id && r.store == st[..i] + st[i + 1..]
    ensures r.card == None
  {
    match FindOwned(st, user, id)
    case Some(i) => Reply(Success, None, st[..i] + st[i + 1..])
    case None => Reply(NotFound, None, st)
  }

  /** After a delete the card is gone for everyone, and every other card
      is still there. */
  lemma {:induction false} DeleteRemoves(st: Collection, user: nat, id: nat)
    requires Invariant(st)
    ensures var r := Delete(st, user, id);
      Invariant(r.store) &&
      (r.status == Success ==> id !in Ids(r.store)) &&
      (forall j :: 0 <= j < |st| && st[j].id != id ==> st[j] in r.store)
  {
    var r := Delete(st, user, id);
    var f := FindOwned(st, user, id);
    if f.Some? {
      var i := f.value;
      assert r.store == st[..i] + st[i + 1..];
      RemoveAt(st, i);
      forall j | 0 <= j < |st| && st[j].id != id ensures st[j] in r.store {
        assert r.store[if j < i then j else j - 1] == st[j];
      }
    } else {
      assert r.store == st;
      forall j | 0 <= j < |st| && st[j].id != id ensures st[j] in r.store {
        assert r.store[j] == st[j];
      }
    }
  }

  /** Dropping position `i` shifts the later documents down by one. */
  lemma {:induction false} RemoveAt(st: Collection, i: nat)
    requires Invariant(st) && i < |st|
    ensures var r := st[..i] + st[i + 1..];
      |r| == |st| - 1 &&
      (forall k :: 0 <= k < |r| ==> r[k] == st[if k < i then k else k + 1]) &&
      Invariant(r) && st[i].id !in Ids(r)
  {
    var r := st[..i] + st[i + 1..];
    assert forall k :: 0 <= k < |r| ==> r[k] == st[if k < i then k else k + 1];
  }

  /** `PUT`: a field is replaced when the body gives it; `template` and
      `thumbnail` only when non-empty. The object id, owner and creation
      time never change. */
  function Patch(d: Doc, b: Body): (r: Doc)
    requires b.title != Some(TitleOther)
    ensures r.id == d.id && r.owner == d.owner && r.createdAt == d.createdAt && r.updatedAt == d.updatedAt
    ensures r.imageData == (if b.imageData.Some? then b.imageData else d.imageData)
    ensures r.backImageData == (if b.backImageData.Some? then b.backImageData else d.backImageData)
    ensures r.animatedGif == (if b.animatedGif.Some? then b.animatedGif else d.animatedGif)
    ensures r.template == (if b.template.Some? && Truthy(b.template.value) then b.template.value else d.template)
    ensures r.title == (if b.title.Some? then Trim(b.title.value.s) else d.title)
    ensures r.thumbnail == (if b.thumbnail.Some? && Truthy(b.thumbnail.value) then b.thumbnail else d.thumbnail)
    ensures r.backThumbnail == (if b.backThumbnail.Some? then b.backThumbnail else d.backThumbnail)
    ensures r.cardData == (if b.cardData.Some? then Some(Stored(b.cardData.value)) else d.cardData)
    ensures r.featured == (if b.featured.Some? then b.featured.value else d.featured)
  {
    var patched := d.(title := PatchTitle(b.title, d.title),
       imageData := Given(b.imageData, d.imageData),
       backImageData := Given(b.backImageData, d.backImageData),
       animatedGif := Given(b.animatedGif, d.animatedGif),
       thumbnail := if b.thumbnail.Some? && Truthy(b.thumbnail.value) then b.thumbnail else d.thumbnail,
       backThumbnail := Given(b.backThumbnail, d.backThumbnail),
       template := if b.template.Some? && Truthy(b.template.value) then b.template.value else d.template,
       featured := if b.featured.Some? then b.featured.value else d.featured,
       cardData := if b.cardData.Some? then Some(Stored(b.cardData.value)) else d.cardData);
    assert patched.title == (if b.title.Some? then Trim(b.title.value.s) else d.title);
    assert patched.cardData == (if b.cardData.Some? then Some(Stored(b.cardData.value)) else d.cardData);
    patched
  }

  /** `if (x !== undefined) card.x = x`. */
  function Given<T>(x: Option<T>, current: Option<T>): Option<T>
  {
    if x.Some? then x else current
  }

  function PatchTitle(t: Option<TitleInput>, current: string): string
  {
    match SanitizedTitle(t) case Some(s) => s case None => current
  }

  /** An empty body changes nothing. */
  lemma {:induction false} PatchNothing(d: Doc)
    ensures Patch(d, Body()) == d
  {
  }

  /** Applying a body twice is applying it once. */
  lemma {:induction false} PatchIdempotent(d: Doc, b: Body)
    requires b.title != Some(TitleOther)
    ensures Patch(Patch(d, b), b) == Patch(d, b)
  {
    if b.title.Some? {
      TrimTrimmed(b.title.value.s);
    }
  }

  /** `{...card.settings, ...settings}`: the incoming values win, the other
      current ones stay. */
  function MergeSettings(current: map<string, string>, incoming: map<string, string>): (r: map<string, string>)
    ensures r.Keys == current.Keys + incoming.Keys
    ensures forall k :: k in incoming ==> r[k] == incoming[k]
    ensures forall k :: k in current && k !in incoming ==> r[k] == current[k]
  {
    current + incoming
  }

  /** `PUT /api/cards/:id`. The request checks come first (400), then the
      owner lookup (404), then the schema's checks on the patched card
      (500); the collection changes only on success. */
  function Update(st: Collection, user: nat, id: nat, b: Body, now: int): (r: Reply)
    ensures r.status in {Success, BadRequest, NotFound, ServerError}
    ensures r.status == BadRequest <==> UpdateErrors(b) != {}
    ensures r.status == NotFound <==>
      UpdateErrors(b) == {} && forall i :: 0 <= i < |st| ==> !(st[i].id == id && st[i].owner == user)
    ensures r.status != Success ==> r.store == st
    ensures r.status == Success ==>
      exists i :: 0 <= i < |st| && st[i].id == id && st[i].owner == user &&
        r.card == Some(Patch(st[i], b).(updatedAt := now)) && Violations(Patch(st[i], b)) == {} &&
        r.store == st[i := r.card.value]
    ensures r.status == Success <==>
      UpdateErrors(b) == {} && exists i: nat :: FirstOwned(st, user, id, i) && Violations(Patch(st[i], b)) == {}
    ensures r.status == ServerError <==>
      UpdateErrors(b) == {} && exists i: nat :: FirstOwned(st, user, id, i) && Violations(Patch(st[i], b)) != {}
  {
    if UpdateErrors(b) != {} then Reply(BadRequest, None, st)
    else
      assert TitleNotString !in UpdateErrors(b);
      match FindOwned(st, user, id)
      case None => Reply(NotFound, None, st)
      case Some(i) =>
        match Save(Patch(st[i], b), now)
        case Ok(d) => Reply(Success, Some(d), st[i := d])
        case Err(_) => Reply(ServerError, None, st)
  }

  /** Updating keeps ids unique and the creation order. */
  lemma {:induction false} UpdateKeepsInvariant(st: Collection, user: nat, id: nat, b: Body, now: int)
    requires Invariant(st)
    ensures Invariant(Update(st, user, id, b, now).store)
  {
  }

  /** Every stored card passes the schema's validators. */
  ghost predicate AllValid(st: Collection)
  {
    forall i :: 0 <= i < |st| ==> Violations(st[i]) == {}
  }

  /** Only documents the schema accepted are stored: creating, updating and
      deleting all keep every stored card valid. */
  lemma {:induction false} CreateKeepsValid(st: Collection, user: nat, b: Body, id: nat, now: int)
    requires AllValid(st) && id !in Ids(st)
    ensures AllValid(Create(st, user, b, id, now).store)
  {
    var r := Create(st, user, b, id, now);
    if r.status == Created {
      assert r.store[|st|] == Draft(b, user, id, now);
    }
  }

  lemma {:induction false} UpdateKeepsValid(st: Collection, user: nat, id: nat, b: Body, now: int)
    requires AllValid(st)
    ensures AllValid(Update(st, user, id, b, now).store)
  {
    if UpdateErrors(b) == {} {
      assert TitleNotString !in UpdateErrors(b);
      var f := FindOwned(st, user, id);
      if f.Some? {
        var d := Patch(st[f.value], b).(updatedAt := now);
        assert Violations(d) == Violations(Patch(st[f.value], b));
        ReplaceValid(st, f.value, d);
      }
    }
  }

  lemma {:induction false} ReplaceValid(st: Collection, i: nat, d: Doc)
    requires AllValid(st) && i < |st|
    ensures Violations(d) == {} ==> AllValid(st[i := d])
  {
  }

  lemma {:induction false} DeleteKeepsValid(st: Collection, user: nat, id: nat)
    requires AllValid(st)
    ensures AllValid(Delete(st, user, id).store)
  {
    var e := Delete(st, user, id);
    if e.status == Success {
      var i :| 0 <= i < |st| && st[i].id == id && e.store == st[..i] + st[i + 1..];
      forall k | 0 <= k < |e.store| ensures Violations(e.store[k]) == {} {
        assert e.store[k] == st[if k < i then k else k + 1];
      }
    }
  }

  /** A card of another user behaves as a missing one: reading, updating
      and deleting it all answer 404 (an update with a bad body answers 400
      first) and change nothing. */
  lemma {:induction false} OthersCardsHidden(st: Collection, user: nat, id: nat, b: Body, now: int)
    requires Invariant(st)
    requires exists i :: 0 <= i < |st| && st[i].id == id && st[i].owner != user
    ensures Get(st, user, id).status == NotFound
    ensures Delete(st, user, id) == Reply(NotFound, None, st)
    ensures Update(st, user, id, b, now).status in {NotFound, BadRequest}
    ensures Update(st, user, id, b, now).store == st
  {
    var i :| 0 <= i < |st| && st[i].id == id && st[i].owner != user;
    assert forall j :: 0 <= j < |st| && st[j].id == id ==> j == i;
  }

  // ---------------------------------------------------------------------
  // Listing
  // ---------------------------------------------------------------------

  /** `parseInt(q) || d`: a missing, unparsable or zero value gives `d`. */
  function QueryOr(q: Option<int>, d: int): (r: int)
    ensures q.Some? && q.value != 0 ==> r == q.value
    ensures q.None? || q.value == 0 ==> r == d
    ensures r != 0 || d == 0
  {
    if q.Some? && q.value != 0 then q.value else d
  }

  /** `Math.ceil(total / limit)` for a non-zero integer `limit`. */
  function Pages(total: nat, limit: int): (r: int)
    requires limit != 0
    ensures limit > 0 ==> r >= 0
    ensures limit < 0 ==> r <= 0
  {
    if limit > 0 then (total + limit - 1) / limit else -(total / -limit)
  }

  /** For a positive limit, the page count is the least number of pages
      of `limit` cards that holds all `total`. */
  lemma {:induction false} PagesLeast(total: nat, limit: int)
    requires limit > 0
    ensures Pages(total, limit) * limit >= total
    ensures (Pages(total, limit) - 1) * limit < total
  {
    var p := Pages(total, limit);
    var q := total + limit - 1;
    assert q == (q / limit) * limit + q % limit;
    assert p * limit == q - q % limit;
    assert (p - 1) * limit == p * limit - limit;
  }

  /** For a negative limit, `Math.ceil` rounds the negative quotient up:
      the page count times the limit is the largest multiple of the limit
      not above `total`. */
  lemma {:induction false} PagesLeastNegative(total: nat, limit: int)
    requires limit < 0
    ensures Pages(total, limit) * limit <= total < (Pages(total, limit) - 1) * limit
  {
    var m := -limit;
    var q := total / m;
    assert total == q * m + total % m;
    assert Pages(total, limit) == -q;
  }

  /** The user's cards, newest first: creation order reversed. */
  function OwnedNewest(st: Collection, user: nat): (r: seq<Doc>)
    ensures |r| <= |st|
    ensures forall i :: 0 <= i < |r| ==> r[i].owner == user
  {
    if |st| == 0 then []
    else
      var last := st[|st| - 1];
      (if last.owner == user then [last] else []) + OwnedNewest(st[..|st| - 1], user)
  }

  /** No two documents of `s` share an id. */
  ghost predicate IdsDistinct(s: seq<Doc>)
  {
    forall i, j :: 0 <= i < j < |s| ==> s[i].id != s[j].id
  }

  /** Each of the user's cards is listed once: ids that are distinct in
      the collection stay distinct in the listing. */
  lemma {:induction false} OwnedNewestDistinct(st: Collection, user: nat)
    requires IdsDistinct(st)
    ensures IdsDistinct(OwnedNewest(st, user))
  {
    if |st| > 0 {
      var init := st[..|st| - 1];
      var last := st[|st| - 1];
      var rest := OwnedNewest(init, user);
      assert IdsDistinct(init);
      OwnedNewestDistinct(init, user);
      if last.owner == user {
        forall j | 0 <= j < |rest| ensures rest[j].id != last.id {
          OwnedNewestMembers(init, user, rest[j]);
          var k :| 0 <= k < |init| && init[k] == rest[j];
          assert st[k] == rest[j];
        }
      }
    }
  }

  /** Exactly the user's cards are listed: each of them, and no other. */
  lemma {:induction false} OwnedNewestMembers(st: Collection, user: nat, d: Doc)
    ensures d in OwnedNewest(st, user) <==> d in st && d.owner == user
  {
    if |st| > 0 {
      var init := st[..|st| - 1];
      OwnedNewestMembers(init, user, d);
      assert st == init + [st[|st| - 1]];
    }
  }

  /** Every document in `s` was created no later than `t`. */
  predicate CreatedBy(s: seq<Doc>, t: int)
  {
    forall i :: 0 <= i < |s| ==> s[i].createdAt <= t
  }

  lemma {:induction false} OwnedNewestCreatedBy(st: Collection, user: nat, t: int)
    requires CreatedBy(st, t)
    ensures CreatedBy(OwnedNewest(st, user), t)
  {
    if |st| > 0 {
      OwnedNewestCreatedBy(st[..|st| - 1], user, t);
    }
  }

  /** A prefix of an ordered collection with unique ids is one too. */
  lemma {:induction false} InvariantPrefix(st: Collection, n: nat)
    requires Invariant(st) && n <= |st|
    ensures Invariant(st[..n])
  {
    assert forall i :: 0 <= i < n ==> st[..n][i] == st[i];
  }

  /** Documents in order of creation, latest first. */
  predicate NewestFirst(s: seq<Doc>)
  {
    forall i, j :: 0 <= i < j < |s| ==> s[i].createdAt >= s[j].createdAt
  }

  lemma {:induction false} PrependNewest(last: Doc, rest: seq<Doc>)
    requires NewestFirst(rest) && CreatedBy(rest, last.createdAt)
    ensures NewestFirst([last] + rest)
  {
    var r := [last] + rest;
    forall i, j | 0 <= i < j < |r| ensures r[i].createdAt >= r[j].createdAt {
      assert r[j] == rest[j - 1];
      if i > 0 {
        assert r[i] == rest[i - 1];
      }
    }
  }

  lemma {:induction false} LastIsLatest(st: Collection)
    requires Invariant(st) && |st| > 0
    ensures CreatedBy(st[..|st| - 1], st[|st| - 1].createdAt)
  {
    var init := st[..|st| - 1];
    forall k | 0 <= k < |init| ensures init[k].createdAt <= st[|st| - 1].createdAt {
      assert init[k] == st[k];
    }
  }

  /** Newest first: under the invariant, the listed cards are in order of
      creation time, latest first. */
  lemma {:induction false} OwnedNewestOrdered(st: Collection, user: nat)
    requires Invariant(st)
    ensures NewestFirst(OwnedNewest(st, user))
  {
    if |st| > 0 {
      var init := st[..|st| - 1];
      var last := st[|st| - 1];
      InvariantPrefix(st, |st| - 1);
      OwnedNewestOrdered(init, user);
      LastIsLatest(st);
      OwnedNewestCreatedBy(init, user, last.createdAt);
      if last.owner == user {
        PrependNewest(last, OwnedNewest(init, user));
      }
    }
  }

  /** The cards `[skip, skip + take)` of `s`, as far as they exist. */
  function Window(s: seq<Doc>, skip: nat, take: nat): (r: seq<Doc>)
    ensures |r| <= take
    ensures skip >= |s| ==> r == []
    ensures forall i :: 0 <= i < |r| ==> skip + i < |s| && r[i] == s[skip + i]
    ensures |r| == (if skip >= |s| then 0 else if skip + take <= |s| then take else |s| - skip)
  {
    if skip >= |s| then [] else s[skip..if skip + take <= |s| then skip + take else |s|]
  }

  /** The listed form of a card: without its full front image. */
  function WithoutImages(s: seq<Doc>): (r: seq<Doc>)
    ensures |r| == |s|
    ensures forall i :: 0 <= i < |s| ==> r[i] == s[i].(imageData := None)
  {
    if |s| == 0 then [] else [s[0].(imageData := None)] + WithoutImages(s[1..])
  }

  function Abs(n: int): nat
  {
    if n < 0 then -n else n
  }

  datatype Listing = Listing(cards: seq<Doc>, page: int, limit: int, total: nat, pages: int)

  /** `(page - 1) * limit`: how many of the user's cards come before the
      page. */
  function Skip(page: int, limit: int): int
  {
    (page - 1) * limit
  }

  /** The page of `owned` from `skip`, `take` long, without front images. */
  function Shown(owned: seq<Doc>, skip: nat, take: nat): (r: seq<Doc>)
    ensures |r| <= take
    ensures |r| == (if skip >= |owned| then 0 else if skip + take <= |owned| then take else |owned| - skip)
    ensures forall i :: 0 <= i < |r| ==> skip + i < |owned| && r[i] == owned[skip + i].(imageData := None)
  {
    WithoutImages(Window(owned, skip, take))
  }

  /** `GET /api/cards?page&limit`. A non-positive page makes the skip
      negative, which the database refuses (500); a negative limit returns
      that many cards, as the database treats it. */
  function List(st: Collection, user: nat, pageQ: Option<int>, limitQ: Option<int>): (r: Result<Listing, Status>)
    ensures r.Err? <==> Skip(QueryOr(pageQ, 1), QueryOr(limitQ, 20)) < 0
    ensures r.Err? ==> r.error == ServerError
    ensures r.Ok? ==> r.value.page == QueryOr(pageQ, 1) && r.value.limit == QueryOr(limitQ, 20)
    ensures r.Ok? ==> r.value.total == |OwnedNewest(st, user)|
    ensures r.Ok? ==> r.value.pages == Pages(r.value.total, r.value.limit)
    ensures r.Ok? ==> |r.value.cards| <= Abs(r.value.limit)
    ensures r.Ok? ==> (var skip, n, total := Skip(r.value.page, r.value.limit), |r.value.cards|, r.value.total;
      n == (if skip >= total then 0 else if skip + Abs(r.value.limit) <= total then Abs(r.value.limit) else total - skip))
    ensures r.Ok? ==> forall i :: 0 <= i < |r.value.cards| ==>
      Skip(r.value.page, r.value.limit) + i < r.value.total &&
      r.value.cards[i] == OwnedNewest(st, user)[Skip(r.value.page, r.value.limit) + i].(imageData := None)
  {
    var page := QueryOr(pageQ, 1);
    var limit := QueryOr(limitQ, 20);
    var skip := Skip(page, limit);
    var owned := OwnedNewest(st, user);
    if skip < 0 then Err(ServerError)
    else
      var shown := Shown(owned, skip, Abs(limit));
      assert |shown| == (if skip >= |owned| then 0 else if skip + Abs(limit) <= |owned| then Abs(limit) else |owned| - skip);
      Ok(Listing(shown, page, limit, |owned|, Pages(|owned|, limit)))
  }

  /** Only the user's own cards are listed, and without their front
      images. */
  lemma {:induction false} ListOwnOnly(st: Collection, user: nat, pageQ: Option<int>, limitQ: Option<int>)
    ensures var r := List(st, user, pageQ, limitQ);
      r.Ok? ==> forall d :: d in r.value.cards ==> d.owner == user && d.imageData == None
  {
    var r := List(st, user, pageQ, limitQ);
    if r.Ok? {
      var owned := OwnedNewest(st, user);
      forall d | d in r.value.cards ensures d.owner == user && d.imageData == None {
        var i :| 0 <= i < |r.value.cards| && r.value.cards[i] == d;
        assert owned[Skip(r.value.page, r.value.limit) + i] in owned;
      }
    }
  }

  /** With the default query, the first twenty of the user's cards, newest
      first, are listed. */
  lemma {:induction false} ListDefaults(st: Collection, user: nat)
    ensures var r := List(st, user, None, None);
      r.Ok? && r.value.page == 1 && r.value.limit == 20 &&
      r.value.cards == WithoutImages(Window(OwnedNewest(st, user), 0, 20))
  {
  }
}

=== FILE: styles.dfy ===
/**
 * The fixed front layouts the renderer uses for templates without layers,
 * one per template id, and the card back shared by every template. A layout
 * is data: the photo's clip rectangle, the logo's box if the layout shows a
 * logo, and the texts it writes, each a sequence of pieces.
 */
module CanvasStyles {
  import opened Wrappers
  import opened Text
  import opened Cards
  import opened Photo
  import opened Drawing

  /** A piece of a text: literal text, the player or team name (optionally
      upper-cased), or a stat with the value shown when it is empty. */
  datatype Piece =
    | Lit(s: string)
    | NamePiece(upper: bool)
    | TeamPiece(upper: bool)
    | StatPiece(key: string, dflt: string)

  datatype TextSpec = TextSpec(x: real, y: real, pieces: seq<Piece>)

  datatype Style = Style(clip: Rect, logo: Option<Rect>, texts: seq<TextSpec>)

  function T(x: real, y: real, pieces: seq<Piece>): TextSpec
  {
    TextSpec(x, y, pieces)
  }

  /** The default front: a square photo, the logo at the top right, and
      each stat as a caption above its value. */
  const ClassicStyle := Style(
    Rect(30.0, 30.0, 340.0, 340.0), Some(Rect(320.0, 20.0, 60.0, 60.0)),
    [T(20.0, 390.0, [NamePiece(false)]), T(20.0, 430.0, [TeamPiece(false)]),
     T(50.0, 480.0, [Lit("AVG")]), T(50.0, 500.0, [StatPiece("avg", ".000")]),
     T(150.0, 480.0, [Lit("HR")]), T(150.0, 500.0, [StatPiece("hr", "0")]),
     T(250.0, 480.0, [Lit("RBI")]), T(250.0, 500.0, [StatPiece("rbi", "0")])])

  /** A wide photo under a header, the logo at the top left, and the stats
      as `AVG: value` on one line. */
  const ModernStyle := Style(
    Rect(50.0, 110.0, 300.0, 260.0), Some(Rect(20.0, 20.0, 70.0, 70.0)),
    [T(20.0, 412.0, [NamePiece(false)]), T(20.0, 460.0, [TeamPiece(false)]),
     T(60.0, 500.0, [Lit("AVG: "), StatPiece("avg", ".000")]), T(180.0, 500.0, [Lit("HR: "), StatPiece("hr", "0")]),
     T(280.0, 500.0, [Lit("RBI: "), StatPiece("rbi", "0")])])

  /** A framed photo, upper-cased names, spelled-out stat captions over
      their values; this layout draws no logo. */
  const VintageStyle := Style(
    Rect(40.0, 40.0, 320.0, 310.0), None,
    [T(40.0, 385.0, [NamePiece(true)]), T(30.0, 445.0, [TeamPiece(true)]),
     T(70.0, 492.0, [Lit("BATTING AVG")]), T(70.0, 507.0, [StatPiece("avg", ".000")]),
     T(180.0, 492.0, [Lit("HOME RUNS")]), T(205.0, 507.0, [StatPiece("hr", "0")]),
     T(280.0, 492.0, [Lit("RBI")]), T(290.0, 507.0, [StatPiece("rbi", "0")])])

  /** A photo across the full width, a small logo at the top right, and each
      stat value followed by its caption (`HR` and `RBI`; the average bare). */
  const MinimalistStyle := Style(
    Rect(0.0, 5.0, 400.0, 360.0), Some(Rect(340.0, 15.0, 50.0, 50.0)),
    [T(30.0, 385.0, [NamePiece(false)]), T(30.0, 430.0, [TeamPiece(false)]),
     T(30.0, 490.0, [StatPiece("avg", ".000")]), T(150.0, 490.0, [StatPiece("hr", "0"), Lit(" HR")]),
     T(270.0, 490.0, [StatPiece("rbi", "0"), Lit(" RBI")])])

  /** A photo under the header band, upper-cased names, and the stats as
      `AVG value` on one line. */
  const Retro80sStyle := Style(
    Rect(30.0, 100.0, 340.0, 280.0), Some(Rect(320.0, 15.0, 65.0, 65.0)),
    [T(20.0, 407.0, [NamePiece(true)]), T(20.0, 455.0, [TeamPiece(true)]),
     T(50.0, 500.0, [Lit("AVG "), StatPiece("avg", ".000")]), T(170.0, 500.0, [Lit("HR "), StatPiece("hr", "0")]),
     T(270.0, 500.0, [Lit("RBI "), StatPiece("rbi", "0")])])

  /** A framed photo, upper-cased names, and each stat as a caption above
      its value. */
  const ChromeStyle := Style(
    Rect(40.0, 40.0, 320.0, 300.0), Some(Rect(315.0, 25.0, 60.0, 60.0)),
    [T(30.0, 372.0, [NamePiece(true)]), T(30.0, 415.0, [TeamPiece(true)]),
     T(70.0, 465.0, [Lit("AVG")]), T(70.0, 485.0, [StatPiece("avg", ".000")]),
     T(165.0, 465.0, [Lit("HR")]), T(170.0, 485.0, [StatPiece("hr", "0")]),
     T(260.0, 465.0, [Lit("RBI")]), T(265.0, 485.0, [StatPiece("rbi", "0")])])

  /** Upper-cased names close under the photo, and each stat as a caption
      above its value. */
  const HolographicStyle := Style(
    Rect(35.0, 35.0, 330.0, 290.0), Some(Rect(315.0, 25.0, 60.0, 60.0)),
    [T(25.0, 345.0, [NamePiece(true)]), T(25.0, 390.0, [TeamPiece(true)]),
     T(50.0, 445.0, [Lit("AVG")]), T(50.0, 470.0, [StatPiece("avg", ".000")]),
     T(160.0, 445.0, [Lit("HR")]), T(160.0, 470.0, [StatPiece("hr", "0")]),
     T(270.0, 445.0, [Lit("RBI")]), T(270.0, 470.0, [StatPiece("rbi", "0")])])

  /** Upper-cased names and the stats as `AVG: value` in two rows: the
      average and home runs, then runs batted in. */
  const GalaxyStyle := Style(
    Rect(35.0, 35.0, 330.0, 300.0), Some(Rect(315.0, 25.0, 60.0, 60.0)),
    [T(25.0, 362.0, [NamePiece(true)]), T(25.0, 410.0, [TeamPiece(true)]),
     T(70.0, 465.0, [Lit("AVG: "), StatPiece("avg", ".000")]), T(180.0, 465.0, [Lit("HR: "), StatPiece("hr", "0")]),
     T(70.0, 490.0, [Lit("RBI: "), StatPiece("rbi", "0")])])

  /** An upper-cased player name over the team name as typed (not
      upper-cased here), and each stat as a caption above its value. */
  const RainbowStyle := Style(
    Rect(35.0, 35.0, 330.0, 300.0), Some(Rect(315.0, 25.0, 60.0, 60.0)),
    [T(30.0, 362.0, [NamePiece(true)]), T(30.0, 415.0, [TeamPiece(false)]),
     T(50.0, 468.0, [Lit("AVG")]), T(50.0, 490.0, [StatPiece("avg", ".000")]),
     T(160.0, 468.0, [Lit("HR")]), T(160.0, 490.0, [StatPiece("hr", "0")]),
     T(270.0, 468.0, [Lit("RBI")]), T(270.0, 490.0, [StatPiece("rbi", "0")])])

  /** The logo at the top left, upper-cased names, and the stats as
      `AVG: value` in two rows. */
  const GrungeStyle := Style(
    Rect(35.0, 35.0, 330.0, 310.0), Some(Rect(25.0, 25.0, 70.0, 70.0)),
    [T(25.0, 372.0, [NamePiece(true)]), T(25.0, 420.0, [TeamPiece(true)]),
     T(60.0, 475.0, [Lit("AVG: "), StatPiece("avg", ".000")]), T(200.0, 475.0, [Lit("HR: "), StatPiece("hr", "0")]),
     T(60.0, 500.0, [Lit("RBI: "), StatPiece("rbi", "0")])])

  /** A snapshot frame with the logo at the bottom right; the three stats
      share one line separated by bars. */
  const PolaroidStyle := Style(
    Rect(30.0, 30.0, 340.0, 330.0), Some(Rect(325.0, 375.0, 50.0, 50.0)),
    [T(30.0, 380.0, [NamePiece(false)]), T(30.0, 415.0, [TeamPiece(false)]),
     T(30.0, 465.0, [Lit("AVG "), StatPiece("avg", ".000"), Lit("  |  HR "), StatPiece("hr", "0"), Lit("  |  RBI "), StatPiece("rbi", "0")])])

  /** Glowing upper-cased names and each stat as a caption above its value. */
  const NeonStyle := Style(
    Rect(40.0, 40.0, 320.0, 300.0), Some(Rect(310.0, 30.0, 60.0, 60.0)),
    [T(30.0, 360.0, [NamePiece(true)]), T(30.0, 405.0, [TeamPiece(true)]),
     T(50.0, 460.0, [Lit("AVG")]), T(50.0, 485.0, [StatPiece("avg", ".000")]),
     T(160.0, 460.0, [Lit("HR")]), T(160.0, 485.0, [StatPiece("hr", "0")]),
     T(270.0, 460.0, [Lit("RBI")]), T(270.0, 485.0, [StatPiece("rbi", "0")])])

  /** The ids with a layout of their own; every other id gets the classic one. */
  const FixedStyleIds: set<string> :=
    {"modern", "vintage", "minimalist", "neon", "retro80s", "chrome",
     "holographic", "galaxy", "rainbow", "grunge", "polaroid", "classic"}

  /** The stat defaults every layout uses: `.000` for the average, `0` for
      home runs and runs batted in. */
  predicate StandardDefault(p: Piece)
  {
    p.StatPiece? ==>
      (p.key == "avg" && p.dflt == ".000") || (p.key == "hr" && p.dflt == "0") ||
      (p.key == "rbi" && p.dflt == "0")
  }

  /** Every stat piece of the texts from index `k` on uses the standard
      default. */
  predicate DefaultsFrom(ts: seq<TextSpec>, k: nat)
    decreases |ts| - k
  {
    k >= |ts| || (PiecesDefaultFrom(ts[k].pieces, 0) && DefaultsFrom(ts, k + 1))
  }

  predicate PiecesDefaultFrom(ps: seq<Piece>, k: nat)
    decreases |ps| - k
  {
    k >= |ps| || (StandardDefault(ps[k]) && PiecesDefaultFrom(ps, k + 1))
  }

  lemma {:induction false} PiecesDefaultMeans(ps: seq<Piece>, k: nat)
    requires PiecesDefaultFrom(ps, k)
    ensures forall j :: k <= j < |ps| ==> StandardDefault(ps[j])
    decreases |ps| - k
  {
    if k < |ps| {
      PiecesDefaultMeans(ps, k + 1);
    }
  }

  lemma {:induction false} DefaultsMeans(ts: seq<TextSpec>, k: nat)
    requires DefaultsFrom(ts, k)
    ensures forall i, j :: k <= i < |ts| && 0 <= j < |ts[i].pieces| ==> StandardDefault(ts[i].pieces[j])
    decreases |ts| - k
  {
    if k < |ts| {
      PiecesDefaultMeans(ts[k].pieces, 0);
      DefaultsMeans(ts, k + 1);
    }
  }

  /** A layout the renderer can show: its clip lies on the card and fits in
      the photo's initial cover, it writes the player and team names first,
      and every stat it shows falls back to the standard default. */
  predicate WellFormed(s: Style)
  {
    0.0 <= s.clip.x && s.clip.x + s.clip.w <= CardWidth &&
    0.0 <= s.clip.y && s.clip.y + s.clip.h <= CardHeight &&
    0.0 < s.clip.w <= PanRoom * PlacementBox.w && 0.0 < s.clip.h <= PanRoom * PlacementBox.h &&
    |s.texts| >= 2 && |s.texts[0].pieces| == 1 && s.texts[0].pieces[0].NamePiece? &&
    |s.texts[1].pieces| == 1 && s.texts[1].pieces[0].TeamPiece? &&
    DefaultsFrom(s.texts, 0)
  }

  /** The layout for a template id: `switch (template.id)` with `classic`
      and every unknown id falling to the classic layout. */
  function StyleFor(id: string): (r: Style)
    ensures id !in FixedStyleIds ==> r == ClassicStyle
    ensures id == "vintage" <==> r.logo.None?
  {
    if id == "modern" then ModernStyle
    else if id == "vintage" then VintageStyle
    else if id == "minimalist" then MinimalistStyle
    else if id == "neon" then NeonStyle
    else if id == "retro80s" then Retro80sStyle
    else if id == "chrome" then ChromeStyle
    else if id == "holographic" then HolographicStyle
    else if id == "galaxy" then GalaxyStyle
    else if id == "rainbow" then RainbowStyle
    else if id == "grunge" then GrungeStyle
    else if id == "polaroid" then PolaroidStyle
    else ClassicStyle
  }

  lemma {:induction false} StylesWellFormed1()
    ensures WellFormed(ClassicStyle) && WellFormed(ModernStyle)
  {
  }

  lemma {:induction false} StylesWellFormed2()
    ensures WellFormed(VintageStyle) && WellFormed(MinimalistStyle)
  {
  }

  lemma {:induction false} StylesWellFormed3()
    ensures WellFormed(Retro80sStyle) && WellFormed(ChromeStyle)
  {
  }

  lemma {:induction false} StylesWellFormed4()
    ensures WellFormed(HolographicStyle) && WellFormed(GalaxyStyle)
  {
  }

  lemma {:induction false} StylesWellFormed5()
    ensures WellFormed(RainbowStyle) && WellFormed(GrungeStyle)
  {
  }

  lemma {:induction false} StylesWellFormed6()
    ensures WellFormed(PolaroidStyle) && WellFormed(NeonStyle)
  {
  }

  /** Every layout the dispatch can choose is well formed. */
  lemma {:induction false} StyleForWellFormed(id: string)
    ensures WellFormed(StyleFor(id))
  {
    if id == "modern" {
      StylesWellFormed1();
    } else if id == "vintage" || id == "minimalist" {
      StylesWellFormed2();
    } else if id == "neon" {
      StylesWellFormed6();
    } else if id == "retro80s" || id == "chrome" {
      StylesWellFormed3();
    } else if id == "holographic" || id == "galaxy" {
      StylesWellFormed4();
    } else if id == "rainbow" || id == "grunge" {
      StylesWellFormed5();
    } else if id == "polaroid" {
      StylesWellFormed6();
    } else {
      StylesWellFormed1();
    }
  }

  /** The text a piece writes for the card. */
  function PieceText(p: Piece, d: CardData): string
  {
    match p
    case Lit(s) => s
    case NamePiece(up) => if up then Upper(d.playerName) else d.playerName
    case TeamPiece(up) => if up then Upper(d.teamName) else d.teamName
    case StatPiece(k, dflt) => StatOr(d.stats, k, dflt)
  }

  function SpecText(ps: seq<Piece>, d: CardData): string
  {
    if |ps| == 0 then "" else PieceText(ps[0], d) + SpecText(ps[1..], d)
  }

  /** The labels of a layout, one per text spec, in order. */
  function TextOps(ts: seq<TextSpec>, d: CardData): (r: seq<Op>)
    ensures |r| == |ts|
    ensures forall i :: 0 <= i < |ts| ==> r[i] == At(ts[i].x, ts[i].y, SpecText(ts[i].pieces, d))
  {
    if |ts| == 0 then [] else [At(ts[0].x, ts[0].y, SpecText(ts[0].pieces, d))] + TextOps(ts[1..], d)
  }

  /** A fixed front: the photo in the layout's clip once it has loaded,
      the logo in the layout's box if the layout has one and it has loaded,
      then the texts. */
  function StyleOps(s: Style, d: CardData, a: Assets): (r: seq<Op>)
    ensures PhotoClip(s.clip) in r <==> a.photo
    ensures (exists b :: LogoAt(b) in r) <==> a.logo && s.logo.Some?
    ensures |r| == |s.texts| + (if a.photo then 1 else 0) + (if a.logo && s.logo.Some? then 1 else 0)
    ensures r[|r| - |s.texts|..] == TextOps(s.texts, d)
    ensures NoPanel(r)
  {
    var photo := if a.photo then [PhotoClip(s.clip)] else [];
    var logo := if a.logo && s.logo.Some? then [LogoAt(s.logo.value)] else [];
    var texts := TextOps(s.texts, d);
    StyleOpsParts(s, a, photo, logo, texts);
    photo + logo + texts
  }

  lemma {:induction false} StyleOpsParts(s: Style, a: Assets, photo: seq<Op>, logo: seq<Op>, texts: seq<Op>)
    requires photo == if a.photo then [PhotoClip(s.clip)] else []
    requires logo == if a.logo && s.logo.Some? then [LogoAt(s.logo.value)] else []
    requires forall i :: 0 <= i < |texts| ==> texts[i].Label?
    ensures var r := photo + logo + texts;
      (PhotoClip(s.clip) in r <==> a.photo) &&
      ((exists b :: LogoAt(b) in r) <==> a.logo && s.logo.Some?) &&
      |r| == |texts| + |photo| + |logo| && r[|r| - |texts|..] == texts && NoPanel(r)
  {
    var r := photo + logo + texts;
    assert r[|r| - |texts|..] == texts;
    forall i | 0 <= i < |r| ensures !r[i].Panel? && (r[i].LogoAt? ==> i == |photo| && logo != [])
      && (r[i].PhotoClip? ==> i == 0 && photo != []) {
      if i >= |photo| + |logo| {
        assert r[i] == texts[i - |photo| - |logo|];
      }
    }
    if a.photo {
      assert r[0] == PhotoClip(s.clip);
    }
    if a.logo && s.logo.Some? {
      assert r[|photo|] == LogoAt(s.logo.value);
    }
  }

  /** The name line of every fixed front is the player's name, upper-cased
      or not, and the team line the team's name. */
  lemma {:induction false} StyleShowsNames(id: string, d: CardData)
    ensures var s := StyleFor(id);
      var ops := TextOps(s.texts, d);
      ops[0].text in {d.playerName, Upper(d.playerName)} &&
      ops[1].text in {d.teamName, Upper(d.teamName)}
  {
    StyleForWellFormed(id);
    WellFormedShowsNames(StyleFor(id), d);
  }

  lemma {:induction false} WellFormedShowsNames(s: Style, d: CardData)
    requires WellFormed(s)
    ensures var ops := TextOps(s.texts, d);
      ops[0].text in {d.playerName, Upper(d.playerName)} &&
      ops[1].text in {d.teamName, Upper(d.teamName)}
  {
    SingleSpecText(s.texts[0].pieces, d);
    SingleSpecText(s.texts[1].pieces, d);
  }

  lemma {:induction false} SingleSpecText(ps: seq<Piece>, d: CardData)
    requires |ps| == 1
    ensures SpecText(ps, d) == PieceText(ps[0], d)
  {
    assert ps[1..] == [];
  }
}

=== FILE: templates.dfy ===
/**
 * Template and layer records, and the generic operations over template
 * lists that the catalog lookups are built from: first match by id,
 * filtering by category, and duplicate-freedom of ids.
 */
module Templates {
  import opened Wrappers
  import opened Seqs

  // ---------------------------------------------------------------------
  // Data model
  // ---------------------------------------------------------------------

  /** One layer descriptor. The source keeps layers as untyped property bags
      with a `type` string, so every field but the type may be absent and the
      numeric fields are JavaScript numbers. */
  datatype Layer = Layer(
    kind: string,
    x: Option<real> := None, y: Option<real> := None,
    width: Option<real> := None, height: Option<real> := None,
    innerWidth: Option<real> := None, innerHeight: Option<real> := None,
    texture: Option<string> := None, textureFile: Option<string> := None,
    textColor: Option<string> := None)

  /** A template record. `layers` is `None` for the flat templates, which are
      drawn by a fixed routine chosen by `id`; `texture` is a label some flat
      templates carry and the renderer never reads. */
  datatype Template = Template(
    id: string, name: string, category: string,
    texture: Option<string> := None, layers: Option<seq<Layer>> := None)

  /** The five layer types the interpreter knows. */
  const LayerTypes: set<string> := {"texture", "border", "accent-strip", "team-banner", "name-banner"}

  // ---------------------------------------------------------------------
  // Lookups over a template list
  // ---------------------------------------------------------------------

  /** Position of the first template of `ts` whose id is `id`. */
  function FindById(ts: seq<Template>, id: string): (r: Option<nat>)
    ensures r.Some? ==> r.value < |ts| && ts[r.value].id == id
    ensures r.Some? ==> forall k :: 0 <= k < r.value ==> ts[k].id != id
    ensures r.None? <==> forall k :: 0 <= k < |ts| ==> ts[k].id != id
  {
    if |ts| == 0 then None
    else if ts[0].id == id then Some(0)
    else match FindById(ts[1..], id)
      case None => None
      case Some(k) => Some(k + 1)
  }

  /** The templates of `ts` whose category is `c`, in order. */
  function WithCategory(ts: seq<Template>, c: string): (r: seq<Template>)
    ensures |r| <= |ts|
    ensures forall t :: t in r <==> t in ts && t.category == c
  {
    if |ts| == 0 then []
    else (if ts[0].category == c then [ts[0]] else []) + WithCategory(ts[1..], c)
  }

  // ---------------------------------------------------------------------
  // Filtering is order-preserving: it distributes over concatenation
  // ---------------------------------------------------------------------

  lemma {:induction false} WithCategoryConcat(a: seq<Template>, b: seq<Template>, c: string)
    ensures WithCategory(a + b, c) == WithCategory(a, c) + WithCategory(b, c)
    decreases |a|
  {
    if |a| > 0 {
      assert (a + b)[0] == a[0] && (a + b)[1..] == a[1..] + b;
      WithCategoryConcat(a[1..], b, c);
    } else {
      assert a + b == b;
    }
  }

  /** Filtering keeps every template of category `c` as often as it occurs
      and drops every other one. */
  lemma {:induction false} WithCategoryCount(ts: seq<Template>, c: string, t: Template)
    ensures multiset(WithCategory(ts, c))[t] == if t.category == c then multiset(ts)[t] else 0
    decreases |ts|
  {
    if |ts| > 0 {
      WithCategoryCount(ts[1..], c, t);
      assert ts == [ts[0]] + ts[1..];
    }
  }

  lemma {:induction false} WithCategoryNone(ts: seq<Template>, c: string)
    requires forall t :: t in ts ==> t.category != c
    ensures WithCategory(ts, c) == []
    decreases |ts|
  {
    if |ts| > 0 {
      assert ts[0] in ts;
      WithCategoryNone(ts[1..], c);
    }
  }

  lemma {:induction false} WithCategorySingle(t: Template, c: string)
    ensures WithCategory([t], c) == if t.category == c then [t] else []
  {
    assert [t][1..] == [];
  }

  // ---------------------------------------------------------------------
  // Categories partition the catalog
  // ---------------------------------------------------------------------

  /** The per-category lists of `ts`, one per label of `cs`, concatenated. */
  function Gather(ts: seq<Template>, cs: seq<string>): seq<Template>
  {
    if |cs| == 0 then [] else WithCategory(ts, cs[0]) + Gather(ts, cs[1..])
  }

  lemma {:induction false} GatherConcat(a: seq<Template>, b: seq<Template>, cs: seq<string>)
    ensures multiset(Gather(a + b, cs)) == multiset(Gather(a, cs)) + multiset(Gather(b, cs))
    decreases |cs|
  {
    if |cs| > 0 {
      WithCategoryConcat(a, b, cs[0]);
      GatherConcat(a, b, cs[1..]);
    }
  }

  lemma {:induction false} GatherSingle(t: Template, cs: seq<string>)
    requires Unique(cs)
    ensures multiset(Gather([t], cs)) == if t.category in cs then multiset{t} else multiset{}
    decreases |cs|
  {
    if |cs| > 0 {
      WithCategorySingle(t, cs[0]);
      GatherSingle(t, cs[1..]);
      AbsentMeans(cs[0], cs[1..]);
      assert cs == [cs[0]] + cs[1..];
    }
  }

  /** When every category of `ts` is listed once in `cs`, the per-category
      lists hold exactly the templates of `ts`, each as often as in `ts`. */
  lemma {:induction false} GatherPartition(ts: seq<Template>, cs: seq<string>)
    requires Unique(cs)
    requires forall t :: t in ts ==> t.category in cs
    ensures multiset(Gather(ts, cs)) == multiset(ts)
    decreases |ts|
  {
    if |ts| > 0 {
      assert ts == [ts[0]] + ts[1..];
      assert ts[0] in ts;
      GatherConcat([ts[0]], ts[1..], cs);
      GatherSingle(ts[0], cs);
      GatherPartition(ts[1..], cs);
    } else {
      GatherEmpty(cs);
    }
  }

  lemma {:induction false} GatherEmpty(cs: seq<string>)
    ensures Gather([], cs) == []
    decreases |cs|
  {
    if |cs| > 0 {
      GatherEmpty(cs[1..]);
    }
  }

  /** Every template of `ts` from position `k` on has category `c`. This
      index-based form unfolds on literal data. */
  predicate InCategoryFrom(ts: seq<Template>, c: string, k: nat)
    decreases |ts| - k
  {
    k >= |ts| || (ts[k].category == c && InCategoryFrom(ts, c, k + 1))
  }

  lemma {:induction false} InCategoryMeans(ts: seq<Template>, c: string, k: nat)
    ensures InCategoryFrom(ts, c, k) <==> forall j :: k <= j < |ts| ==> ts[j].category == c
    decreases |ts| - k
  {
    if k < |ts| {
      InCategoryMeans(ts, c, k + 1);
    }
  }

  /** Every template of `ts` has a category listed in `cs`. */
  ghost predicate CategoriesIn(ts: seq<Template>, cs: seq<string>)
  {
    forall t :: t in ts ==> t.category in cs
  }

  lemma {:induction false} CategoriesInHolds(ts: seq<Template>, cs: seq<string>, k: nat)
    requires k < |cs| && InCategoryFrom(ts, cs[k], 0)
    ensures CategoriesIn(ts, cs)
  {
    InCategoryMeans(ts, cs[k], 0);
    forall t | t in ts ensures t.category in cs {
      var j :| 0 <= j < |ts| && ts[j] == t;
    }
  }

  lemma {:induction false} CategoriesInConcat(a: seq<Template>, b: seq<Template>, cs: seq<string>)
    requires CategoriesIn(a, cs) && CategoriesIn(b, cs)
    ensures CategoriesIn(a + b, cs)
  {
  }

  // ---------------------------------------------------------------------
  // Layer types
  // ---------------------------------------------------------------------

  /** Every layer of `ls` from position `k` on has one of the known types. */
  predicate KindsKnownFrom(ls: seq<Layer>, k: nat)
    decreases |ls| - k
  {
    k >= |ls| || (ls[k].kind in LayerTypes && KindsKnownFrom(ls, k + 1))
  }

  /** Every layered template of `ts` from position `k` on has only layers of
      known types. */
  predicate LayersKnownFrom(ts: seq<Template>, k: nat)
    decreases |ts| - k
  {
    k >= |ts|
    || ((ts[k].layers.None? || KindsKnownFrom(ts[k].layers.value, 0)) && LayersKnownFrom(ts, k + 1))
  }

  /** Every layer of every layered template of `ts` has a known type. */
  ghost predicate LayersKnown(ts: seq<Template>)
  {
    forall t, l :: t in ts && t.layers.Some? && l in t.layers.value ==> l.kind in LayerTypes
  }

  lemma {:induction false} KindsKnownMeans(ls: seq<Layer>, k: nat)
    ensures KindsKnownFrom(ls, k) <==> forall j :: k <= j < |ls| ==> ls[j].kind in LayerTypes
    decreases |ls| - k
  {
    if k < |ls| {
      KindsKnownMeans(ls, k + 1);
    }
  }

  lemma {:induction false} LayersKnownMeans(ts: seq<Template>, k: nat)
    ensures LayersKnownFrom(ts, k) <==>
      forall j, l :: k <= j < |ts| && ts[j].layers.Some? && l in ts[j].layers.value ==> l.kind in LayerTypes
    decreases |ts| - k
  {
    if k < |ts| {
      LayersKnownMeans(ts, k + 1);
      if ts[k].layers.Some? {
        KindsKnownMeans(ts[k].layers.value, 0);
      }
    }
  }

  lemma {:induction false} LayersKnownHolds(ts: seq<Template>)
    requires LayersKnownFrom(ts, 0)
    ensures LayersKnown(ts)
  {
    LayersKnownMeans(ts, 0);
    forall t, l | t in ts && t.layers.Some? && l in t.layers.value ensures l.kind in LayerTypes {
      var j :| 0 <= j < |ts| && ts[j] == t;
    }
  }

  lemma {:induction false} LayersKnownConcat(a: seq<Template>, b: seq<Template>)
    requires LayersKnown(a) && LayersKnown(b)
    ensures LayersKnown(a + b)
  {
  }

  // ---------------------------------------------------------------------
  // Duplicate-free ids
  // ---------------------------------------------------------------------

  ghost predicate IdsDistinct(ts: seq<Template>)
  {
    forall i, j :: 0 <= i < j < |ts| ==> ts[i].id != ts[j].id
  }

  ghost predicate IdsDisjoint(a: seq<Template>, b: seq<Template>)
  {
    forall i, j :: 0 <= i < |a| && 0 <= j < |b| ==> a[i].id != b[j].id
  }

  /** `id` is the id of no template of `ts` from position `k` on. These
      index-based predicates unfold on the literal sections. */
  predicate IdAbsentFrom(id: string, ts: seq<Template>, k: nat)
    decreases |ts| - k
  {
    k >= |ts| || ((|ts[k].id| != |id| || ts[k].id != id) && IdAbsentFrom(id, ts, k + 1))
  }

  predicate IdsUniqueFrom(ts: seq<Template>, k: nat)
    decreases |ts| - k
  {
    k >= |ts| || (IdAbsentFrom(ts[k].id, ts, k + 1) && IdsUniqueFrom(ts, k + 1))
  }

  predicate IdsApartFrom(a: seq<Template>, b: seq<Template>, k: nat)
    decreases |a| - k
  {
    k >= |a| || (IdAbsentFrom(a[k].id, b, 0) && IdsApartFrom(a, b, k + 1))
  }

  lemma {:induction false} IdAbsentMeans(id: string, ts: seq<Template>, k: nat)
    ensures IdAbsentFrom(id, ts, k) <==> forall j :: k <= j < |ts| ==> ts[j].id != id
    decreases |ts| - k
  {
    if k < |ts| {
      IdAbsentMeans(id, ts, k + 1);
    }
  }

  lemma {:induction false} IdsUniqueMeans(ts: seq<Template>, k: nat)
    ensures IdsUniqueFrom(ts, k) ==> forall i, j :: k <= i < j < |ts| ==> ts[i].id != ts[j].id
    decreases |ts| - k
  {
    if k < |ts| {
      IdAbsentMeans(ts[k].id, ts, k + 1);
      IdsUniqueMeans(ts, k + 1);
    }
  }

  lemma {:induction false} IdsApartMeans(a: seq<Template>, b: seq<Template>, k: nat)
    ensures IdsApartFrom(a, b, k) ==> forall i, j :: k <= i < |a| && 0 <= j < |b| ==> a[i].id != b[j].id
    decreases |a| - k
  {
    if k < |a| {
      IdAbsentMeans(a[k].id, b, 0);
      IdsApartMeans(a, b, k + 1);
    }
  }

  lemma {:induction false} UniqueIdsDistinct(ts: seq<Template>)
    requires IdsUniqueFrom(ts, 0)
    ensures IdsDistinct(ts)
  {
    IdsUniqueMeans(ts, 0);
  }

  lemma {:induction false} ApartIdsDisjoint(a: seq<Template>, b: seq<Template>)
    requires IdsApartFrom(a, b, 0)
    ensures IdsDisjoint(a, b)
  {
    IdsApartMeans(a, b, 0);
  }

  lemma {:induction false} AppendSection(prefix: seq<Template>, s: seq<Template>)
    requires IdsDistinct(prefix) && IdsDistinct(s) && IdsDisjoint(prefix, s)
    ensures IdsDistinct(prefix + s)
  {
    forall i, j | 0 <= i < j < |prefix + s| ensures (prefix + s)[i].id != (prefix + s)[j].id {
      if j < |prefix| {
      } else if i >= |prefix| {
        assert (prefix + s)[i] == s[i - |prefix|] && (prefix + s)[j] == s[j - |prefix|];
      } else {
        assert (prefix + s)[j] == s[j - |prefix|];
      }
    }
  }

  /** Disjointness from a concatenation splits into disjointness from each
      part. */
  lemma {:induction false} DisjointConcat(a: seq<Template>, b: seq<Template>, c: seq<Template>)
    requires IdsDisjoint(a, c) && IdsDisjoint(b, c)
    ensures IdsDisjoint(a + b, c)
  {
    forall i, j | 0 <= i < |a + b| && 0 <= j < |c| ensures (a + b)[i].id != c[j].id {
      if i >= |a| {
        assert (a + b)[i] == b[i - |a|];
      }
    }
  }
}

=== FILE: text.dfy ===
/**
 * String rules the JavaScript code relies on: the truthiness of strings
 * (`||` treats `""` as absent), `toUpperCase`, the `\s` character class of
 * regular expressions, `replace(/\s+/g, '_')`, `trim()`, and the decimal
 * rendering of a non-negative integer inside a template literal.
 */
module Text {

  /** JavaScript truthiness of a string: only the empty string is falsy. */
  predicate Truthy(s: string) {
    s != ""
  }

  /** `a || b` on two strings. */
  function Or(a: string, b: string): (r: string)
    ensures r == a || r == b
    ensures Truthy(r) <==> Truthy(a) || Truthy(b)
    ensures Truthy(a) ==> r == a
  {
    if Truthy(a) then a else b
  }

  // ---------------------------------------------------------------------
  // Upper-casing
  // ---------------------------------------------------------------------

  /** `toUpperCase` on one character, restricted to the ASCII letters. */
  function UpperChar(c: char): char {
    if 'a' <= c <= 'z' then (c as int - 32) as char else c
  }

  /** `String.prototype.toUpperCase`, restricted to the ASCII letters. */
  function Upper(s: string): (r: string)
    ensures |r| == |s|
    ensures forall i :: 0 <= i < |s| ==> r[i] == UpperChar(s[i])
  {
    if |s| == 0 then "" else [UpperChar(s[0])] + Upper(s[1..])
  }

  /** Upper-casing twice is upper-casing once. */
  lemma {:induction false} UpperIdempotent(s: string)
    ensures Upper(Upper(s)) == Upper(s)
  {
  }

  // ---------------------------------------------------------------------
  // The `\s` character class
  // ---------------------------------------------------------------------

  /** Membership in the `\s` class of ECMAScript regular expressions
      (white space and line terminators). */
  predicate IsSpace(c: char) {
    || c == '\t' || c == '\n' || c == '\U{000B}' || c == '\U{000C}' || c == '\r'
    || c == ' ' || c == '\U{00A0}' || c == '\U{1680}'
    || ('\U{2000}' <= c <= '\U{200A}')
    || c == '\U{2028}' || c == '\U{2029}' || c == '\U{202F}' || c == '\U{205F}'
    || c == '\U{3000}' || c == '\U{FEFF}'
  }

  /** No character of `s` is white space. */
  predicate NoSpace(s: string) {
    forall i :: 0 <= i < |s| ==> !IsSpace(s[i])
  }

  /** Every character of `s` is white space. */
  predicate AllSpace(s: string) {
    forall i :: 0 <= i < |s| ==> IsSpace(s[i])
  }

  /** `s` without its leading run of white space. */
  function SkipSpaces(s: string): (r: string)
    ensures |r| <= |s|
    ensures |s| > 0 && IsSpace(s[0]) ==> |r| < |s|
    ensures r == s[|s| - |r|..]
    ensures AllSpace(s[..|s| - |r|])
    ensures |r| > 0 ==> !IsSpace(r[0])
  {
    if |s| > 0 && IsSpace(s[0]) then
      var r := SkipSpaces(s[1..]);
      SkipSpacesStep(s, r);
      r
    else s
  }

  /** Skipping one more blank in front keeps the cut a blank prefix. */
  lemma {:induction false} SkipSpacesStep(s: string, r: string)
    requires |s| > 0 && IsSpace(s[0]) && |r| < |s|
    requires r == s[1..][|s| - 1 - |r|..] && AllSpace(s[1..][..|s| - 1 - |r|])
    ensures r == s[|s| - |r|..] && AllSpace(s[..|s| - |r|])
  {
    var n := |s| - |r|;
    assert s[1..][n - 1..] == s[n..];
    forall i | 0 <= i < n
      ensures IsSpace(s[..n][i])
    {
      if i > 0 {
        assert s[..n][i] == s[1..][..n - 1][i - 1];
      }
    }
  }

  // ---------------------------------------------------------------------
  // replace(/\s+/g, '_')
  // ---------------------------------------------------------------------

  /** `s.replace(/\s+/g, '_')`: each maximal run of white space becomes one
      underscore. */
  function Collapse(s: string): (r: string)
    ensures |r| <= |s|
    ensures |r| == 0 <==> |s| == 0
    decreases |s|
  {
    if |s| == 0 then ""
    else if IsSpace(s[0]) then "_" + Collapse(SkipSpaces(s))
    else [s[0]] + Collapse(s[1..])
  }

  /** The characters of `s` that are neither white space nor an underscore,
      in order. */
  function Visible(s: string): string {
    if |s| == 0 then ""
    else if IsSpace(s[0]) || s[0] == '_' then Visible(s[1..])
    else [s[0]] + Visible(s[1..])
  }

  lemma {:induction false} VisibleOfSpaces(s: string)
    requires AllSpace(s)
    ensures Visible(s) == ""
  {
    if |s| > 0 {
      VisibleOfSpaces(s[1..]);
    }
  }

  lemma {:induction false} VisibleAppend(a: string, b: string)
    ensures Visible(a + b) == Visible(a) + Visible(b)
  {
    if |a| > 0 {
      assert (a + b)[1..] == a[1..] + b;
      VisibleAppend(a[1..], b);
    } else {
      assert a + b == b;
    }
  }

  lemma {:induction false} SkipSpacesVisible(s: string)
    ensures Visible(SkipSpaces(s)) == Visible(s)
  {
    var r := SkipSpaces(s);
    var p := s[..|s| - |r|];
    assert s == p + r;
    VisibleOfSpaces(p);
    VisibleAppend(p, r);
  }

  /** The collapsed name holds no white space. */
  lemma {:induction false} CollapseNoSpace(s: string)
    ensures NoSpace(Collapse(s))
    decreases |s|
  {
    if |s| == 0 {
    } else if IsSpace(s[0]) {
      CollapseNoSpace(SkipSpaces(s));
    } else {
      CollapseNoSpace(s[1..]);
    }
  }

  /** Collapsing keeps every non-blank character of the name, in order: only
      white space disappears and only underscores are inserted. */
  lemma {:induction false} CollapseKeepsVisible(s: string)
    ensures Visible(Collapse(s)) == Visible(s)
    decreases |s|
  {
    if |s| == 0 {
    } else if IsSpace(s[0]) {
      CollapseKeepsVisible(SkipSpaces(s));
      SkipSpacesVisible(s);
      VisibleAppend("_", Collapse(SkipSpaces(s)));
    } else {
      CollapseKeepsVisible(s[1..]);
      VisibleAppend([s[0]], Collapse(s[1..]));
    }
  }

  /** A name with no white space is unchanged. */
  lemma {:induction false} CollapseIdentity(s: string)
    requires NoSpace(s)
    ensures Collapse(s) == s
  {
    if |s| > 0 {
      CollapseIdentity(s[1..]);
    }
  }

  lemma {:induction false} SkipSpacesOfRun(ws: string, b: string)
    requires AllSpace(ws)
    requires |b| == 0 || !IsSpace(b[0])
    ensures SkipSpaces(ws + b) == b
    decreases |ws|
  {
    if |ws| > 0 {
      var t := ws[1..];
      assert AllSpace(t) by {
        forall i | 0 <= i < |t| ensures IsSpace(t[i]) {
          assert t[i] == ws[i + 1];
        }
      }
      assert (ws + b)[0] == ws[0];
      assert (ws + b)[1..] == t + b;
      SkipSpacesOfRun(t, b);
    } else {
      assert ws + b == b;
    }
  }

  lemma {:induction false} SkipSpacesPrefix(a: string, rest: string)
    requires |a| > 0 && !IsSpace(a[|a| - 1])
    ensures SkipSpaces(a + rest) == SkipSpaces(a) + rest
    decreases |a|
  {
    if IsSpace(a[0]) {
      assert (a + rest)[1..] == a[1..] + rest;
      SkipSpacesPrefix(a[1..], rest);
    }
  }

  lemma {:induction false} Regroup(p: string, x: string, q: string, y: string)
    ensures p + (x + q + y) == (p + x) + q + y
  {
  }

  lemma {:induction false} CollapseSpaceHead(s: string)
    requires |s| > 0 && IsSpace(s[0])
    ensures Collapse(s) == "_" + Collapse(SkipSpaces(s))
  {
  }

  lemma {:induction false} CollapseCons(c: char, s: string)
    requires !IsSpace(c)
    ensures Collapse([c] + s) == [c] + Collapse(s)
  {
    assert ([c] + s)[0] == c;
    assert ([c] + s)[1..] == s;
  }

  /** A run of white space at the very start becomes a leading underscore. */
  lemma {:induction false} CollapseRunAtStart(ws: string, b: string)
    requires |ws| > 0 && AllSpace(ws)
    requires |b| == 0 || !IsSpace(b[0])
    ensures Collapse(ws + b) == "_" + Collapse(b)
  {
    SkipSpacesOfRun(ws, b);
    CollapseSpaceHead(ws + b);
  }

  /** A whole run of white space, with no white space on either side of it,
      becomes exactly one underscore. */
  lemma {:induction false} CollapseRun(a: string, ws: string, b: string)
    requires |a| == 0 || !IsSpace(a[|a| - 1])
    requires |ws| > 0 && AllSpace(ws)
    requires |b| == 0 || !IsSpace(b[0])
    ensures Collapse(a + (ws + b)) == Collapse(a) + "_" + Collapse(b)
    decreases |a|
  {
    if |a| == 0 {
      assert a + (ws + b) == ws + b;
      CollapseRunAtStart(ws, b);
    } else {
      assert (a + (ws + b))[0] == a[0];
      if IsSpace(a[0]) {
        CollapseRunSpaceStep(a, ws, b);
      } else {
        CollapseRunCharStep(a, ws, b);
      }
    }
  }

  lemma {:induction false} CollapseRunSpaceStep(a: string, ws: string, b: string)
    requires |a| > 0 && IsSpace(a[0]) && !IsSpace(a[|a| - 1])
    requires |ws| > 0 && AllSpace(ws)
    requires |b| == 0 || !IsSpace(b[0])
    ensures Collapse(a + (ws + b)) == Collapse(a) + "_" + Collapse(b)
    decreases |a|, 0
  {
    var tail := ws + b;
    var a' := SkipSpaces(a);
    assert |a'| < |a|;
    assert |a'| > 0 ==> a'[|a'| - 1] == a[|a| - 1];
    SkipSpacesPrefix(a, tail);
    assert SkipSpaces(a + tail) == a' + tail;
    CollapseSpaceHead(a + tail);
    CollapseSpaceHead(a);
    CollapseRun(a', ws, b);
    Regroup("_", Collapse(a'), "_", Collapse(b));
  }

  lemma {:induction false} CollapseRunCharStep(a: string, ws: string, b: string)
    requires |a| > 0 && !IsSpace(a[0]) && !IsSpace(a[|a| - 1])
    requires |ws| > 0 && AllSpace(ws)
    requires |b| == 0 || !IsSpace(b[0])
    ensures Collapse(a + (ws + b)) == Collapse(a) + "_" + Collapse(b)
    decreases |a|, 0
  {
    var c, t := a[0], a[1..];
    assert a == [c] + t;
    assert a + (ws + b) == [c] + (t + (ws + b));
    CollapseCons(c, t + (ws + b));
    CollapseCons(c, t);
    assert |t| > 0 ==> t[|t| - 1] == a[|a| - 1];
    CollapseRun(t, ws, b);
    Regroup([c], Collapse(t), "_", Collapse(b));
  }

  // ---------------------------------------------------------------------
  // trim()
  // ---------------------------------------------------------------------

  /** `s` without its trailing run of white space. */
  function TrimEnd(s: string): (r: string)
    ensures |r| <= |s|
    ensures r == s[..|r|]
    ensures AllSpace(s[|r|..])
    ensures |r| > 0 ==> !IsSpace(r[|r| - 1])
  {
    if |s| > 0 && IsSpace(s[|s| - 1]) then TrimEnd(s[..|s| - 1]) else s
  }

  /** `String.prototype.trim`: leading and trailing white space removed. */
  function Trim(s: string): (r: string)
    ensures |r| <= |s|
  {
    TrimEnd(SkipSpaces(s))
  }

  /** A string that neither starts nor ends with white space is left as
      it is. */
  lemma {:induction false} TrimUntouched(s: string)
    requires |s| == 0 || (!IsSpace(s[0]) && !IsSpace(s[|s| - 1]))
    ensures Trim(s) == s
  {
    if |s| > 0 {
      assert SkipSpaces(s) == s;
    }
  }

  /** Where `trim()` cuts `s`: the kept part runs from `i` to `j`. */
  lemma {:induction false} TrimBounds(s: string) returns (i: nat, j: nat)
    ensures i <= j <= |s| && Trim(s) == s[i..j]
    ensures AllSpace(s[..i]) && AllSpace(s[j..])
  {
    var m := SkipSpaces(s);
    i := |s| - |m|;
    var r := TrimEnd(m);
    j := i + |r|;
    assert r == s[i..j];
    assert s[j..] == m[|r|..];
  }

  /** `trim()` cuts `s` into blank / kept / blank, and the kept part neither
      starts nor ends with white space. */
  lemma {:induction false} TrimSlice(s: string)
    ensures exists i, j :: 0 <= i <= j <= |s| && Trim(s) == s[i..j]
                           && AllSpace(s[..i]) && AllSpace(s[j..])
    ensures |Trim(s)| > 0 ==> !IsSpace(Trim(s)[0]) && !IsSpace(Trim(s)[|Trim(s)| - 1])
  {
    var i, j := TrimBounds(s);
    TrimEnds(s);
  }

  lemma {:induction false} TrimEnds(s: string)
    ensures |Trim(s)| > 0 ==> !IsSpace(Trim(s)[0]) && !IsSpace(Trim(s)[|Trim(s)| - 1])
  {
    var m := SkipSpaces(s);
    var r := TrimEnd(m);
    if |r| > 0 {
      assert r[0] == m[0];
    }
  }

  /** Trimming a trimmed string changes nothing. */
  lemma {:induction false} TrimTrimmed(s: string)
    ensures Trim(Trim(s)) == Trim(s)
  {
    TrimSlice(s);
    var t := Trim(s);
    if |t| > 0 {
      assert SkipSpaces(t) == t;
      assert TrimEnd(t) == t;
    }
  }

  // ---------------------------------------------------------------------
  // Decimal rendering of a natural number, as `${n}` prints it
  // ---------------------------------------------------------------------

  function DigitChar(d: nat): char
    requires d < 10
  {
    ('0' as int + d) as char
  }

  predicate IsDigit(c: char) {
    '0' <= c <= '9'
  }

  function DigitValue(c: char): nat
    requires IsDigit(c)
  {
    c as int - '0' as int
  }

  /** The decimal digits of `n`, without sign or leading zeros. */
  function Decimal(n: nat): (r: string)
    ensures |r| > 0
    ensures forall i :: 0 <= i < |r| ==> IsDigit(r[i])
    ensures r[0] == '0' <==> n == 0
  {
    if n < 10 then [DigitChar(n)]
    else
      var p := Decimal(n / 10);
      assert (p + [DigitChar(n % 10)])[0] == p[0];
      p + [DigitChar(n % 10)]
  }

  /** Reads a string of decimal digits back into a number. */
  function ParseDecimal(s: string): nat
    requires forall i :: 0 <= i < |s| ==> IsDigit(s[i])
  {
    if |s| == 0 then 0
    else ParseDecimal(s[..|s| - 1]) * 10 + DigitValue(s[|s| - 1])
  }

  /** Printing a number and reading it back gives the number. */
  lemma {:induction false} DecimalRoundTrip(n: nat)
    ensures ParseDecimal(Decimal(n)) == n
  {
    if n >= 10 {
      var s := Decimal(n);
      assert s[..|s| - 1] == Decimal(n / 10);
      DecimalRoundTrip(n / 10);
    }
  }

  /** Distinct numbers print differently. */
  lemma {:induction false} DecimalInjective(m: nat, n: nat)
    requires Decimal(m) == Decimal(n)
    ensures m == n
  {
    DecimalRoundTrip(m);
    DecimalRoundTrip(n);
  }
}

=== FILE: textures.dfy ===
/**
 * The procedural texture service: a texture name selects one of ten
 * generators, generated images are cached under a key built from the name
 * and the size, and the cache can be cleared. The generators' pixels
 * (random strokes and noise) are not modelled: an image is identified by
 * the generator and the size it was made with.
 */
module Textures {
  import opened Wrappers
  import opened Text

  datatype Generator =
    | Woodgrain | Halftone | Concrete | Sandstone | CanvasFabric
    | Leather | Denim | Marble | CarbonFiber | BrushedMetal

  /** A generated texture image. */
  datatype Image = Image(generator: Generator, width: nat, height: nat)

  /** The names the service accepts; `sand` is a second name for sandstone. */
  const KnownNames: set<string> :=
    {"woodgrain", "halftone", "concrete", "sandstone", "sand", "canvas",
     "leather", "denim", "marble", "carbon", "brushedmetal"}

  /** The name each generator is listed under first. */
  function NameOf(g: Generator): string
  {
    match g
    case Woodgrain => "woodgrain"
    case Halftone => "halftone"
    case Concrete => "concrete"
    case Sandstone => "sandstone"
    case CanvasFabric => "canvas"
    case Leather => "leather"
    case Denim => "denim"
    case Marble => "marble"
    case CarbonFiber => "carbon"
    case BrushedMetal => "brushedmetal"
  }

  /** The generator a texture name selects; names are matched exactly, so
      `brushedMetal` or `Woodgrain` select none. */
  function GeneratorFor(name: string): (r: Option<Generator>)
    ensures r.Some? <==> name in KnownNames
    ensures r.Some? ==> name == NameOf(r.value) || (name == "sand" && r.value == Sandstone)
  {
    if name == "woodgrain" then Some(Woodgrain)
    else if name == "halftone" then Some(Halftone)
    else if name == "concrete" then Some(Concrete)
    else if name == "sandstone" || name == "sand" then Some(Sandstone)
    else if name == "canvas" then Some(CanvasFabric)
    else if name == "leather" then Some(Leather)
    else if name == "denim" then Some(Denim)
    else if name == "marble" then Some(Marble)
    else if name == "carbon" then Some(CarbonFiber)
    else if name == "brushedmetal" then Some(BrushedMetal)
    else None
  }

  /** Every generator is reachable by its own name. */
  lemma {:induction false} GeneratorForName(g: Generator)
    ensures GeneratorFor(NameOf(g)) == Some(g)
  {
  }

  /** Two names select the same generator only when they are the same name
      or the two names of sandstone. */
  lemma {:induction false} GeneratorForInjective(a: string, b: string)
    requires GeneratorFor(a).Some? && GeneratorFor(a) == GeneratorFor(b)
    ensures a == b || {a, b} == {"sand", "sandstone"}
  {
  }

  /** The size used when the caller gives none. */
  const DefaultSize: nat := 512

  /** `${textureName}_${width}_${height}`, the sizes defaulting to 512. */
  function CacheKey(name: string, w: Option<nat>, h: Option<nat>): (r: string)
    ensures |name| + 4 <= |r| && r[..|name|] == name && r[|name|] == '_'
    ensures r[|r| - 1] != '_'
  {
    name + "_" + Decimal(w.GetOr(DefaultSize)) + "_" + Decimal(h.GetOr(DefaultSize))
  }

  /** A string of digits holds no underscore. */
  predicate Digits(s: string)
  {
    forall i :: 0 <= i < |s| ==> IsDigit(s[i])
  }

  /** Position of the last underscore of `s`. */
  function LastUnderscore(s: string): (r: Option<nat>)
    ensures r.Some? ==> r.value < |s| && s[r.value] == '_'
  {
    if |s| == 0 then None
    else if s[|s| - 1] == '_' then Some(|s| - 1)
    else LastUnderscore(s[..|s| - 1])
  }

  /** The last underscore of `a + "_" + d` is the one after `a` when `d` is
      all digits. */
  lemma {:induction false} LastUnderscoreOf(a: string, d: string)
    requires Digits(d)
    ensures LastUnderscore(a + "_" + d) == Some(|a|)
    decreases |d|
  {
    var s := a + "_" + d;
    if |d| > 0 {
      assert s[|s| - 1] == d[|d| - 1];
      assert s[..|s| - 1] == a + "_" + d[..|d| - 1];
      LastUnderscoreOf(a, d[..|d| - 1]);
    }
  }

  /** Splitting at the last underscore: when `a + "_" + d` equals
      `b + "_" + e` and `d`, `e` are digits, the parts agree. */
  lemma {:induction false} SplitLastUnderscore(a: string, d: string, b: string, e: string)
    requires Digits(d) && Digits(e)
    requires a + "_" + d == b + "_" + e
    ensures a == b && d == e
  {
    var s := a + "_" + d;
    LastUnderscoreOf(a, d);
    LastUnderscoreOf(b, e);
    assert a == s[..|a|] == b;
    assert d == s[|a| + 1..] == e;
  }

  /** Different requests never share a cache entry: the key determines the
      name and both sizes. */
  lemma {:induction false} CacheKeyInjective(n1: string, w1: nat, h1: nat, n2: string, w2: nat, h2: nat)
    ensures CacheKey(n1, Some(w1), Some(h1)) == CacheKey(n2, Some(w2), Some(h2)) ==> n1 == n2 && w1 == w2 && h1 == h2
  {
    if CacheKey(n1, Some(w1), Some(h1)) == CacheKey(n2, Some(w2), Some(h2)) {
      SplitLastUnderscore(n1 + "_" + Decimal(w1), Decimal(h1), n2 + "_" + Decimal(w2), Decimal(h2));
      SplitLastUnderscore(n1, Decimal(w1), n2, Decimal(w2));
      DecimalInjective(w1, w2);
      DecimalInjective(h1, h2);
    }
  }

  /** Leaving a size out is the same request as asking for 512. */
  lemma {:induction false} CacheKeyDefaults(name: string)
    ensures CacheKey(name, None, None) == CacheKey(name, Some(512), Some(512))
  {
  }

  datatype TextureError = UnknownTexture(name: string) | LoadFailed

  /** The cache: generated images by key. */
  type Cache = map<string, Image>

  /** The outcome of one request and the cache after it. */
  datatype Fetch = Fetch(result: Result<Image, TextureError>, cache: Cache)

  /** `getTexture(name, width, height)`. A cached key answers from the cache
      without generating; an unknown name is rejected; otherwise the image is
      generated and, once it loads (`loads`, the browser's decision), cached
      and returned. A failed load leaves the cache as it was. */
  function GetTexture(cache: Cache, name: string, w: Option<nat>, h: Option<nat>, loads: bool): (r: Fetch)
    ensures CacheKey(name, w, h) in cache ==> r == Fetch(Ok(cache[CacheKey(name, w, h)]), cache)
    ensures CacheKey(name, w, h) !in cache && name !in KnownNames ==>
      r == Fetch(Err(UnknownTexture(name)), cache)
    ensures CacheKey(name, w, h) !in cache && name in KnownNames ==>
      if loads then
        r.result == Ok(Image(GeneratorFor(name).value, w.GetOr(DefaultSize), h.GetOr(DefaultSize))) &&
        r.cache == cache[CacheKey(name, w, h) := r.result.value]
      else r == Fetch(Err(LoadFailed), cache)
    ensures r.result.Ok? ==> CacheKey(name, w, h) in r.cache && r.cache[CacheKey(name, w, h)] == r.result.value
    ensures forall k :: k in cache ==> k in r.cache && r.cache[k] == cache[k]
  {
    var key := CacheKey(name, w, h);
    if key in cache then Fetch(Ok(cache[key]), cache)
    else match GeneratorFor(name)
      case None => Fetch(Err(UnknownTexture(name)), cache)
      case Some(g) =>
        if loads then
          var img := Image(g, w.GetOr(DefaultSize), h.GetOr(DefaultSize));
          Fetch(Ok(img), cache[key := img])
        else Fetch(Err(LoadFailed), cache)
  }

  /** A second request for the same texture is answered from the cache with
      the same image, whatever the browser would do with a new load. */
  lemma {:induction false} GetTextureCached(cache: Cache, name: string, w: Option<nat>, h: Option<nat>, loads: bool, again: bool)
    requires GetTexture(cache, name, w, h, loads).result.Ok?
    ensures var first := GetTexture(cache, name, w, h, loads);
            GetTexture(first.cache, name, w, h, again) == Fetch(first.result, first.cache)
  {
  }

  /** While every cache entry holds the image its key asks for, which the
      service keeps true, a request is answered with an image of the
      generator its name selects, at the size asked for. */
  lemma {:induction false} GetTextureStable(cache: Cache, name: string, w: Option<nat>, h: Option<nat>, loads: bool)
    requires forall k :: k in cache ==> CacheEntryFor(k, cache[k])
    ensures var r := GetTexture(cache, name, w, h, loads);
            r.result.Ok? ==>
              GeneratorFor(name) == Some(r.result.value.generator) &&
              r.result.value.width == w.GetOr(DefaultSize) && r.result.value.height == h.GetOr(DefaultSize)
    ensures forall k :: k in GetTexture(cache, name, w, h, loads).cache ==>
      CacheEntryFor(k, GetTexture(cache, name, w, h, loads).cache[k])
  {
    var key := CacheKey(name, w, h);
    if key in cache {
      var img := cache[key];
      var n: string, a: nat, b: nat :| KeyOf(n, a, b, key, img);
      CacheKeyInjective(n, a, b, name, w.GetOr(DefaultSize), h.GetOr(DefaultSize));
    } else if name in KnownNames && loads {
      assert KeyOf(name, w.GetOr(DefaultSize), h.GetOr(DefaultSize), key, GetTexture(cache, name, w, h, loads).result.value);
    }
  }

  /** `k` is the key of a request for `n` at `a` by `b` that `img` answers. */
  ghost predicate KeyOf(n: string, a: nat, b: nat, k: string, img: Image)
  {
    k == CacheKey(n, Some(a), Some(b)) && GeneratorFor(n) == Some(img.generator) &&
    img.width == a && img.height == b
  }

  /** A cache entry holds the image its key asks for. */
  ghost predicate CacheEntryFor(k: string, img: Image)
  {
    exists n: string, a: nat, b: nat :: KeyOf(n, a, b, k, img)
  }

  /** `clearTextureCache()`: every later request generates afresh. */
  function ClearCache(cache: Cache): (r: Cache)
    ensures forall name, w, h, loads :: GetTexture(r, name, w, h, loads).result.Ok? ==>
      name in KnownNames && loads
  {
    map[]
  }
}

=== FILE: wrappers.dfy ===
/** Failure-carrying datatypes shared by every module of the model. */
module Wrappers {

  /** A JavaScript value that may be `undefined`. */
  datatype Option<+T> = None | Some(value: T) {

    /** The carried value, or `default` when there is none. */
    function GetOr(default: T): T {
      match this
      case Some(v) => v
      case None => default
    }
  }

  /** The outcome of an operation that can reject: a value or an error. */
  datatype Result<+T, +E> = Ok(value: T) | Err(error: E) {

    predicate IsOk() {
      Ok?
    }
  }
}
